=== FILE: README.md ===
# Confluence AI assistant: a Dafny model of its deterministic core

This project models the parts of the Confluence AI assistant that are
plain string, list and table logic, and proves properties about them. It
covers two sides of the system.

The FastAPI backend (`backend/main.py`):
- the change-impact engine: unified-diff metrics, risk level and score,
  the Stack Overflow rule scanner with its fallback links, the two
  risk-factor extractors, the prompt sanitiser, severity tagging and the
  Q&A context;
- its helpers: timestamp extraction from a video summary, the
  document-analysis section parser, the AI CSV cleaner, language
  detection and the fallback language chain, the save and preview body
  of a Confluence page, space auto-detection and emoji removal.

The React front end:
- the agent mode's instruction splitting, tool routing and
  page-to-instruction matcher;
- the code assistant's `processCode` pipeline dispatch;
- the test support tool's validators, workflow guard and report content;
- the impact analyzer's displayed level;
- the AI search panel's page selection and history;
- the markdown formatters for the six tools' outputs;
- the feature table.

Every model is deterministic. Things outside the program's own code
become parameters:
- the language model is a function from a prompt to an optional answer;
- the Stack Exchange search is a function from a query to a response
  that may be an error;
- the backend endpoints called by the front end are functions from
  requests to replies.

A difflib diff becomes an edit script between the two line lists. The
script is an input, and the model renders the unified diff from it.
Percentages are integers in hundredths of a percent, and Python's
round-half-to-even is written out.

Modules: `Text` (shared string helpers), `DiffMetrics`, `ImpactReport`,
`Narrative`, `RiskScanner`, `Timestamps`, `DocSections`,
`BackendHelpers`, `AgentMode`, `CodeAssistant`, `TestSupport`,
`ImpactView`, `SearchPanel`, `OutputFormatters` and `FeatureConfig`.

## Model

| member | source | states |
|---|---|---|
| DiffMetrics.KeepAll | UI-main/backend/main.py:1409-1410 | for identical texts the edit script keeps every line, one step per line |
| DiffMetrics.RenderBody | UI-main/backend/main.py:1409-1410 | the unified diff has one body line per edit step |
| DiffMetrics.UnifiedDiff | UI-main/backend/main.py:1409-1410 | the diff is empty exactly when the script changes nothing; otherwise it is the `--- ` and `+++ ` file headers followed by one line per edit step |
| DiffMetrics.CountAdded | UI-main/backend/main.py:1413 | the added-line count never exceeds the number of diff lines |
| DiffMetrics.CountRemoved | UI-main/backend/main.py:1414 | the removed-line count never exceeds the number of diff lines |
| DiffMetrics.AddStepsBound | UI-main/backend/main.py:1409-1414 | counted additions ≤ add steps ≤ new lines; counted removals ≤ remove steps ≤ old lines |
| DiffMetrics.AllVisible | UI-main/backend/main.py:1413-1414 | when no changed line starts with `++` or `--`, every add and remove step is counted |
| DiffMetrics.RenderedLineCounts | UI-main/backend/main.py:1413-1414 | a rendered line counts as added exactly when it is an addition not starting with `++`, and as removed exactly when it is a removal not starting with `--` |
| DiffMetrics.CountBody | UI-main/backend/main.py:1413-1414 | the counts over the diff body are the counts of visible add and remove steps |
| DiffMetrics.NoChangeNoSteps | UI-main/backend/main.py:1409 | a script without a change has no add and no remove step |
| DiffMetrics.CountsOfUnifiedDiff | UI-main/backend/main.py:1409-1414 | the `---`/`+++` file headers are never counted; the counts are those of the visible steps |
| DiffMetrics.DoubledMarkerLinesUncounted | UI-main/backend/main.py:1413-1414 | an added line `++x` and a removed line `--x` are counted as neither added nor removed |
| DiffMetrics.RoundHalfEven | UI-main/backend/main.py:1416 | the result is the nearest integer to n/d, and an exact tie gives the even neighbour |
| DiffMetrics.RoundHalfEvenMonotone | UI-main/backend/main.py:1416 | rounding is monotone in the numerator (also line 1533) |
| DiffMetrics.TotalLines | UI-main/backend/main.py:1415 | the denominator is at least 1 and equals the old line count when there is one |
| DiffMetrics.PercentHundredths | UI-main/backend/main.py:1416 | the value is 100·changed/total rounded to hundredths; no change gives 0 |
| DiffMetrics.ComputeMetrics | UI-main/backend/main.py:1413-1416 | the counts are bounded by the diff, the total is at least 1, and no counted change gives 0 percent |
| DiffMetrics.IdenticalTextsNoChange | UI-main/backend/main.py:1407-1416 | identical texts give an empty diff: 0 added, 0 removed, 0 percent |
| DiffMetrics.CountsBoundedByScript | UI-main/backend/main.py:1407-1416 | added ≤ new line count and removed ≤ old line count |
| DiffMetrics.PercentCanExceedHundred | UI-main/backend/main.py:1416 | replacing one line by two gives 300 percent |
| DiffMetrics.LevelFromPercent | UI-main/backend/main.py:1532 | low iff p < 10, medium iff 10 ≤ p < 30, high iff p ≥ 30 |
| DiffMetrics.ScoreFromPercent | UI-main/backend/main.py:1533 | the score always lies in 1..10 |
| DiffMetrics.LevelMonotone | UI-main/backend/main.py:1532 | a larger change never gets a lower level |
| DiffMetrics.ScoreMonotone | UI-main/backend/main.py:1533 | a larger change never gets a lower score |
| DiffMetrics.LevelBoundaries | UI-main/backend/main.py:1532 | 9.99 is low, 10 medium, 29.99 medium, 30 high |
| DiffMetrics.ScoreTiesToEven | UI-main/backend/main.py:1533 | 25% scores 2 yet is medium; 15% scores 2, 35% scores 4; 0 is clamped up to 1 and 200% down to 10 |
| ImpactReport.SplitLinesJoin | UI-main/backend/main.py:1407-1408 | `splitlines` of non-empty lines joined by newlines gives back the lines |
| ImpactReport.MetricsCountScript | UI-main/backend/main.py:1407-1416 | the report's counts are the visible add and remove steps between the two texts, and its total is the old line count floored at 1 (also lines 1558-1567) |
| ImpactReport.AnswerOf | UI-main/backend/main.py:1505-1521 | with an empty question no model call is made and the answer is `null` for pages and `""` for code; otherwise exactly one question prompt is sent (built on the page context for pages, on the safe diff for code), the answer fails iff that call fails, and a reply is returned stripped (also lines 1642-1651) |
| ImpactReport.SectionsOf | UI-main/backend/main.py:1439-1470 | the narrative fails exactly when any of the four model calls (impact, recommendations, risk, risk factors) fails; otherwise the impact and the recommendations are the stripped answers, the risk analysis is the stripped risk answer with its severity markers (untagging gives the stripped answer back), and the factors are those extracted from the factor answer by the endpoint's own rule |
| ImpactReport.ReportOf | UI-main/backend/main.py:1367-1541 | missing content fails, and nothing else fails that way; with both texts a report is produced exactly when the four section calls and the follow-up answer succeed; its impact, recommendations, risk analysis and factors are those sections, its answer is the follow-up answer, its diff the rendered diff and one file changed; its level and score come from its percent change, the score lies in 1..10, the metrics are those of the diff; with the scanner on the citations are exactly the twelve-rule scanner's findings on the old and new content joined by a newline (with the Stack Exchange search as an oracle), with it off there are none; the risk text untags to the stripped risk answer (also lines 1543-1676) |
| ImpactReport.AnsweredCallsGiveReport | UI-main/backend/main.py:1367-1541 | when both texts are present and every model call answers, a report is produced whose impact and recommendations are the stripped answers, whose risk analysis is the tagged stripped risk answer and whose factors are the extracted factors |
| ImpactReport.MetricsOf | UI-main/backend/main.py:1407-1416 | the total is at least 1 and at least the number of old lines; each count is bounded by the number of diff lines; no counted change gives 0 percent |
| ImpactReport.Factors | UI-main/backend/main.py:1492-1493 | no more factors than lines of the stripped answer; for pages every factor is stripped of bullets and white space, for pasted code each factor is what follows `- ` on some line of the answer (also line 1639) |
| ImpactReport.CitationsOf | UI-main/backend/main.py:1498-1502 | with the scanner switched off there are no citations, and there are never more than the twelve rules |
| ImpactReport.ContextOf | UI-main/backend/main.py:1507-1512 | the follow-up context begins with `Summary: `, the first 1000 characters of the impact and a newline, and ends with the `%` of the change line |
| ImpactReport.ModelFailureFailsRequest | UI-main/backend/main.py:1459-1470 | a failing model call for the risk narrative fails the whole request (also lines 1540-1541) |
| ImpactReport.IdenticalTextsReportNoChange | UI-main/backend/main.py:1407-1416 | identical texts report 0 added, 0 removed, 0 percent, low level, score 1 (also lines 1532-1533) |
| ImpactReport.ScanDisabledNoCitations | UI-main/backend/main.py:1498-1502 | with the scanner switched off there are no citations (also lines 1655-1657) |
| ImpactReport.DirectCodeCounts | UI-main/backend/main.py:1558-1567 | the direct-code variant counts the visible steps of the script between the two code texts |
| ImpactReport.FailedSearchCitationsHaveTwoLinks | UI-main/backend/main.py:1498-1502 | when every Stack Exchange call fails, each citation of a finished report carries exactly the two fallback links |
| ImpactReport.ForVarCitedTwiceInReport | UI-main/backend/main.py:1498-1502 | content with a `for (var` loop is cited at least twice in the report, once for that rule and once for the `var` rule |
| ImpactReport.CitationsIgnoreCase | UI-main/backend/main.py:1498-1502 | two requests whose scanned text differs only in letter case get the same citations |
| ImpactReport.VariantsDisagreeOnStarBullets | UI-main/backend/main.py:1492-1493 | a `* x` line is a factor in the pages variant and is dropped by the direct-code variant (also line 1639) |
| Narrative.StripTags | UI-main/backend/main.py:1420 | tag removal never lengthens the text and keeps only characters of the input |
| Narrative.StripTagsLeavesNoTag | UI-main/backend/main.py:1420 | after removal no `<…>` tag is left |
| Narrative.StripTagsKeepsTagless | UI-main/backend/main.py:1420 | a text without a tag is unchanged |
| Narrative.StripTagsIdempotent | UI-main/backend/main.py:1420 | removing tags twice is removing them once |
| Narrative.KeepUpToKeepsNoTag | UI-main/backend/main.py:1421 | dropping non-ASCII characters cannot create a tag |
| Narrative.KeepUpToCharsFrom | UI-main/backend/main.py:1421 | every character kept comes from the input |
| Narrative.SanitisePrompt | UI-main/backend/main.py:1419-1422 | the prompt has at most 10000 characters, all ASCII, and holds no tag |
| Narrative.SanitiseKeepsPlainText | UI-main/backend/main.py:1419-1422 | a short ASCII text without tags passes unchanged |
| Narrative.SeverityWordAt | UI-main/backend/main.py:1462-1470 | a match is exactly `Low`, `Medium` or `High`, as a whole word at that position |
| Narrative.NoBareSeverityWord | UI-main/backend/main.py:1462-1470 | where no word character precedes, the tagged text never begins with a bare `Low`, `Medium` or `High` word: a word that stands alone there has its marker |
| Narrative.TaggedWordFound | UI-main/backend/main.py:1462-1470 | a severity word at the start of the text is found again, the same word, behind its own marker and a space in the tagged text |
| Narrative.UntagTagSeverity | UI-main/backend/main.py:1462-1470 | removing the markers gives back the original text |
| Narrative.TagSeverity | UI-main/backend/main.py:1462-1470 | tagging only inserts: the text never gets shorter (that it inserts nothing but markers: Narrative.UntagTagSeverity) |
| Narrative.UntagSeverity | UI-main/backend/main.py:1462-1470 | untagging only removes: the text never gets longer |
| Narrative.TagRiskNarrative | UI-main/backend/main.py:1462-1470 | tagging only inserts markers: untagging restores the narrative exactly (where each marker goes: Narrative.TagRiskNarrativeWord) |
| Narrative.SeverityWordAtPrefix | UI-main/backend/main.py:1463 | a text ending in a non-word character has the same severity word at its start whatever text follows it, because `\b` needs the word to end inside it |
| Narrative.TagAppendFrom | UI-main/backend/main.py:1462-1470 | from either word state, tagging `a + b` where `a` ends in a non-word character is tagging `a` followed by tagging `b` on its own |
| Narrative.TagAppend | UI-main/backend/main.py:1462-1470 | the substitution splits at every non-word character: tagging `a + b` is tagging `a` then tagging `b` |
| Narrative.TagWordThenRest | UI-main/backend/main.py:1462-1470 | a severity word at the start, followed by the end or a non-word character, gets its emoji and a space, and the rest is tagged on its own |
| Narrative.TagWordInContext | UI-main/backend/main.py:1462-1470 | a `Low`, `Medium` or `High` between word boundaries anywhere in the text gets exactly its own emoji and a space in front, and the text on either side is tagged as it would be alone |
| Narrative.TagRiskNarrativeWord | UI-main/backend/main.py:1462-1470 | the same placement law stated for the tagged risk narrative |
| Narrative.TagExamples | UI-main/backend/main.py:1462-1470 | `High` gets the red marker; `Lower` is not a whole word and is left alone |
| Narrative.StripBullets | UI-main/backend/main.py:1493 | the result is a suffix of the line; everything dropped is a bullet mark or space, and the result does not start with one |
| Narrative.NormaliseFactor | UI-main/backend/main.py:1493 | a factor neither starts with a bullet mark nor ends in white space |
| Narrative.LineFactor | UI-main/backend/main.py:1492-1493 | each line gives at most one factor, and each factor is clean |
| Narrative.BulletFactors | UI-main/backend/main.py:1492-1493 | there are no more factors than lines |
| Narrative.BulletFactorsCount | UI-main/backend/main.py:1492-1493 | there is exactly one factor per non-blank line: nothing is de-duplicated |
| Narrative.BulletFactorsClean | UI-main/backend/main.py:1492-1493 | every factor is stripped of bullets and white space |
| Narrative.BulletFactorsAppend | UI-main/backend/main.py:1492-1493 | extraction is line by line, so it keeps the order of the lines |
| Narrative.ExtractRiskFactors | UI-main/backend/main.py:1492-1493 | one factor per non-blank line of the stripped answer, each stripped of bullets and white space |
| Narrative.MarkerOnlyLineGivesEmptyFactor | UI-main/backend/main.py:1492-1493 | a `---` line gives an empty factor |
| Narrative.SpaceBulletStripped | UI-main/backend/main.py:1493 | leading spaces are stripped as bullet marks |
| Narrative.StarBulletNormalised | UI-main/backend/main.py:1493 | `* x` normalises to `x` |
| Narrative.StarBulletKeptByBulletFactors | UI-main/backend/main.py:1492-1493 | the pages variant keeps `* x` as the factor `x` |
| Narrative.DashFactor | UI-main/backend/main.py:1639 | a line gives a factor only when its trimmed form starts with `- `, and the factor is what follows |
| Narrative.DashFactors | UI-main/backend/main.py:1639 | there are no more factors than lines |
| Narrative.DashFactorsAppend | UI-main/backend/main.py:1639 | extraction keeps the order of the lines |
| Narrative.ExtractDashFactors | UI-main/backend/main.py:1639 | no more factors than lines, and each factor is what follows `- ` on some line of the stripped answer |
| Narrative.DashFactorsFromLines | UI-main/backend/main.py:1639 | every extracted factor comes from a line whose stripped text is `- ` followed by it |
| Narrative.StarBulletDroppedByDashFactors | UI-main/backend/main.py:1639 | the direct-code variant drops a `* x` line |
| Narrative.FormatHundredths | UI-main/backend/main.py:1511 | Python's float repr of a whole number of hundredths: the whole part, a dot, then one decimal or two, two exactly when the hundredths digit is non-zero; it ends in `0` only for a whole number (`3.0`, `12.5`, `12.34`) |
| Narrative.QaContextSeesOnlyBudget | UI-main/backend/main.py:1507-1512 | two sections that agree on their first 1000 characters give the same Q&A context |
| Narrative.QaContextBounded | UI-main/backend/main.py:1507-1512 | the context length is bounded by three 1000-character budgets plus the fixed text |
| Narrative.QaContext | UI-main/backend/main.py:1507-1512 | the context begins with `Summary: `, the first 1000 characters of the impact and a newline, and ends with the `%` of the change line |
| RiskScanner.QuestionLinks | UI-main/backend/main.py:754-760 | at most one link per item, each a Stack Overflow question URL |
| RiskScanner.QuestionLinksSingle | UI-main/backend/main.py:754-760 | an item gives the question URL of its id when it has a non-zero id, and nothing otherwise |
| RiskScanner.QuestionLinksAppend | UI-main/backend/main.py:754-760 | the links of `a + b` are the links of `a` followed by those of `b`: items are read in order, each on its own |
| RiskScanner.SearchStackOverflow | UI-main/backend/main.py:726-768 | a failed call gives the mock links; a successful one gives at most `limit` links, each a question URL |
| RiskScanner.SearchTakesFirstLinks | UI-main/backend/main.py:754-760 | a successful answer without items gives no link; with items the links are exactly the first `limit` question links of the items, in order |
| RiskScanner.MockLinks | UI-main/backend/main.py:764-768 | two distinct links, both question URLs beginning with `mock-` |
| RiskScanner.NoItemsNoLinks | UI-main/backend/main.py:752-760 | a successful answer without usable items gives no link |
| RiskScanner.MockLinksHaveNoSpace | UI-main/backend/main.py:765-768 | the mock links carry the query with its spaces replaced |
| RiskScanner.FailedSearchGivesTwoLinks | UI-main/backend/main.py:765-768 | when the search always fails, every finding carries exactly two links (also lines 923-924) |
| RiskScanner.RiskRules | UI-main/backend/main.py:774-916 | the table has twelve rules |
| RiskScanner.RiskRulesDetectors | UI-main/backend/main.py:774-916 | rule 1 searches `eval(`, rule 6 is the `var` keyword and rule 7 the `for (var` loop |
| RiskScanner.DisplayPattern | UI-main/backend/main.py:927 | the shown pattern has no backslash and is no longer than the rule |
| RiskScanner.DisplayPatternPlain | UI-main/backend/main.py:927 | a pattern without backslashes is shown as written |
| RiskScanner.DisplayDropsEscape | UI-main/backend/main.py:927 | each backslash is removed, and only it |
| RiskScanner.DisplayPatternAppend | UI-main/backend/main.py:927 | backslash removal works piece by piece |
| RiskScanner.FindingOf | UI-main/backend/main.py:923-933 | a finding carries the rule's level, the advice's description, alternatives and deprecation, the rule's pattern shown without backslashes, and the Stack Overflow links (three at most) for the first search term, or for the shown pattern when the advice has none |
| RiskScanner.FiredUpTo | UI-main/backend/main.py:918-935 | the rules that fire, in table order, each once, exactly those whose detector matches |
| RiskScanner.FindingsUpTo | UI-main/backend/main.py:918-935 | one finding per fired rule, in table order |
| RiskScanner.Fired | UI-main/backend/main.py:920-921 | a rule fires iff its detector matches the lower-cased content |
| RiskScanner.Findings | UI-main/backend/main.py:918-935 | at most one finding per rule |
| RiskScanner.Scan | UI-main/backend/main.py:918-935 | the loop's findings are the table-order findings |
| RiskScanner.CheckRisks | UI-main/backend/main.py:770-939 | the scan uses the twelve rules and their advice |
| RiskScanner.ForVarAlsoFiresVar | UI-main/backend/main.py:835 | content that fires the `for (var` rule also fires the `var` rule (also line 847) |
| RiskScanner.ForVarCitedTwice | UI-main/backend/main.py:918-935 | content that fires the `for (var` rule yields at least two findings |
| RiskScanner.LiteralEvalFiresEvalRule | UI-main/backend/main.py:921 | `literal_eval(` fires the `eval(` rule, because the search is unanchored |
| RiskScanner.ScanIgnoresCase | UI-main/backend/main.py:921 | contents equal up to case give the same findings |
| RiskScanner.UpperCaseEvalFires | UI-main/backend/main.py:921 | `EVAL(x)` fires the eval rule |
| RiskScanner.RiskRulesNeedNonLetters | UI-main/backend/main.py:774-916 | no rule can match text made of letters only |
| RiskScanner.PlainWordFiresNothing | UI-main/backend/main.py:920-935 | letters-only content gives no finding |
| RiskScanner.NothingFired | UI-main/backend/main.py:920-935 | when no detector matches, no rule fires |
| Timestamps.MatchTimestamp | UI-main/backend/main.py:673-676 | a match has a bracketed range of at least nine characters, followed by shorter text; the lines it accepts are given by Timestamps.TimestampLineEntry |
| Timestamps.Entry | UI-main/backend/main.py:673-682 | a line holding a timestamp range gives an entry starting with `[` |
| Timestamps.TimestampLineEntry | UI-main/backend/main.py:673-676 | for a range `r` of the form `\d{1,2}:\d{2}-\d{1,2}:\d{2}`, any white space `w` and a stripped text `x`, both `[r]wx` and `* [r]wx` give the entry `[r] x`: the range and text are recovered exactly |
| Timestamps.TimestampsOf | UI-main/backend/main.py:661-683 | at most one entry per line of the summary |
| Timestamps.Scan | UI-main/backend/main.py:665-682 | at most one entry per line |
| Timestamps.ExtractTimestamps | UI-main/backend/main.py:661-683 | the loop with its `collecting` flag computes the line-by-line scan |
| Timestamps.NoHeaderNoTimestamps | UI-main/backend/main.py:666-667 | no `Timestamps:` line means no entries |
| Timestamps.OnlyAfterFirstHeader | UI-main/backend/main.py:665-669 | only the lines after the first header are read |
| Timestamps.CollectingSkipsHeadersAndStops | UI-main/backend/main.py:666-682 | while collecting, a later header is skipped, a stop line ends the scan, and any other line gives its entry |
| Timestamps.StopEndsCollection | UI-main/backend/main.py:670-671 | nothing after a blank or `**` line is read |
| Timestamps.BulletLineEntry | UI-main/backend/main.py:677-679 | a `- x` line gives `x` |
| Timestamps.DashStripped | UI-main/backend/main.py:677-679 | the leading `- ` is stripped |
| Timestamps.NoTimestampWithoutBracket | UI-main/backend/main.py:673 | text not starting with `[` or `*` holds no timestamp match |
| DocSections.SectionLines | UI-main/backend/main.py:2213 | a section has at least one line |
| DocSections.HeaderLoop | UI-main/backend/main.py:2211-2224 | the loop computes the `## ` section pass |
| DocSections.ParagraphLoop | UI-main/backend/main.py:2229-2239 | the loop computes the paragraph pass |
| DocSections.ParseSections | UI-main/backend/main.py:2202-2248 | the parser computes the three-stage analysis |
| DocSections.EvenSplitRoundTrip | UI-main/backend/main.py:2242-2248 | the four parts of the even split joined with newlines give back the text; with n = (line count)//4 the first three parts have n lines each and the last the remaining lines |
| DocSections.ShortTextAllInLast | UI-main/backend/main.py:2242-2248 | a text of fewer than four lines goes entirely into the last part |
| DocSections.HeaderPassAppend | UI-main/backend/main.py:2211-2224 | the section pass works section by section |
| DocSections.UnrelatedSectionsIgnored | UI-main/backend/main.py:2211-2224 | sections that match no keyword change nothing |
| DocSections.MaintainabilityHeaderWins | UI-main/backend/main.py:2217-2224 | a header naming maintainability fills maintainability only, even when it also names usability or another topic |
| DocSections.MaintainabilityParagraphWins | UI-main/backend/main.py:2231-2239 | a paragraph mentioning maintainability fills maintainability only, with the trimmed paragraph |
| DocSections.HeaderPassKeepsMaintainability | UI-main/backend/main.py:2211-2224 | with no header naming maintainability, the header pass leaves maintainability as it was |
| DocSections.ParagraphPassKeepsMaintainability | UI-main/backend/main.py:2229-2239 | with no paragraph mentioning maintainability, the paragraph pass leaves maintainability as it was |
| DocSections.ParagraphFallbackTaken | UI-main/backend/main.py:2226-2248 | with no header naming maintainability, the result is the paragraph pass when that finds maintainability, and the even split otherwise |
| DocSections.EvenSplitFallbackTaken | UI-main/backend/main.py:2241-2248 | with no header and no paragraph naming maintainability, the result is the even split |
| DocSections.Sections | UI-main/backend/main.py:2202-2248 | either maintainability was found by one of the two passes, or the result is the even split of the text |
| BackendHelpers.DropEmojis | UI-main/backend/main.py:193-202 | no emoji is left; every non-emoji character of the input is kept and none is added; emoji-free text comes back unchanged; the result is no longer than the input |
| BackendHelpers.RemoveEmojis | UI-main/backend/main.py:193-202 | the result is no longer than the text, holds only characters up to U+00FF and no emoji, and a text of such characters only is unchanged |
| BackendHelpers.RemoveEmojisIsLatin1Filter | UI-main/backend/main.py:193-202 | emoji removal keeps exactly the characters up to U+00FF |
| BackendHelpers.DetectLanguage | UI-main/backend/main.py:1306-1321 | each language is returned exactly when its test holds and every earlier test in the chain fails: XML, HTML, JSON, Java, C++, Python, JavaScript, then plain text |
| BackendHelpers.DetectionOrder | UI-main/backend/main.py:1306-1321 | for text that is neither XML nor HTML: a leading `{` gives JSON; a C++ marker wins over `def `; `def ` with `function` gives Python |
| BackendHelpers.DoctypeMeansHtml | UI-main/backend/main.py:2392-2404 | with the intended test, a document containing the doctype is static HTML |
| BackendHelpers.DoctypeTestAsWrittenNeverHolds | UI-main/backend/main.py:2392 | no upper-cased text contains `<!DOCTYPE html>` |
| BackendHelpers.DoctypeDocumentMisclassified | UI-main/backend/main.py:2392-2404 | as written, a doctype document without `<html` that mentions `function` is profiled as plain JavaScript |
| BackendHelpers.FlaskGrouping | UI-main/backend/main.py:2398 | without React or Vue markers, `def ` alone gives a Flask app, `import ` together with `.py` gives one, and without `def ` and `.py` nothing does (`and` binds tighter than `or`) |
| BackendHelpers.FallbackProfile | UI-main/backend/main.py:2392-2404 | a text containing `<html` in any case or a doctype is served as static HTML; a Flask profile needs `def ` or `.py`, a React profile needs a React import |
| BackendHelpers.AutoDetectSpace | UI-main/backend/main.py:692-697 | a given key wins; otherwise a single space is chosen; any other case is ambiguous |
| BackendHelpers.KeptLine | UI-main/backend/main.py:3177-3181 | a line is kept, as its stripped text, exactly when it has a comma, its stripped text does not start with a code fence and it does not start with `here` in any case |
| BackendHelpers.CsvLines | UI-main/backend/main.py:3177-3181 | the filter never adds lines, and every kept line has a comma |
| BackendHelpers.CsvLinesSingle | UI-main/backend/main.py:3177-3181 | one line gives its stripped text when the filter keeps it, and nothing otherwise |
| BackendHelpers.CsvLinesAppend | UI-main/backend/main.py:3177-3181 | the filter works line by line: filtering `a + b` is filtering `a` followed by filtering `b` |
| BackendHelpers.CsvLineKept | UI-main/backend/main.py:3177-3181 | a line the filter keeps appears, stripped, between the kept lines before it and the kept lines after it |
| BackendHelpers.DataRows | UI-main/backend/main.py:3183-3186 | no kept row repeats the header's first field |
| BackendHelpers.DropRepeatedHeaders | UI-main/backend/main.py:3183-3186 | the loop computes the filtered rows |
| BackendHelpers.DataRowsSnoc | UI-main/backend/main.py:3183-3186 | one more row is kept exactly when its first field differs from the header's |
| BackendHelpers.RepeatedHeaderDropped | UI-main/backend/main.py:3183-3186 | a repeated header line is dropped |
| BackendHelpers.CleanCsvOf | UI-main/backend/main.py:3176-3187 | no CSV line means no result (the source fails on `clean_lines[0]`); otherwise the first kept line is the header and comes first, followed by exactly the later kept lines whose first field differs from the header's, so no later line repeats its first field |
| BackendHelpers.CleanAiCsv | UI-main/backend/main.py:3176-3187 | the cleaned CSV is the kept lines joined by newlines |
| BackendHelpers.SaveBody | UI-main/backend/main.py:3390-3419 | a new page is created with the content; a missing page fails; append gives the existing body, `<hr/>`, then the content; overwrite gives exactly the content; an unknown mode on an existing page fails, and only then |
| BackendHelpers.PreviewMatchesSave | UI-main/backend/main.py:3412-3419 | for append and overwrite, the preview shows exactly the body the save writes (also lines 3448-3457) |
| BackendHelpers.PreviewBody | UI-main/backend/main.py:3433-3463 | a missing page gives not-found, and only then; a mode other than `append` and `overwrite` is refused, and only then; an append preview starts with the existing body, an overwrite preview is the new content |
| BackendHelpers.EmptyModeSavesButCannotPreview | UI-main/backend/main.py:3390 | an empty mode saves by appending (existing body, `<hr/>`, content: the same as `append`), but the preview refuses it (also lines 3448-3457) |
| AgentMode.SeparatorAt | UI-main/src/components/AgentMode.tsx:58-63 | a separator never runs past the end of the text (also lines 87-94) |
| AgentMode.Kept | UI-main/src/components/AgentMode.tsx:63 | at most one fragment per piece, each trimmed and at least the minimum length (also line 94) |
| AgentMode.KeptPiece | UI-main/src/components/AgentMode.tsx:61-63 | a piece yields exactly its trimmed text when that is at least the minimum length and nothing otherwise, and trimming keeps a piece free of separators |
| AgentMode.KeptAppend | UI-main/src/components/AgentMode.tsx:61-63 | `map(trim).filter` works piece by piece: the fragments kept from `p + q` are those kept from `p` followed by those kept from `q` (also lines 92-93) |
| AgentMode.PiecesFree | UI-main/src/components/AgentMode.tsx:60 | no piece of the split holds a character that always separates (also line 91) |
| AgentMode.KeptFree | UI-main/src/components/AgentMode.tsx:61-63 | trimming and filtering keep pieces free of separating characters |
| AgentMode.SplitInstructions | UI-main/src/components/AgentMode.tsx:58-84 | every instruction is trimmed, longer than three characters, and free of `.`, `,`, `;`, CR and LF; the page-context refinement loop returns the list unchanged |
| AgentMode.SplitRelatedActions | UI-main/src/components/AgentMode.tsx:87-94 | every action is trimmed and non-empty |
| AgentMode.NoSeparatorOnePiece | UI-main/src/components/AgentMode.tsx:58-63 | a text in which no separator matches at any position is exactly one piece, the text itself (also lines 87-94) |
| AgentMode.SplitInstructionsOnePiece | UI-main/src/components/AgentMode.tsx:58-66 | without any separator the instructions are exactly `[trim(s)]` when that is longer than three characters, and `[]` otherwise |
| AgentMode.SplitRelatedActionsOnePiece | UI-main/src/components/AgentMode.tsx:87-94 | without any separator the actions are exactly `[trim(s)]` when that is non-empty, and `[]` otherwise |
| AgentMode.SplitAtSeparator | UI-main/src/components/AgentMode.tsx:60 | a single-character separator with no separator before it ends the first piece, which is the whole text before it, and the text after it is split on its own (also line 91) |
| AgentMode.SplitInstructionsCons | UI-main/src/components/AgentMode.tsx:58-63 | at the first separating character, the instructions are the trimmed first fragment (when longer than three characters) followed by the instructions of the rest |
| AgentMode.SemicolonSplitsActions | UI-main/src/components/AgentMode.tsx:90-91 | at the first separator, a `;`, the first piece is the whole text before it and the rest is split on its own |
| AgentMode.SplitRelatedActionsCons | UI-main/src/components/AgentMode.tsx:87-94 | at the first separator, a `;`, the actions are the trimmed first fragment (when non-empty) followed by the actions of the rest |
| AgentMode.DetermineTool | UI-main/src/components/AgentMode.tsx:31-45 | one if-and-only-if per tool: impact words give the impact analyzer; otherwise test words give test support; otherwise `convert` or a code word gives the code assistant; otherwise `video`/`transcribe` the video summarizer; otherwise an image word image insights; and AI-powered search exactly when none of these matched (the `summarize` branch and the default agree) |
| AgentMode.DetermineToolIgnoresContext | UI-main/src/components/AgentMode.tsx:31-45 | the space and page arguments never change the tool |
| AgentMode.FixTestGoesToTests | UI-main/src/components/AgentMode.tsx:38 | "fix test" is routed to the test tool by the keyword chain |
| AgentMode.ToWordMeansCode | UI-main/src/components/AgentMode.tsx:414-415 | an instruction with "to" followed by a word, and no earlier category, goes to the code assistant |
| AgentMode.FixTestGoesToCode | UI-main/src/components/AgentMode.tsx:426-427 | the per-instruction classifier sends "fix test" to the code assistant |
| AgentMode.RoutersDisagree | UI-main/src/components/AgentMode.tsx:398-448 | for every instruction with a code word and a test word, no impact or image word and no video, transcribe, convert or `to` wording, the goal router picks test support and the instruction classifier the code assistant (also lines 31-45) |
| AgentMode.ClassifyInstructions | UI-main/src/components/AgentMode.tsx:398-448 | every instruction gets exactly one tool, in order |
| AgentMode.Classify | UI-main/src/components/AgentMode.tsx:400-448 | an instruction asking to summarise a video goes to the video summariser; the impact analyzer needs an impact word and no code word, test support a test word and no impact word, and search is chosen only when no image, code, impact or test word appears |
| AgentMode.ContentTypeOf | UI-main/src/components/AgentMode.tsx:453 | every page gets a non-empty content type, `text` by default |
| AgentMode.CollapseSpaces | UI-main/src/components/AgentMode.tsx:474-475 | collapsing white-space runs never lengthens the text |
| AgentMode.BestToolIsOwnTool | UI-main/src/components/AgentMode.tsx:478-490 | the best tool of an instruction is the one it was classified with |
| AgentMode.FirstMention | UI-main/src/components/AgentMode.tsx:468-497 | the result, from position k, is the first instruction that names the page; none means no instruction from k names it |
| AgentMode.FindMention | UI-main/src/components/AgentMode.tsx:468-497 | the loop finds the first instruction that names the page |
| AgentMode.FirstUnused | UI-main/src/components/AgentMode.tsx:501-533 | the result, from position k, is the first unused instruction; none means all from k are used |
| AgentMode.FindUnused | UI-main/src/components/AgentMode.tsx:501-533 | the loop finds the first unused instruction |
| AgentMode.MatchPage | UI-main/src/components/AgentMode.tsx:461-557 | one entry is added, for this page; earlier entries are kept and the used set only grows |
| AgentMode.AllUsedFallback | UI-main/src/components/AgentMode.tsx:536-557 | when no instruction names the page and every routed instruction is already used, the page gets the first instruction (or `Analyze this content`) with AI-powered search, and the used set is unchanged |
| AgentMode.MatchPages | UI-main/src/components/AgentMode.tsx:461-569 | the loop with its used set computes the matcher over the selected pages |
| AgentMode.MatchAll | UI-main/src/components/AgentMode.tsx:461-569 | one entry per selected page, in the order of the pages |
| AgentMode.PlanPages | UI-main/src/components/AgentMode.tsx:393-569 | the plan is the matcher run on the classified instructions of the split goal, and the required tools are those of the instructions |
| AgentMode.RoutedOf | UI-main/src/components/AgentMode.tsx:398-448 | the routed instructions are the classified ones |
| AgentMode.OnePerPage | UI-main/src/components/AgentMode.tsx:462-568 | exactly one entry per page, each naming that page |
| AgentMode.SharedInstruction | UI-main/src/components/AgentMode.tsx:468-497 | pass 1 ignores the used set: an instruction naming every page is given to all of them, with its own tool |
| AgentMode.SecondPassTakesFirstUnused | UI-main/src/components/AgentMode.tsx:500-533 | a page named by no instruction gets the first unused one, whatever its words, so pass 3 is never reached |
| AgentMode.NoInstructionsFallback | UI-main/src/components/AgentMode.tsx:553-557 | with no instructions each page gets "Analyze this content" with the search tool |
| AgentMode.ImpactPair | UI-main/src/components/AgentMode.tsx:713-719 | with two pages, the first is the old version and the second the new |
| CodeAssistant.FirstNonEmpty | UI-main/src/components/CodeAssistant.tsx:264 | the logical-or fallback chain: a when non-empty, else b when non-empty, else c when non-empty, else d; empty exactly when all four are (also line 285) |
| CodeAssistant.Lookup | UI-main/src/components/CodeAssistant.tsx:267-274 | a key is missing iff no entry has it; otherwise the value is that of an entry with the key |
| CodeAssistant.PathOf | UI-main/src/components/CodeAssistant.tsx:242-256 | each of the eight option combinations reaches exactly one branch (also lines 300-301, 351, 386, 423-428) |
| CodeAssistant.Act | UI-main/src/components/CodeAssistant.tsx:274-288 | the AI action leaves history and the other outputs alone; an unknown action sends nothing |
| CodeAssistant.ConvertAndModify | UI-main/src/components/CodeAssistant.tsx:303-349 | a success keeps the error, a failure sets the process error, and at least one request is added after the old ones |
| CodeAssistant.Assistant.Call | UI-main/src/components/CodeAssistant.tsx:259 | one backend call: the reply is the backend's, and the request is recorded (also lines 306, 323) |
| CodeAssistant.Assistant.RunAct | UI-main/src/components/CodeAssistant.tsx:274-288 | the step computes the AI-action state |
| CodeAssistant.Assistant.RunAiAction | UI-main/src/components/CodeAssistant.tsx:461-489 | the handler computes the `runAiAction` state |
| CodeAssistant.Assistant.ProcessCode | UI-main/src/components/CodeAssistant.tsx:229-458 | the handler computes the `processCode` state |
| CodeAssistant.Assistant.Dispatch | UI-main/src/components/CodeAssistant.tsx:256-451 | each branch is run as its own pipeline |
| CodeAssistant.Assistant.ModifyThenActStep | UI-main/src/components/CodeAssistant.tsx:256-298 | the modify-then-act pipeline |
| CodeAssistant.Assistant.ConvertAndModifyStep | UI-main/src/components/CodeAssistant.tsx:303-349 | the convert-then-modify requests |
| CodeAssistant.Assistant.ConvertModifyActStep | UI-main/src/components/CodeAssistant.tsx:300-349 | the convert, modify, act pipeline |
| CodeAssistant.Assistant.ConvertThenModifyStep | UI-main/src/components/CodeAssistant.tsx:351-384 | the convert-then-modify pipeline |
| CodeAssistant.Assistant.ConvertThenActStep | UI-main/src/components/CodeAssistant.tsx:386-421 | the convert-then-act pipeline |
| CodeAssistant.Assistant.SingleRequestStep | UI-main/src/components/CodeAssistant.tsx:428-451 | the single-request pipeline |
| CodeAssistant.NoOptionNoRequest | UI-main/src/components/CodeAssistant.tsx:246-249 | with no option the error is set and no request is sent |
| CodeAssistant.OutputsClearedFirst | UI-main/src/components/CodeAssistant.tsx:236-239 | every output is cleared before processing |
| CodeAssistant.AllThreeInOrder | UI-main/src/components/CodeAssistant.tsx:300-349 | with all three options, convert, then modify on the converted code, then the action run on the modified code |
| CodeAssistant.HistoryOnlyWithInstruction | UI-main/src/components/CodeAssistant.tsx:293-294 | without an instruction the history is unchanged (also lines 341-344, 371-372, 442-443) |
| CodeAssistant.RunAiActionGuard | UI-main/src/components/CodeAssistant.tsx:462-464 | without a real action or detected code nothing happens |
| CodeAssistant.ExportContent | UI-main/src/components/CodeAssistant.tsx:493-495 | the first non-empty of modification, conversion, AI action, processed code, detected code, in that order; nothing to export exactly when all five are empty |
| CodeAssistant.ImpactInputOf | UI-main/src/components/CodeAssistant.tsx:516-526 | refused with the no-original error exactly when the detected code is empty, and with the no-result error exactly when it is not but AI action, modification, conversion and processed code are all empty; otherwise the detected code is compared with the first non-empty of those four, in that order |
| CodeAssistant.ExportAndImpactDisagree | UI-main/src/components/CodeAssistant.tsx:494 | when both a modification and an AI action exist, export and impact analysis use different code (also line 522) |
| TestSupport.AlnumRun | UI-main/src/components/TestSupportTool.tsx:359-363 | the length of the leading run of ASCII letters and digits |
| TestSupport.ValidTokenIff | UI-main/src/components/TestSupportTool.tsx:359-363 | a token is valid iff it is `ghp_` or `ghs_` followed by exactly 36 letters or digits, so 40 characters |
| TestSupport.RepoRun | UI-main/src/components/TestSupportTool.tsx:365-369 | the length of the leading run of repository-name characters |
| TestSupport.ValidRepoIff | UI-main/src/components/TestSupportTool.tsx:365-369 | a name is valid iff it is a non-empty owner, one `/`, and a non-empty name, both of letters, digits, `.`, `_` and `-` |
| TestSupport.OwnerNameAccepted | UI-main/src/components/TestSupportTool.tsx:365-369 | `a.b/c-d` is valid |
| TestSupport.MalformedNamesRefused | UI-main/src/components/TestSupportTool.tsx:365-369 | `a/b/c`, `/ui` and `ui/` are refused |
| TestSupport.OneSlashNotValid | UI-main/src/components/TestSupportTool.tsx:365-369 | a name with two slashes is refused |
| TestSupport.GuardError | UI-main/src/components/TestSupportTool.tsx:371-392 | no error iff the fields are present, the repository is valid, and (with auto-push) the token is valid; a passing token has 40 characters |
| TestSupport.WorkflowPanel.Generate | UI-main/src/components/TestSupportTool.tsx:371-426 | a failing check sets its error and sends nothing; otherwise exactly one request is sent |
| TestSupport.TokenIgnoredWithoutAutoPush | UI-main/src/components/TestSupportTool.tsx:382-392 | without auto-push the token plays no part |
| TestSupport.MissingFieldsFirst | UI-main/src/components/TestSupportTool.tsx:372-375 | a missing space is reported first |
| TestSupport.RepoBeforeToken | UI-main/src/components/TestSupportTool.tsx:377-392 | a bad repository name is reported before any token problem |
| TestSupport.ReplaceArrows | UI-main/src/components/TestSupportTool.tsx:249 | no U+2192 arrow is left (also line 314); see ArrowBecomesAsciiArrow for what replaces each |
| TestSupport.ReportOf | UI-main/src/components/TestSupportTool.tsx:312-316 | each section is the backend's text when non-empty, else its own placeholder (`No test strategy generated.`, `No cross-platform analysis generated.`, `No sensitivity analysis generated.`); the cross-platform text has every `→` replaced by `->`, so no section is empty and no arrow remains |
| TestSupport.PlaceholderHasNoArrow | UI-main/src/components/TestSupportTool.tsx:314 | the cross-platform placeholder has no arrow, so replacing arrows leaves it unchanged |
| TestSupport.ArrowsKeepNonEmpty | UI-main/src/components/TestSupportTool.tsx:249 | replacing arrows keeps a non-empty text non-empty (also line 314) |
| TestSupport.ReplaceArrowsIdempotent | UI-main/src/components/TestSupportTool.tsx:249 | replacing twice is replacing once (also line 314) |
| TestSupport.ArrowBecomesAsciiArrow | UI-main/src/components/TestSupportTool.tsx:249 | each U+2192 arrow becomes `->` and every other character is kept in place (also line 314) |
| TestSupport.NoArrowUnchanged | UI-main/src/components/TestSupportTool.tsx:249 | a text without arrows is unchanged (also line 314) |
| TestSupport.Section | UI-main/src/components/TestSupportTool.tsx:1115-1122 | an absent section contributes nothing; a present one starts with its heading and text |
| TestSupport.SaveContent | UI-main/src/components/TestSupportTool.tsx:1115-1122 | refused exactly when all three sections are absent |
| TestSupport.SectionsInOrder | UI-main/src/components/TestSupportTool.tsx:1115-1122 | strategy first, then cross-platform, then sensitivity last, each only when present |
| TestSupport.GeneratedReportSaves | UI-main/src/components/TestSupportTool.tsx:312-316 | a generated report always has content to save (also lines 1115-1122) |
| ImpactView.LevelFromScore | UI-main/src/components/ImpactAnalyzer.tsx:407-411 | low iff score ≤ 3, medium iff 3 < score ≤ 6, high iff score > 6 |
| ImpactView.LevelFromScoreMonotone | UI-main/src/components/ImpactAnalyzer.tsx:407-411 | a higher score never shows a lower level |
| ImpactView.OrNumber | UI-main/src/components/ImpactAnalyzer.tsx:196-208 | a missing or zero number gives the default |
| ImpactView.StoredOf | UI-main/src/components/ImpactAnalyzer.tsx:196-208 | the stored file count is never 0; a missing score is 0; a missing level is low |
| ImpactView.MissingScoreShowsLow | UI-main/src/components/ImpactAnalyzer.tsx:206 | a response without a score shows as low (also line 680) |
| ImpactView.ShownIgnoresStoredLevel | UI-main/src/components/ImpactAnalyzer.tsx:679-681 | the backend's level plays no part in what is shown |
| ImpactView.ScoreBelowThirty | UI-main/backend/main.py:1533 | a change below 30% scores at most 3 |
| ImpactView.MediumShownAsLow | UI-main/src/components/ImpactAnalyzer.tsx:679-681 | every change the backend rates medium shows as low, and nothing shows above the backend's level |
| ImpactView.TwentyFivePercentDisagrees | UI-main/backend/main.py:1532-1533 | 25% is medium for the backend and shows as low |
| SearchPanel.Without | UI-main/src/components/AIPoweredSearch.tsx:81-87 | the filter removes the page, keeps every other member, and never lengthens |
| SearchPanel.WithoutAppend | UI-main/src/components/AIPoweredSearch.tsx:81-87 | the filter keeps the order of the other pages |
| SearchPanel.WithoutAbsent | UI-main/src/components/AIPoweredSearch.tsx:81-87 | filtering an absent page changes nothing |
| SearchPanel.ToggleTwiceRestores | UI-main/src/components/AIPoweredSearch.tsx:81-87 | an unselected page is appended, and a second toggle restores the selection |
| SearchPanel.DuplicatesCollapse | UI-main/src/components/AIPoweredSearch.tsx:81-87 | a duplicated page is removed entirely and comes back once |
| SearchPanel.Panel.HandlePageSelection | UI-main/src/components/AIPoweredSearch.tsx:81-87 | the selection is toggled and nothing else changes |
| SearchPanel.SelectAllToggled | UI-main/src/components/AIPoweredSearch.tsx:73-79 | equal lengths clear the selection; otherwise all pages are selected |
| SearchPanel.Panel.ToggleSelectAllPages | UI-main/src/components/AIPoweredSearch.tsx:73-79 | the select-all toggle, and nothing else changes |
| SearchPanel.Panel.HandleSearch | UI-main/src/components/AIPoweredSearch.tsx:175-202 | a failed guard sets its error and sends nothing; otherwise one request; an answer is prepended to the history at index 0; a failure keeps the history; the selected space and the page list never change, and the response source changes only on an answer |
| SearchPanel.Panel.ShowHistory | UI-main/src/components/AIPoweredSearch.tsx:205-211 | an existing entry is shown again, with its query and source; the error, loading flag, page list, selected space and selected pages stay as they were |
| SearchPanel.BlankQueryRefused | UI-main/src/components/AIPoweredSearch.tsx:176-179 | a whitespace-only query is refused |
| OutputFormatters.FormatSearch | UI-main/src/utils/toolOutputFormatters.ts:3-6 | the response is passed through unchanged |
| OutputFormatters.CodeHeader | UI-main/src/utils/toolOutputFormatters.ts:11-14 | `AI Action Output:` gives `### AI Action Output`, `Target Language Conversion Output:` gives `### Target Language Conversion Output`, `Modification Output:` gives `### Modification Output`, and any other output `### Output` |
| OutputFormatters.LabelsExclusive | UI-main/src/utils/toolOutputFormatters.ts:12-14 | no output starts with two of the three labels, so the order of the tests does not matter |
| OutputFormatters.ColonIndex | UI-main/src/utils/toolOutputFormatters.ts:16 | no colon comes before the index, and a colon is at it unless it is the length |
| OutputFormatters.StripLabel | UI-main/src/utils/toolOutputFormatters.ts:16 | the result is the output or a suffix of it |
| OutputFormatters.StripLabelRoundTrip | UI-main/src/utils/toolOutputFormatters.ts:16 | a `label:` line put in front of content is removed again |
| OutputFormatters.CodeBlock | UI-main/src/utils/toolOutputFormatters.ts:10-17 | a block starts with the rule and its header |
| OutputFormatters.ActionBlock | UI-main/src/utils/toolOutputFormatters.ts:10-17 | an AI-action output is shown under its header with only its content in the fence |
| OutputFormatters.ModificationBlock | UI-main/src/utils/toolOutputFormatters.ts:10-17 | a modification output is shown under its header with only its content in the fence |
| OutputFormatters.CodeBlocks | UI-main/src/utils/toolOutputFormatters.ts:9-18 | one block per output |
| OutputFormatters.FormatCode | UI-main/src/utils/toolOutputFormatters.ts:8-19 | no outputs give "", and otherwise the text starts with the first output's block |
| OutputFormatters.FormatCodeSnoc | UI-main/src/utils/toolOutputFormatters.ts:8-19 | one more output appends a newline and its block |
| OutputFormatters.Part | UI-main/src/utils/toolOutputFormatters.ts:23-25 | an empty section contributes nothing; a present one is its heading, its text and a newline |
| OutputFormatters.QaPart | UI-main/src/utils/toolOutputFormatters.ts:26-28 | no Q&A contributes nothing; otherwise the heading and the pairs |
| OutputFormatters.FormatTestSupport | UI-main/src/utils/toolOutputFormatters.ts:21-30 | the accumulation computes the section text |
| OutputFormatters.SupportTextSections | UI-main/src/utils/toolOutputFormatters.ts:21-30 | empty iff all parts are empty; strategy, then cross-platform, then sensitivity, then Q&A |
| OutputFormatters.FormatImpact | UI-main/src/utils/toolOutputFormatters.ts:32-46 | the accumulation computes the impact text |
| OutputFormatters.ImpactTextShape | UI-main/src/utils/toolOutputFormatters.ts:32-46 | the text starts with the metrics heading, and is only that heading when nothing is present |
| OutputFormatters.RiskLevelUpperCase | UI-main/src/utils/toolOutputFormatters.ts:38 | the risk block opens with its heading and the level in upper case, with no lower-case letter left |
| OutputFormatters.ImageBlock | UI-main/src/utils/toolOutputFormatters.ts:49 | a block starts with `### name` |
| OutputFormatters.ImageBlocks | UI-main/src/utils/toolOutputFormatters.ts:49 | one block per image |
| OutputFormatters.FormatImages | UI-main/src/utils/toolOutputFormatters.ts:48-50 | no images give "", and one image gives its block |
| OutputFormatters.FormatImagesSnoc | UI-main/src/utils/toolOutputFormatters.ts:48-50 | one more image appends the separator and its block; the text starts with the first image's name |
| OutputFormatters.FormatVideo | UI-main/src/utils/toolOutputFormatters.ts:52-65 | the accumulation computes the video text |
| OutputFormatters.VideoTextShape | UI-main/src/utils/toolOutputFormatters.ts:52-65 | the text starts with `### name`, is only that when nothing else is present, and a summary comes right after it |
| FeatureConfig.IndexOf | UI-main/src/utils/featureConfig.ts:57-59 | the first position of the key, or none iff the key is absent |
| FeatureConfig.GetFeatureConfig | UI-main/src/utils/featureConfig.ts:57-59 | a known id gets its own entry; none or any other id gets the search entry |
| FeatureConfig.TableWellFormed | UI-main/src/utils/featureConfig.ts:12-55 | six entries, each id equal to its key and each title equal to its label |
| FeatureConfig.KeysDistinct | UI-main/src/utils/featureConfig.ts:12-55 | no id is used twice |
| FeatureConfig.KnownIdsFound | UI-main/src/utils/featureConfig.ts:57-59 | each of the six ids finds its own entry |
| FeatureConfig.FeaturesMatchTable | UI-main/src/utils/featureConfig.ts:61-68 | the navigation lists the same ids and labels in table order |

## Left out

- Network and external services: Gemini, Confluence, Stack Exchange and the backend endpoints called by the front end become function parameters. The wording of the prompts sent to Gemini is not modelled: a prompt is a value naming its kind and its inputs.
- The HTTP status mapping of the endpoints: a `HTTPException(400)` raised inside `try` and re-raised as 500 appears only as a failure value.
- difflib's choice of matching lines: the edit script is an input, required to be a script between the two line lists. The `@@` hunk headers and context trimming are omitted; neither starts with `+` or `-`, so the counts are unaffected.
- Floating point: `percent_change` is an integer number of hundredths. The JavaScript printing of numbers in the formatters is modelled by decimal strings of integers.
- Unicode: case mapping is ASCII only. Regular-expression classes (`\b`, `\d`, `\w`, `\s`) are written as explicit predicates over ASCII, while Python's `re` classes are Unicode-aware on `str`: the severity tags `\b(Low|Medium|High)\b` (main.py:1463 and 1615), the `\b` risk rules (main.py:847), the `\d` timestamps (main.py:673) and `\bclass\s+\w+` (main.py:1313) differ on non-ASCII letters and digits; for example the model tags `High` in `éHigh`, where Python sees no word boundary. The JavaScript regexes of AgentMode have ASCII classes, so the model matches them. JavaScript string lengths in UTF-16 units are not modelled; lengths count code points.
- ImpactReport.ReportOf: the advice texts of the twelve rules are a parameter of the report; ImpactReport.Endpoint binds them to RiskScanner.RuleAdvice(), the table the source uses, so the report's proofs do not unfold the long advice strings.
- RiskScanner.RuleAdvice: no contract. The twelve advice texts are literal data and unfolding them all is beyond the solver's budget, so the model does not prove that there is one advice entry per rule; RiskScanner.AdviceAt supplies the texts by index.
- ImpactReport.Endpoint: no contract of its own, for the same reason; every property of the report is stated on ImpactReport.ReportOf, for any advice table.
- RiskScanner.CheckRisks: the outer `except` of the scanner (main.py:937-939) cannot be reached in the model, because the search catches its own failures and the rule table is fixed.
- Where the documented behaviour and the code disagree, the code is followed. An added line `++x` or a removed line `--x` is not counted (DoubledMarkerLinesUncounted). A successful Stack Exchange call without items gives an empty citation list (NoItemsNoLinks).
- AgentMode: pass 3 of the page matcher is not modelled as a separate branch, because pass 2 takes any unused instruction first (SecondPassTakesFirstUnused). `determineToolByIntentAndContent` is modelled, though the component never calls it. `Promise.all` over image summaries and the per-tool execution after the plan are left out.
- CodeAssistant: the form fields are grouped into one value, and the state is the value of the outputs. The legacy `processedCode` assignment is kept only as the last candidate of the output chains. Lookups of the prompt map ignore the object's prototype keys.
- CodeAssistant.Act: an unknown action sends nothing, but the converse (a known action always sends one request) is stated only through ActReplied.
- React rendering, effects, DOM access, alerts, toasts, scroll refs and the microphone and API helper files.
- The page toggles and history copies in the image and video components, which repeat the search panel's logic.
- The feature icons in the feature table.
- The document exporters, HTML cleaning and text extraction libraries, chart creation, and the I/O-only scripts.
- OutputFormatters: JavaScript's `undefined` in template strings is modelled only for the risk level (printed as `undefined`); other missing fields are empty strings, as the `|| ''` defaults make them.
- The LLM-response fallbacks of the search endpoint (JSON, literal_eval and regex parsing).

## Findings

| source | as written | input that shows it | evidently intended | confidence | as-written member | corrected member |
|---|---|---|---|---|---|---|
| UI-main/backend/main.py:2392 | `"<!DOCTYPE html>" in code_content.upper()` can never hold: the upper-cased text has no lower-case letter | a page containing `<!DOCTYPE html>` and `function`, without `<html` | a doctype page is served as static HTML | not executed | BackendHelpers.DoctypeTestAsWrittenNeverHolds, BackendHelpers.DoctypeDocumentMisclassified | BackendHelpers.DoctypeMeansHtml |

=== FILE: agent_mode.dfy ===
/** Agent mode (src/components/AgentMode.tsx): the goal is split into
    instructions, each instruction is routed to one tool by keywords, and
    every selected page is paired with one instruction and one tool by a
    three-pass matcher. */
module AgentMode {
  import opened Text

  datatype Tool = AiPoweredSearch | ImpactAnalyzer | TestSupport | CodeAssistant
                | VideoSummarizer | ImageInsights

  // ------------------------------------------------------------ splitting

  /** The two separator patterns: `splitInstructions` splits on
      `/\band\b|\bthen\b|\n|\r|\r\n|\.|;|,|\|\||\|\s/i`,
      `splitRelatedActions` on `/\band\b|\bthen\b|;/i`. */
  datatype Separators = InstructionSeparators | ActionSeparators

  /** `w` (lower-case ASCII) at `i` in any letter case, as a whole word. */
  predicate WordAt(s: string, w: string, i: int) {
    0 <= i && i + |w| <= |s|
    && (forall k | 0 <= k < |w| :: LowerChar(s[i + k]) == w[k])
    && (i == 0 || !IsWordChar(s[i - 1]))
    && (i + |w| == |s| || !IsWordChar(s[i + |w|]))
  }

  /** The length of the separator the pattern matches at `i` (alternatives
      tried in order), 0 when none matches there. `\r\n` is never reached:
      `\r` is tried first. */
  function SeparatorAt(s: string, seps: Separators, i: nat): (n: nat)
    requires i < |s|
    ensures n <= |s| - i
  {
    if WordAt(s, "and", i) then 3
    else if WordAt(s, "then", i) then 4
    else if seps == ActionSeparators then (if s[i] == ';' then 1 else 0)
    else if Separating(seps, s[i]) then 1
    else if s[i] == '|' && i + 1 < |s| && (s[i + 1] == '|' || IsJsSpace(s[i + 1])) then 2
    else 0
  }

  /** The characters that always start a separator. */
  predicate Separating(seps: Separators, c: char) {
    c == ';' || (seps == InstructionSeparators && (c == '\n' || c == '\r' || c == '.' || c == ','))
  }

  /** `x` neither starts nor ends with white space. */
  predicate Trimmed(x: string) {
    x == [] || (!IsSpace(Js, x[0]) && !IsSpace(Js, x[|x| - 1]))
  }

  /** No character of `x` starts a separator. */
  predicate Free(seps: Separators, x: string) {
    forall j | 0 <= j < |x| :: !Separating(seps, x[j])
  }

  /** The length of the separator matched at each position of `s` from
      `j` on. */
  function Cuts(s: string, seps: Separators, j: nat): (c: seq<nat>)
    requires j <= |s|
    ensures |c| == |s| - j
    decreases |s| - j
  {
    if j == |s| then [] else [SeparatorAt(s, seps, j)] + Cuts(s, seps, j + 1)
  }

  /** No separator runs past the end of the text. */
  predicate Fits(cuts: seq<nat>) {
    forall k | 0 <= k < |cuts| :: cuts[k] <= |cuts| - k
  }

  /** The pieces between the separators that `cuts` marks, scanning from
      `i`, the current piece starting at `start`: leftmost, non-overlapping. */
  function Split(s: string, cuts: seq<nat>, start: nat, i: nat): (r: seq<string>)
    requires |cuts| == |s| && Fits(cuts) && start <= i <= |s|
    ensures |r| >= 1
    decreases |s| - i
  {
    if i == |s| then [s[start..]]
    else if cuts[i] > 0 then [s[start..i]] + Split(s, cuts, i + cuts[i], i + cuts[i])
    else Split(s, cuts, start, i + 1)
  }

  /** `s.split(pattern)`. */
  function Pieces(s: string, seps: Separators): (r: seq<string>)
    ensures |r| >= 1
  {
    CutsFit(s, seps);
    Split(s, Cuts(s, seps, 0), 0, 0)
  }

  lemma {:induction false} CutsAt(s: string, seps: Separators, j: nat, k: nat)
    requires j + k < |s|
    ensures Cuts(s, seps, j)[k] == SeparatorAt(s, seps, j + k)
    decreases k
  {
    if k > 0 {
      CutsAt(s, seps, j + 1, k - 1);
    }
  }

  lemma CutsFit(s: string, seps: Separators)
    ensures Fits(Cuts(s, seps, 0))
  {
    forall k | 0 <= k < |s|
      ensures Cuts(s, seps, 0)[k] <= |s| - k
    {
      CutsAt(s, seps, 0, k);
    }
  }

  /** The trimmed pieces that pass `keep`: longer than 3 characters for
      instructions, non-empty for related actions. */
  function Kept(pieces: seq<string>, seps: Separators, minLength: nat): (r: seq<string>)
    ensures |r| <= |pieces|
    ensures forall k | 0 <= k < |r| :: |r[k]| >= minLength && Trimmed(r[k])
  {
    if pieces == [] then [] else KeptPiece(pieces[0], seps, minLength) + Kept(pieces[1..], seps, minLength)
  }

  /** One trimmed piece, if it is long enough. */
  function KeptPiece(piece: string, seps: Separators, minLength: nat): (r: seq<string>)
    ensures |r| <= 1
    ensures forall k | 0 <= k < |r| :: |r[k]| >= minLength && Trimmed(r[k])
    ensures Free(seps, piece) ==> forall k | 0 <= k < |r| :: Free(seps, r[k])
    ensures r == (if |Trim(piece, Js)| >= minLength then [Trim(piece, Js)] else [])
  {
    var t := Trim(piece, Js);
    assert Free(seps, piece) ==> Free(seps, t) by {
      if Free(seps, piece) { TrimmedPiece(piece, seps); }
    }
    assert Trimmed(t);
    if |t| >= minLength then [t] else []
  }

  /** `splitInstructions`: when there are several fragments the refinement
      loop pushes each one unchanged in both of its branches, so the result
      is the filtered split. */
  function SplitInstructions(input: string): (r: seq<string>)
    ensures forall k | 0 <= k < |r| :: |r[k]| > 3 && Trimmed(r[k])
    ensures forall k | 0 <= k < |r| :: forall j | 0 <= j < |r[k]| :: r[k][j] !in "\n\r.;,"
  {
    PiecesFree(input, InstructionSeparators);
    KeptFree(Pieces(input, InstructionSeparators), InstructionSeparators, 4);
    var r := Kept(Pieces(input, InstructionSeparators), InstructionSeparators, 4);
    assert forall k | 0 <= k < |r| :: Free(InstructionSeparators, r[k]);
    r
  }

  /** `splitRelatedActions` */
  function SplitRelatedActions(instruction: string): (r: seq<string>)
    ensures forall k | 0 <= k < |r| :: r[k] != [] && Trimmed(r[k])
  {
    Kept(Pieces(instruction, ActionSeparators), ActionSeparators, 1)
  }

  /** A position where no separator starts holds no separating character. */
  lemma NoCutNotSeparating(s: string, seps: Separators, p: nat)
    requires p < |s| && SeparatorAt(s, seps, p) == 0
    ensures !Separating(seps, s[p])
  {
  }

  /** No piece holds a character that starts a separator. */
  lemma PiecesFree(s: string, seps: Separators)
    ensures forall k | 0 <= k < |Pieces(s, seps)| :: Free(seps, Pieces(s, seps)[k])
  {
    var cuts := Cuts(s, seps, 0);
    CutsFit(s, seps);
    forall p | 0 <= p < |s| && cuts[p] == 0
      ensures !Separating(seps, s[p])
    {
      CutsAt(s, seps, 0, p);
      NoCutNotSeparating(s, seps, p);
    }
    SplitFree(s, cuts, seps, 0, 0);
  }

  lemma {:induction false} SplitFree(s: string, cuts: seq<nat>, seps: Separators, start: nat, i: nat)
    requires |cuts| == |s| && Fits(cuts) && start <= i <= |s|
    requires forall p | 0 <= p < |s| && cuts[p] == 0 :: !Separating(seps, s[p])
    requires forall p | start <= p < i :: !Separating(seps, s[p])
    ensures forall k | 0 <= k < |Split(s, cuts, start, i)| :: Free(seps, Split(s, cuts, start, i)[k])
    decreases |s| - i
  {
    if i == |s| {
      assert Free(seps, s[start..]);
    } else if cuts[i] > 0 {
      assert Free(seps, s[start..i]);
      SplitFree(s, cuts, seps, i + cuts[i], i + cuts[i]);
    } else {
      SplitFree(s, cuts, seps, start, i + 1);
    }
  }

  /** Pieces without separator characters stay so once trimmed and kept. */
  lemma {:induction false} KeptFree(pieces: seq<string>, seps: Separators, minLength: nat)
    requires forall k | 0 <= k < |pieces| :: Free(seps, pieces[k])
    ensures forall k | 0 <= k < |Kept(pieces, seps, minLength)| :: Free(seps, Kept(pieces, seps, minLength)[k])
    decreases |pieces|
  {
    if pieces != [] {
      KeptFree(pieces[1..], seps, minLength);
    }
  }

  /** A trimmed piece keeps no separator and is its own trim. */
  lemma TrimmedPiece(x: string, seps: Separators)
    requires Free(seps, x)
    ensures Free(seps, Trim(x, Js))
  {
    var b := TrimStart(x, Js);
    var a := |x| - |b|;
    var r := Trim(x, Js);
    assert r == TrimEnd(b, Js);
    forall j | 0 <= j < |r|
      ensures !Separating(seps, r[j])
    {
      assert r[j] == b[j];
      assert b[j] == x[a + j];
    }
  }

  lemma TrimmedIsFixed(t: string)
    requires Trimmed(t)
    ensures Trim(t, Js) == t
  {
    assert TrimStart(t, Js) == t;
  }

  /** Filtering distributes over concatenation of the piece lists: each
      piece contributes its own trimmed text, in order. */
  lemma {:induction false} KeptAppend(p: seq<string>, q: seq<string>, seps: Separators, minLength: nat)
    ensures Kept(p + q, seps, minLength) == Kept(p, seps, minLength) + Kept(q, seps, minLength)
    decreases |p|
  {
    if p != [] {
      var head := KeptPiece(p[0], seps, minLength);
      PiecesDropAppend(p, q);
      KeptAppend(p[1..], q, seps, minLength);
      PiecesRegroup(head, Kept(p[1..], seps, minLength), Kept(q, seps, minLength));
    } else {
      assert p + q == q;
    }
  }

  lemma PiecesDropAppend(p: seq<string>, q: seq<string>)
    requires p != []
    ensures (p + q)[0] == p[0] && (p + q)[1..] == p[1..] + q
  {}

  lemma PiecesRegroup(a: seq<string>, b: seq<string>, c: seq<string>)
    ensures a + (b + c) == (a + b) + c
  {}

  /** A text in which no separator matches is one piece. */
  lemma NoSeparatorOnePiece(s: string, seps: Separators)
    requires forall p | 0 <= p < |s| :: SeparatorAt(s, seps, p) == 0
    ensures Pieces(s, seps) == [s]
  {
    var cuts := Cuts(s, seps, 0);
    CutsFit(s, seps);
    forall p | 0 <= p < |s|
      ensures cuts[p] == 0
    {
      CutsAt(s, seps, 0, p);
    }
    NoCutOnePiece(s, cuts, 0);
  }

  lemma {:induction false} NoCutOnePiece(s: string, cuts: seq<nat>, i: nat)
    requires |cuts| == |s| && Fits(cuts) && i <= |s|
    requires forall p | 0 <= p < |s| :: cuts[p] == 0
    ensures Split(s, cuts, 0, i) == [s]
    decreases |s| - i
  {
    if i < |s| {
      NoCutOnePiece(s, cuts, i + 1);
    }
  }

  /** Without a separator the input is one fragment: its trim, when it is
      longer than three characters. */
  lemma SplitInstructionsOnePiece(s: string)
    requires forall p | 0 <= p < |s| :: SeparatorAt(s, InstructionSeparators, p) == 0
    ensures SplitInstructions(s) == (if |Trim(s, Js)| > 3 then [Trim(s, Js)] else [])
  {
    NoSeparatorOnePiece(s, InstructionSeparators);
    assert Kept([s], InstructionSeparators, 4) == KeptPiece(s, InstructionSeparators, 4) + Kept([], InstructionSeparators, 4);
  }

  /** Without a separator the instruction is one action: its trim, unless
      that is empty. */
  lemma SplitRelatedActionsOnePiece(s: string)
    requires forall p | 0 <= p < |s| :: SeparatorAt(s, ActionSeparators, p) == 0
    ensures SplitRelatedActions(s) == (if Trim(s, Js) != [] then [Trim(s, Js)] else [])
  {
    NoSeparatorOnePiece(s, ActionSeparators);
    assert Kept([s], ActionSeparators, 1) == KeptPiece(s, ActionSeparators, 1) + Kept([], ActionSeparators, 1);
  }

  /** Up to the first cut, with no cut before it, the text is one piece. */
  lemma {:induction false} SplitFrom(s: string, cuts: seq<nat>, j: nat, m: nat)
    requires |cuts| == |s| && Fits(cuts) && j <= m < |s| && cuts[m] > 0
    requires forall p | 0 <= p < m :: cuts[p] == 0
    ensures Split(s, cuts, 0, j) == [s[..m]] + Split(s, cuts, m + cuts[m], m + cuts[m])
    decreases m - j
  {
    if j < m {
      SplitFrom(s, cuts, j + 1, m);
    }
  }

  /** A cut at `i` closes the current piece. */
  lemma SplitCutStep(s: string, cuts: seq<nat>, start: nat, i: nat)
    requires |cuts| == |s| && Fits(cuts) && start <= i < |s| && cuts[i] > 0
    ensures Split(s, cuts, start, i) == [s[start..i]] + Split(s, cuts, i + cuts[i], i + cuts[i])
  {
  }

  /** No cut at `i`: the scan moves on. */
  lemma SplitSkipStep(s: string, cuts: seq<nat>, start: nat, i: nat)
    requires |cuts| == |s| && Fits(cuts) && start <= i < |s| && cuts[i] == 0
    ensures Split(s, cuts, start, i) == Split(s, cuts, start, i + 1)
  {
  }

  /** `b` and its cuts sit in `s` and its cuts from `off` on. */
  predicate Aligned(s: string, cs: seq<nat>, off: nat, b: string, cb: seq<nat>) {
    |cs| == |s| && Fits(cs) && |cb| == |b| && Fits(cb) && |s| == off + |b|
    && (forall k | 0 <= k < |b| :: s[off + k] == b[k])
    && (forall k | 0 <= k < |b| :: cs[off + k] == cb[k])
  }

  /** Scanning `s` from `off` on is scanning `b` alone, when the text and
      the cuts after `off` are those of `b`. */
  lemma {:induction false} SplitShift(s: string, cs: seq<nat>, off: nat, b: string, cb: seq<nat>,
                                      start: nat, i: nat)
    requires Aligned(s, cs, off, b, cb) && start <= i <= |b|
    ensures Split(s, cs, off + start, off + i) == Split(b, cb, start, i)
    decreases |b| - i, 1
  {
    if i == |b| {
      assert s[off + start..] == b[start..];
    } else if cb[i] > 0 {
      ShiftCut(s, cs, off, b, cb, start, i);
    } else {
      ShiftSkip(s, cs, off, b, cb, start, i);
    }
  }

  /** The step of `SplitShift` at a cut. */
  lemma {:induction false} ShiftCut(s: string, cs: seq<nat>, off: nat, b: string, cb: seq<nat>,
                                    start: nat, i: nat)
    requires Aligned(s, cs, off, b, cb) && start <= i < |b| && cb[i] > 0
    ensures Split(s, cs, off + start, off + i) == Split(b, cb, start, i)
    decreases |b| - i, 0
  {
    var n := cb[i];
    assert cs[off + i] == n;
    assert s[off + start..off + i] == b[start..i];
    SplitShift(s, cs, off, b, cb, i + n, i + n);
    assert off + (i + n) == off + i + n;
    SplitCutStep(s, cs, off + start, off + i);
    SplitCutStep(b, cb, start, i);
  }

  /** The step of `SplitShift` where no cut is. */
  lemma {:induction false} ShiftSkip(s: string, cs: seq<nat>, off: nat, b: string, cb: seq<nat>,
                                     start: nat, i: nat)
    requires Aligned(s, cs, off, b, cb) && start <= i < |b| && cb[i] == 0
    ensures Split(s, cs, off + start, off + i) == Split(b, cb, start, i)
    decreases |b| - i, 0
  {
    assert cs[off + i] == 0;
    SplitShift(s, cs, off, b, cb, start, i + 1);
    assert off + (i + 1) == off + i + 1;
    SplitSkipStep(s, cs, off + start, off + i);
    SplitSkipStep(b, cb, start, i);
  }

  /** `b` sits in `s` from `off` on, after a non-word character. */
  predicate Suffix(s: string, off: nat, b: string) {
    |s| == off + |b| && (off == 0 || !IsWordChar(s[off - 1]))
    && forall k | 0 <= k < |b| :: s[off + k] == b[k]
  }

  /** A whole word is found at `off + i` of `s` iff it is found at `i` of `b`. */
  lemma WordAtShift(s: string, off: nat, b: string, w: string, i: nat)
    requires Suffix(s, off, b) && i < |b|
    ensures WordAt(s, w, off + i) == WordAt(b, w, i)
  {
    if i + |w| <= |b| {
      assert (forall k | 0 <= k < |w| :: LowerChar(s[off + i + k]) == w[k])
             == (forall k | 0 <= k < |w| :: LowerChar(b[i + k]) == w[k]);
      if i > 0 { assert s[off + i - 1] == b[i - 1]; }
      if i + |w| < |b| { assert s[off + i + |w|] == b[i + |w|]; }
    }
  }

  /** The separator found at `off + i` of `s` is the one found at `i` of `b`. */
  lemma SeparatorAtShift(s: string, off: nat, b: string, seps: Separators, i: nat)
    requires Suffix(s, off, b) && i < |b|
    ensures SeparatorAt(s, seps, off + i) == SeparatorAt(b, seps, i)
  {
    WordAtShift(s, off, b, "and", i);
    WordAtShift(s, off, b, "then", i);
    assert s[off + i] == b[i];
    if i + 1 < |b| { assert s[off + i + 1] == b[i + 1]; }
  }

  /** After a non-word character the separators of `s` are those of the
      rest. */
  lemma SeparatorsShift(s: string, off: nat, b: string, seps: Separators)
    requires Suffix(s, off, b)
    ensures forall k | 0 <= k < |b| :: SeparatorAt(s, seps, off + k) == SeparatorAt(b, seps, k)
  {
    forall k | 0 <= k < |b|
      ensures SeparatorAt(s, seps, off + k) == SeparatorAt(b, seps, k)
    {
      SeparatorAtShift(s, off, b, seps, k);
    }
  }

  /** Where the separators line up, so do the cuts. */
  lemma CutsShift(s: string, off: nat, b: string, seps: Separators)
    requires |s| == off + |b|
    requires forall k | 0 <= k < |b| :: SeparatorAt(s, seps, off + k) == SeparatorAt(b, seps, k)
    ensures forall k | 0 <= k < |b| :: Cuts(s, seps, 0)[off + k] == Cuts(b, seps, 0)[k]
  {
    forall k | 0 <= k < |b|
      ensures Cuts(s, seps, 0)[off + k] == Cuts(b, seps, 0)[k]
    {
      SameCut(s, off + k, b, k, seps);
    }
  }

  /** Two positions with the same separator have the same cut. */
  lemma SameCut(s: string, i: nat, b: string, k: nat, seps: Separators)
    requires i < |s| && k < |b|
    requires SeparatorAt(s, seps, i) == SeparatorAt(b, seps, k)
    ensures Cuts(s, seps, 0)[i] == Cuts(b, seps, 0)[k]
  {
    CutsAt(s, seps, 0, i);
    CutsAt(b, seps, 0, k);
  }

  /** A character that always separates cannot start `and` or `then`. */
  lemma NotWordAt(s: string, w: string, seps: Separators, i: nat)
    requires i < |s| && Separating(seps, s[i]) && |w| > 0 && 'a' <= w[0] <= 'z'
    ensures !WordAt(s, w, i)
  {
    assert LowerChar(s[i]) == s[i];
  }

  /** A separating character is a separator of length one. */
  lemma SeparatingCut(s: string, seps: Separators, i: nat)
    requires i < |s| && Separating(seps, s[i])
    ensures SeparatorAt(s, seps, i) == 1
  {
    NotWordAt(s, "and", seps, i);
    NotWordAt(s, "then", seps, i);
  }

  /** A separating character `c` ends the first piece, and the text after it
      is split on its own. */
  lemma SplitAtSeparator(a: string, c: char, b: string, seps: Separators)
    requires Separating(seps, c)
    requires forall p | 0 <= p < |a| :: SeparatorAt(a + [c] + b, seps, p) == 0
    ensures Pieces(a + [c] + b, seps) == [a] + Pieces(b, seps)
  {
    FirstPiece(a, c, b, seps);
    RestPieces(a, c, b, seps);
  }

  /** The first piece of `a` + `c` + `b` is `a`. */
  lemma FirstPiece(a: string, c: char, b: string, seps: Separators)
    requires Separating(seps, c)
    requires forall p | 0 <= p < |a| :: SeparatorAt(a + [c] + b, seps, p) == 0
    ensures Fits(Cuts(a + [c] + b, seps, 0))
    ensures Pieces(a + [c] + b, seps)
            == [a] + Split(a + [c] + b, Cuts(a + [c] + b, seps, 0), |a| + 1, |a| + 1)
  {
    var s := a + [c] + b;
    assert s[|a|] == c && s[..|a|] == a;
    FirstCut(s, seps, |a|);
  }

  /** A separating character at `m`, with no separator before it, closes
      the first piece. */
  lemma FirstCut(s: string, seps: Separators, m: nat)
    requires m < |s| && Separating(seps, s[m])
    requires forall p | 0 <= p < m :: SeparatorAt(s, seps, p) == 0
    ensures Fits(Cuts(s, seps, 0))
    ensures Pieces(s, seps) == [s[..m]] + Split(s, Cuts(s, seps, 0), m + 1, m + 1)
  {
    var cs := Cuts(s, seps, 0);
    CutsFit(s, seps);
    forall p | 0 <= p < m
      ensures cs[p] == 0
    {
      CutsAt(s, seps, 0, p);
    }
    SeparatingCut(s, seps, m);
    CutsAt(s, seps, 0, m);
    SplitFrom(s, cs, 0, m);
  }

  /** After `a` + `c` the pieces are those of `b`. */
  lemma RestPieces(a: string, c: char, b: string, seps: Separators)
    requires Separating(seps, c)
    ensures Fits(Cuts(a + [c] + b, seps, 0))
    ensures Split(a + [c] + b, Cuts(a + [c] + b, seps, 0), |a| + 1, |a| + 1) == Pieces(b, seps)
  {
    SuffixAfter(a, c, b);
    PiecesAfter(a + [c] + b, |a| + 1, b, seps);
  }

  /** Scanning `s` from `off` on gives the pieces of `b`. */
  lemma PiecesAfter(s: string, off: nat, b: string, seps: Separators)
    requires Suffix(s, off, b)
    ensures Fits(Cuts(s, seps, 0))
    ensures Split(s, Cuts(s, seps, 0), off, off) == Pieces(b, seps)
  {
    AlignedAfter(s, off, b, seps);
    SplitShift(s, Cuts(s, seps, 0), off, b, Cuts(b, seps, 0), 0, 0);
    assert off + 0 == off;
  }

  lemma SuffixAfter(a: string, c: char, b: string)
    requires !IsWordChar(c)
    ensures Suffix(a + [c] + b, |a| + 1, b)
  {
  }

  /** After a non-word character, `s` and its cuts line up with `b` and its
      cuts. */
  lemma AlignedAfter(s: string, off: nat, b: string, seps: Separators)
    requires Suffix(s, off, b)
    ensures Aligned(s, Cuts(s, seps, 0), off, b, Cuts(b, seps, 0))
  {
    CutsFit(s, seps);
    CutsFit(b, seps);
    SeparatorsShift(s, off, b, seps);
    CutsShift(s, off, b, seps);
  }

  /** A `;` always ends an action, and what is on each side of it is
      pieced independently. */
  lemma SemicolonSplitsActions(a: string, b: string)
    requires forall p | 0 <= p < |a| :: SeparatorAt(a + ";" + b, ActionSeparators, p) == 0
    ensures Pieces(a + ";" + b, ActionSeparators) == [a] + Pieces(b, ActionSeparators)
  {
    assert a + ";" + b == a + [';'] + b;
    SplitAtSeparator(a, ';', b, ActionSeparators);
  }

  /** The actions of `a;b` are the action of `a`, if any, then those of `b`. */
  lemma SplitRelatedActionsCons(a: string, b: string)
    requires forall p | 0 <= p < |a| :: SeparatorAt(a + ";" + b, ActionSeparators, p) == 0
    ensures SplitRelatedActions(a + ";" + b)
            == (if Trim(a, Js) != [] then [Trim(a, Js)] else []) + SplitRelatedActions(b)
  {
    SemicolonSplitsActions(a, b);
    var rest := Pieces(b, ActionSeparators);
    assert ([a] + rest)[1..] == rest;
  }

  /** The instructions of `a` + `c` + `b`, for a separating character `c`:
      the fragment of `a`, if long enough, then those of `b`. */
  lemma SplitInstructionsCons(a: string, c: char, b: string)
    requires Separating(InstructionSeparators, c)
    requires forall p | 0 <= p < |a| :: SeparatorAt(a + [c] + b, InstructionSeparators, p) == 0
    ensures SplitInstructions(a + [c] + b)
            == (if |Trim(a, Js)| > 3 then [Trim(a, Js)] else []) + SplitInstructions(b)
  {
    SplitAtSeparator(a, c, b, InstructionSeparators);
    var rest := Pieces(b, InstructionSeparators);
    assert ([a] + rest)[1..] == rest;
  }

  // ------------------------------------------------------- tool routing

  const ImpactWords := ["impact", "change", "difference", "diff"]
  const TestWords := ["test", "qa", "test case", "unit test"]
  const CodeWords := ["debug", "refactor", "fix", "bug", "error", "optimize", "performance",
                      "documentation", "docs", "comment", "dead code", "unused", "logging", "log"]
  const ImageWords := ["image", "chart", "diagram", "visual"]

  /** `determineToolByIntentAndContent`: a first-match keyword chain over
      the lower-cased goal. The space and page arguments are not used. */
  function DetermineTool(goal: string, space: string, page: string): (t: Tool)
    ensures t == ImpactAnalyzer <==> ContainsAny(Lower(goal), ImpactWords)
    ensures t == TestSupport <==>
              !ContainsAny(Lower(goal), ImpactWords) && ContainsAny(Lower(goal), TestWords)
    ensures t == CodeAssistant <==>
              !ContainsAny(Lower(goal), ImpactWords) && !ContainsAny(Lower(goal), TestWords)
              && ContainsAny(Lower(goal), ["convert"] + CodeWords)
    ensures t == VideoSummarizer <==>
              !ContainsAny(Lower(goal), ImpactWords) && !ContainsAny(Lower(goal), TestWords)
              && !ContainsAny(Lower(goal), ["convert"] + CodeWords)
              && ContainsAny(Lower(goal), ["video", "transcribe"])
    ensures t == ImageInsights <==>
              !ContainsAny(Lower(goal), ImpactWords) && !ContainsAny(Lower(goal), TestWords)
              && !ContainsAny(Lower(goal), ["convert"] + CodeWords)
              && !ContainsAny(Lower(goal), ["video", "transcribe"])
              && ContainsAny(Lower(goal), ImageWords)
    ensures t == AiPoweredSearch <==>
              !ContainsAny(Lower(goal), ImpactWords) && !ContainsAny(Lower(goal), TestWords)
              && !ContainsAny(Lower(goal), ["convert"] + CodeWords)
              && !ContainsAny(Lower(goal), ["video", "transcribe"])
              && !ContainsAny(Lower(goal), ImageWords)
  {
    var l := Lower(goal);
    if ContainsAny(l, ImpactWords) then ImpactAnalyzer
    else if ContainsAny(l, TestWords) then TestSupport
    else if ContainsAny(l, ["convert"] + CodeWords) then CodeAssistant
    else if ContainsAny(l, ["video", "transcribe"]) then VideoSummarizer
    else if ContainsAny(l, ImageWords) then ImageInsights
    else AiPoweredSearch
  }

  /** The space and page arguments never change the routing. */
  lemma DetermineToolIgnoresContext(goal: string, s1: string, p1: string, s2: string, p2: string)
    ensures DetermineTool(goal, s1, p1) == DetermineTool(goal, s2, p2)
  {
  }

  /** `a.*b`: `a`, then `b` later on the same line. */
  predicate Before(s: string, a: string, b: string) {
    exists i, j | 0 <= i && i + |a| <= j <= |s| - |b| ::
      MatchAt(s, a, i) && MatchAt(s, b, j)
      && forall k | i + |a| <= k < j :: s[k] !in "\n\r\U{2028}\U{2029}"
  }

  /** `to\s+\w+` */
  predicate ToWord(s: string) {
    exists i, j | 0 <= i && i + 2 < j < |s| ::
      MatchAt(s, "to", i) && IsWordChar(s[j]) && forall k | i + 2 <= k < j :: IsJsSpace(s[k])
  }

  predicate VideoSummary(l: string) {
    Before(l, "summarize", "video") || Before(l, "video", "summarize")
    || Before(l, "summarise", "video") || Before(l, "video", "summarise")
  }

  predicate ImageSummary(l: string) {
    Before(l, "summarize", "image") || Before(l, "image", "summarize")
    || Before(l, "summarise", "image") || Before(l, "image", "summarise")
  }

  predicate CodeConversion(l: string) {
    Before(l, "convert", "language") || Before(l, "language", "convert")
    || Before(l, "convert", "code") || Before(l, "code", "convert") || ToWord(l)
  }

  /** The per-instruction classification inside `handleGoalSubmit`: exactly
      one tool per instruction, search when no test matches. */
  function Classify(instruction: string): (t: Tool)
    ensures VideoSummary(Lower(instruction)) ==> t == VideoSummarizer
    ensures t == ImpactAnalyzer ==> ContainsAny(Lower(instruction), ImpactWords) && !ContainsAny(Lower(instruction), CodeWords)
    ensures t == TestSupport ==> ContainsAny(Lower(instruction), TestWords) && !ContainsAny(Lower(instruction), ImpactWords)
    ensures t == AiPoweredSearch ==>
              !ContainsAny(Lower(instruction), ImageWords) && !ContainsAny(Lower(instruction), CodeWords)
              && !ContainsAny(Lower(instruction), ImpactWords) && !ContainsAny(Lower(instruction), TestWords)
  {
    var l := Lower(instruction);
    if VideoSummary(l) then VideoSummarizer
    else if ImageSummary(l) then ImageInsights
    else if CodeConversion(l) then CodeAssistant
    else if ContainsAny(l, ["video", "transcribe"]) then VideoSummarizer
    else if ContainsAny(l, ImageWords) then ImageInsights
    else if ContainsAny(l, CodeWords) then CodeAssistant
    else if ContainsAny(l, ImpactWords) then ImpactAnalyzer
    else if ContainsAny(l, TestWords) then TestSupport
    else AiPoweredSearch
  }

  /** Any instruction ending in "to" and a word, and mentioning neither
      video nor image, goes to the code assistant, whatever it asks. */
  lemma ToWordMeansCode(x: string, w: string)
    requires w != [] && IsWordChar(w[0])
    requires !Contains(Lower(x + " to " + w), "video") && !Contains(Lower(x + " to " + w), "image")
    ensures Classify(x + " to " + w) == CodeAssistant
  {
    var s := x + " to " + w;
    var l := Lower(s);
    var i := |x| + 1;
    assert s[i] == 't' && s[i + 1] == 'o' && s[i + 2] == ' ' && s[i + 3] == w[0];
    assert l[i..i + 2] == "to";
    assert MatchAt(l, "to", i) && IsWordChar(l[i + 3]);
    assert ToWord(l);
    NotBefore(l, "summarize", "video");
    NotBefore(l, "video", "summarize");
    NotBefore(l, "summarise", "video");
    NotBefore(l, "video", "summarise");
    NotBefore(l, "summarize", "image");
    NotBefore(l, "image", "summarize");
    NotBefore(l, "summarise", "image");
    NotBefore(l, "image", "summarise");
  }

  /** The two routers disagree on every instruction that has a code word
      and a test word but no impact word and no video, image, conversion or
      `to` wording: the goal-level chain picks test support, the
      per-instruction one the code assistant. */
  lemma RoutersDisagree(x: string, space: string, page: string)
    requires ContainsAny(Lower(x), CodeWords) && ContainsAny(Lower(x), TestWords)
    requires !ContainsAny(Lower(x), ImpactWords) && !ContainsAny(Lower(x), ImageWords)
    requires !Contains(Lower(x), "video") && !Contains(Lower(x), "transcribe") && !Contains(Lower(x), "image")
    requires !Contains(Lower(x), "convert") && !Contains(Lower(x), "to")
    ensures DetermineTool(x, space, page) == TestSupport
    ensures Classify(x) == CodeAssistant
  {
    var l := Lower(x);
    NoSummaryOrConversion(l);
    var media := ["video", "transcribe"];
    assert !ContainsAny(l, media) by {
      assert forall k | 0 <= k < |media| :: media[k] == "video" || media[k] == "transcribe";
    }
  }

  lemma NotBefore(s: string, a: string, b: string)
    requires !Contains(s, a) || !Contains(s, b)
    ensures !Before(s, a, b)
  {
  }

  /** The goal-level and the instruction-level routers disagree: with both
      a code word and a test word, the goal goes to test support ... */
  lemma FixTestGoesToTests(space: string, page: string)
    ensures DetermineTool("fix test", space, page) == TestSupport
  {
    var s := "fix test";
    assert Lower(s) == s;
    ContainsMiddle("fix ", "test", "");
    assert "fix " + "test" + "" == s;
    assert Contains(s, TestWords[0]);
    NoImpactWords(s);
  }

  /** ... and the instruction to the code assistant. */
  lemma FixTestGoesToCode()
    ensures Classify("fix test") == CodeAssistant
  {
    var s := "fix test";
    assert Lower(s) == s;
    FixTestHasCodeWord(s);
    FixTestHasNoMediaWord(s);
    NoSummaryOrConversion(s);
  }

  lemma FixTestHasCodeWord(s: string)
    requires s == "fix test"
    ensures ContainsAny(s, CodeWords)
  {
    ContainsMiddle("", "fix", " test");
    assert "" + "fix" + " test" == s;
    assert Contains(s, CodeWords[2]);
  }

  lemma FixTestHasNoMediaWord(s: string)
    requires s == "fix test"
    ensures !Contains(s, "video") && !Contains(s, "image") && !Contains(s, "convert") && !Contains(s, "to")
    ensures !ContainsAny(s, ["video", "transcribe"]) && !ContainsAny(s, ImageWords)
  {
    NotContainsWithoutChar(s, "video", 'v');
    NotContainsWithoutChar(s, "image", 'm');
    NotContainsWithoutChar(s, "convert", 'c');
    NotContainsWithoutChar(s, "to", 'o');
    NotContainsWithoutChar(s, "transcribe", 'r');
    NotContainsWithoutChar(s, "chart", 'c');
    NotContainsWithoutChar(s, "diagram", 'd');
    NotContainsWithoutChar(s, "visual", 'v');
  }

  lemma NoSummaryOrConversion(l: string)
    requires !Contains(l, "video") && !Contains(l, "image") && !Contains(l, "convert") && !Contains(l, "to")
    ensures !VideoSummary(l) && !ImageSummary(l) && !CodeConversion(l)
  {
    NotBefore(l, "summarize", "video");
    NotBefore(l, "video", "summarize");
    NotBefore(l, "summarise", "video");
    NotBefore(l, "video", "summarise");
    NotBefore(l, "summarize", "image");
    NotBefore(l, "image", "summarize");
    NotBefore(l, "summarise", "image");
    NotBefore(l, "image", "summarise");
    NotBefore(l, "convert", "language");
    NotBefore(l, "language", "convert");
    NotBefore(l, "convert", "code");
    NotBefore(l, "code", "convert");
  }

  lemma NoImpactWords(s: string)
    requires 'p' !in s && 'h' !in s && 'd' !in s
    ensures !ContainsAny(s, ImpactWords)
  {
    NotContainsWithoutChar(s, "impact", 'p');
    NotContainsWithoutChar(s, "change", 'h');
    NotContainsWithoutChar(s, "difference", 'd');
    NotContainsWithoutChar(s, "diff", 'd');
  }

  /** The classification loop: one entry per instruction, and the set of
      tools needed. */
  datatype Routed = Routed(instruction: string, tool: Tool)

  method ClassifyInstructions(instructions: seq<string>) returns (routed: seq<Routed>, required: set<Tool>)
    ensures |routed| == |instructions|
    ensures forall k | 0 <= k < |routed| :: routed[k] == Routed(instructions[k], Classify(instructions[k]))
    ensures required == set k | 0 <= k < |instructions| :: Classify(instructions[k])
  {
    routed, required := [], {};
    var i := 0;
    while i < |instructions|
      invariant 0 <= i <= |instructions|
      invariant |routed| == i
      invariant forall k | 0 <= k < i :: routed[k] == Routed(instructions[k], Classify(instructions[k]))
      invariant required == set k | 0 <= k < i :: Classify(instructions[k])
    {
      var tool := Classify(instructions[i]);
      routed := routed + [Routed(instructions[i], tool)];
      required := required + {tool};
      i := i + 1;
    }
  }

  // -------------------------------------------------------- the matcher

  datatype PageType = PageType(title: string, contentType: string)

  /** `pageTypes.find(p => p.title === page)?.content_type || 'text'` */
  function ContentTypeOf(types: seq<PageType>, page: string): (t: string)
    ensures t != []
  {
    if types == [] then "text"
    else if types[0].title == page then (if types[0].contentType == [] then "text" else types[0].contentType)
    else ContentTypeOf(types[1..], page)
  }

  /** `s.replace(/\s+/g, c)` */
  function CollapseSpaces(s: string, c: char): (r: string)
    ensures |r| <= |s|
    decreases |s|
  {
    if s == [] then []
    else if IsJsSpace(s[0]) then [c] + CollapseSpaces(TrimStart(s[1..], Js), c)
    else [s[0]] + CollapseSpaces(s[1..], c)
  }

  /** The instruction names the page, with its spaces kept or replaced by
      `_` or `-`, in any letter case. */
  predicate MentionsPage(instruction: string, page: string) {
    var li := Lower(instruction);
    var lp := Lower(page);
    Contains(li, lp) || Contains(li, CollapseSpaces(lp, '_')) || Contains(li, CollapseSpaces(lp, '-'))
  }

  /** The best tool for the page's content type among an instruction's tools. */
  function BestTool(contentType: string, tools: seq<Tool>): Tool {
    if contentType == "video" && VideoSummarizer in tools then VideoSummarizer
    else if contentType == "image" && ImageInsights in tools then ImageInsights
    else if contentType == "code" && CodeAssistant in tools then CodeAssistant
    else if contentType == "text" && AiPoweredSearch in tools then AiPoweredSearch
    else if |tools| > 0 then tools[0]
    else AiPoweredSearch
  }

  /** Every instruction carries exactly one tool, so the content type never
      changes it. */
  lemma BestToolIsOwnTool(contentType: string, t: Tool)
    ensures BestTool(contentType, [t]) == t
  {
  }

  /** The second pass's keyword correction of the tool. */
  function KeywordTool(contentType: string, instruction: string, best: Tool): Tool {
    var l := Lower(instruction);
    if contentType == "image" && ContainsAny(l, ImageWords) then ImageInsights
    else if contentType == "code" && ContainsAny(l, ["convert"] + CodeWords + ["code"]) then CodeAssistant
    else if contentType == "video" && (Contains(l, "video") || Before(l, "summarize", "video") || Contains(l, "transcribe"))
    then VideoSummarizer
    else best
  }

  /** Pass 1: the first instruction, from `k` on, that names the page. */
  function FirstMention(routed: seq<Routed>, page: string, k: nat): (r: Option<nat>)
    requires k <= |routed|
    ensures r.Some? ==> k <= r.value < |routed| && MentionsPage(routed[r.value].instruction, page)
                        && forall j | k <= j < r.value :: !MentionsPage(routed[j].instruction, page)
    ensures r.None? ==> forall j | k <= j < |routed| :: !MentionsPage(routed[j].instruction, page)
    decreases |routed| - k
  {
    if k == |routed| then None
    else if MentionsPage(routed[k].instruction, page) then Some(k)
    else FirstMention(routed, page, k + 1)
  }

  /** Passes 2 and 3: the first instruction, from `k` on, not used yet.
      When there is none, every instruction is used, so the third pass,
      which runs only then and also skips used instructions, never
      matches. */
  function FirstUnused(routed: seq<Routed>, used: set<string>, k: nat): (r: Option<nat>)
    requires k <= |routed|
    ensures r.Some? ==> k <= r.value < |routed| && routed[r.value].instruction !in used
                        && forall j | k <= j < r.value :: routed[j].instruction in used
    ensures r.None? ==> forall j | k <= j < |routed| :: routed[j].instruction in used
    decreases |routed| - k
  {
    if k == |routed| then None
    else if routed[k].instruction !in used then Some(k)
    else FirstUnused(routed, used, k + 1)
  }

  datatype Assignment = Assignment(page: string, instruction: string, tool: Tool)

  datatype MatchState = MatchState(entries: seq<Assignment>, used: set<string>)

  const DefaultInstruction := "Analyze this content"

  /** `instructions[0] || 'Analyze this content'` */
  function FallbackInstruction(instructions: seq<string>): string {
    if |instructions| > 0 && instructions[0] != [] then instructions[0] else DefaultInstruction
  }

  /** One selected page. The source tests `!matchedInstruction`, which is
      "nothing matched" because every instruction is non-empty. */
  function MatchPage(st: MatchState, types: seq<PageType>, routed: seq<Routed>,
                     instructions: seq<string>, page: string): (r: MatchState)
    ensures |r.entries| == |st.entries| + 1 && r.entries[|st.entries|].page == page
    ensures r.entries[..|st.entries|] == st.entries
    ensures st.used <= r.used
  {
    var ty := ContentTypeOf(types, page);
    match FirstMention(routed, page, 0)
    case Some(k) =>
      MatchState(st.entries + [Assignment(page, routed[k].instruction, BestTool(ty, [routed[k].tool]))],
                 st.used + {routed[k].instruction})
    case None =>
      match FirstUnused(routed, st.used, 0)
      case Some(k) =>
        var best := BestTool(ty, [routed[k].tool]);
        MatchState(st.entries + [Assignment(page, routed[k].instruction, KeywordTool(ty, routed[k].instruction, best))],
                   st.used + {routed[k].instruction})
      case None =>
        MatchState(st.entries + [Assignment(page, FallbackInstruction(instructions), AiPoweredSearch)], st.used)
  }

  /** The matcher over the selected pages, in order. */
  function MatchAll(pages: seq<string>, types: seq<PageType>, routed: seq<Routed>,
                    instructions: seq<string>): (r: MatchState)
    ensures |r.entries| == |pages|
    ensures forall k | 0 <= k < |pages| :: r.entries[k].page == pages[k]
  {
    if pages == [] then MatchState([], {})
    else MatchPage(MatchAll(pages[..|pages| - 1], types, routed, instructions),
                   types, routed, instructions, pages[|pages| - 1])
  }

  method FindMention(routed: seq<Routed>, page: string) returns (r: Option<nat>)
    ensures r == FirstMention(routed, page, 0)
  {
    var k := 0;
    while k < |routed|
      invariant 0 <= k <= |routed|
      invariant FirstMention(routed, page, 0) == FirstMention(routed, page, k)
    {
      if MentionsPage(routed[k].instruction, page) {
        return Some(k);
      }
      k := k + 1;
    }
    return None;
  }

  method FindUnused(routed: seq<Routed>, used: set<string>) returns (r: Option<nat>)
    ensures r == FirstUnused(routed, used, 0)
  {
    var k := 0;
    while k < |routed|
      invariant 0 <= k <= |routed|
      invariant FirstUnused(routed, used, 0) == FirstUnused(routed, used, k)
    {
      if routed[k].instruction !in used {
        return Some(k);
      }
      k := k + 1;
    }
    return None;
  }

  /** The matching loop of `handleGoalSubmit`, with its `usedInstructions` set. */
  method MatchPages(pages: seq<string>, types: seq<PageType>, routed: seq<Routed>,
                    instructions: seq<string>) returns (entries: seq<Assignment>)
    ensures entries == MatchAll(pages, types, routed, instructions).entries
  {
    entries := [];
    var used: set<string> := {};
    var i := 0;
    while i < |pages|
      invariant 0 <= i <= |pages|
      invariant MatchState(entries, used) == MatchAll(pages[..i], types, routed, instructions)
    {
      assert pages[..i + 1][..i] == pages[..i];
      assert MatchAll(pages[..i + 1], types, routed, instructions)
          == MatchPage(MatchAll(pages[..i], types, routed, instructions), types, routed, instructions, pages[i]);
      var page := pages[i];
      var ty := ContentTypeOf(types, page);
      var k := FindMention(routed, page);
      if k.Some? {
        entries := entries + [Assignment(page, routed[k.value].instruction, BestTool(ty, [routed[k.value].tool]))];
        used := used + {routed[k.value].instruction};
      } else {
        k := FindUnused(routed, used);
        if k.Some? {
          var best := BestTool(ty, [routed[k.value].tool]);
          entries := entries + [Assignment(page, routed[k.value].instruction,
                                             KeywordTool(ty, routed[k.value].instruction, best))];
          used := used + {routed[k.value].instruction};
        } else {
          entries := entries + [Assignment(page, FallbackInstruction(instructions), AiPoweredSearch)];
        }
      }
      i := i + 1;
    }
    assert pages[..|pages|] == pages;
  }

  /** The whole plan: split, classify, match. */
  method PlanPages(goal: string, pages: seq<string>, types: seq<PageType>)
    returns (entries: seq<Assignment>, required: set<Tool>)
    ensures var instructions := SplitInstructions(goal);
            entries == MatchAll(pages, types, RoutedOf(instructions), instructions).entries
    ensures required == set k | 0 <= k < |SplitInstructions(goal)| :: Classify(SplitInstructions(goal)[k])
  {
    var instructions := SplitInstructions(goal);
    var routed;
    routed, required := ClassifyInstructions(instructions);
    assert routed == RoutedOf(instructions);
    entries := MatchPages(pages, types, routed, instructions);
  }

  function RoutedOf(instructions: seq<string>): (r: seq<Routed>)
    ensures |r| == |instructions|
    ensures forall k | 0 <= k < |r| :: r[k] == Routed(instructions[k], Classify(instructions[k]))
  {
    if instructions == [] then []
    else [Routed(instructions[0], Classify(instructions[0]))] + RoutedOf(instructions[1..])
  }

  // ------------------------------------------------------- properties

  /** One assignment per selected page, in the order of the selection. */
  lemma {:induction false} OnePerPage(pages: seq<string>, types: seq<PageType>, routed: seq<Routed>,
                                      instructions: seq<string>)
    ensures var a := MatchAll(pages, types, routed, instructions).entries;
            |a| == |pages| && forall k | 0 <= k < |pages| :: a[k].page == pages[k]
  {
    if pages != [] {
      var p' := pages[..|pages| - 1];
      OnePerPage(p', types, routed, instructions);
      var prev := MatchAll(p', types, routed, instructions).entries;
      var a := MatchAll(pages, types, routed, instructions).entries;
      assert a[..|prev|] == prev;
      forall k | 0 <= k < |pages|
        ensures a[k].page == pages[k]
      {
        if k < |p'| {
          assert a[k] == a[..|prev|][k];
        }
      }
    }
  }

  /** The first pass does not skip used instructions: one instruction that
      names every selected page is given to all of them. */
  lemma {:induction false} SharedInstruction(pages: seq<string>, types: seq<PageType>, r: Routed,
                                             instructions: seq<string>)
    requires forall k | 0 <= k < |pages| :: MentionsPage(r.instruction, pages[k])
    ensures forall a | a in MatchAll(pages, types, [r], instructions).entries ::
              a.instruction == r.instruction && a.tool == r.tool
  {
    if pages != [] {
      var p' := pages[..|pages| - 1];
      SharedInstruction(p', types, r, instructions);
      var m := FirstMention([r], pages[|pages| - 1], 0);
      assert m == Some(0);
      BestToolIsOwnTool(ContentTypeOf(types, pages[|pages| - 1]), r.tool);
    }
  }

  /** The second pass takes the first unused instruction whatever its
      words, and only the content-type correction can change its tool. */
  lemma SecondPassTakesFirstUnused(st: MatchState, types: seq<PageType>, routed: seq<Routed>,
                                   instructions: seq<string>, page: string, k: nat)
    requires FirstMention(routed, page, 0).None?
    requires k < |routed| && routed[k].instruction !in st.used
    requires forall j | 0 <= j < k :: routed[j].instruction in st.used
    ensures var a := MatchPage(st, types, routed, instructions, page).entries[|st.entries|];
            a.instruction == routed[k].instruction
            && a.tool == KeywordTool(ContentTypeOf(types, page), routed[k].instruction, routed[k].tool)
  {
    assert FirstUnused(routed, st.used, 0) == Some(k);
    BestToolIsOwnTool(ContentTypeOf(types, page), routed[k].tool);
  }

  /** A page that no instruction names, met when every instruction is already
      used, gets the fallback instruction and the search tool, and the used
      set stays as it was. */
  lemma AllUsedFallback(st: MatchState, types: seq<PageType>, routed: seq<Routed>,
                        instructions: seq<string>, page: string)
    requires FirstMention(routed, page, 0).None?
    requires forall j | 0 <= j < |routed| :: routed[j].instruction in st.used
    ensures MatchPage(st, types, routed, instructions, page)
            == MatchState(st.entries + [Assignment(page, FallbackInstruction(instructions), AiPoweredSearch)], st.used)
  {
  }

  /** Without instructions every page gets the first instruction's fallback
      and the search tool. */
  lemma {:induction false} NoInstructionsFallback(pages: seq<string>, types: seq<PageType>)
    ensures forall a | a in MatchAll(pages, types, [], []).entries ::
              a.instruction == DefaultInstruction && a.tool == AiPoweredSearch
  {
    if pages != [] {
      NoInstructionsFallback(pages[..|pages| - 1], types);
    }
  }

  // ------------------------------------------- the old and new versions

  /** `/impact|compare|difference|diff/i` */
  predicate ImpactInstruction(instruction: string) {
    ContainsAny(Lower(instruction), ["impact", "compare", "difference", "diff"])
  }

  /** With exactly two selected pages and an impact instruction, the first
      selected page is the old version and the second the new one. */
  function ImpactPair(pages: seq<string>, instructions: seq<string>): (r: Option<(string, string)>)
    ensures r.Some? <==> |pages| == 2 && exists k | 0 <= k < |instructions| :: ImpactInstruction(instructions[k])
    ensures r.Some? ==> r.value.0 == pages[0] && r.value.1 == pages[1]
  {
    if |pages| == 2 && exists k | 0 <= k < |instructions| :: ImpactInstruction(instructions[k])
    then Some((pages[0], pages[1]))
    else None
  }
}

=== FILE: backend_helpers.dfy ===
/** Smaller helpers of backend/main.py: emoji removal, the content-based
    language guesses, the space auto-detection, the cleaning of a CSV table
    written by the model, and the bodies written and previewed by the
    save-to-page endpoints. */
module BackendHelpers {
  import opened Text

  // ----------------------------------------------------------- emojis

  /** The four code point ranges of `remove_emojis`' pattern. */
  predicate IsEmoji(c: char) {
    ('\U{1F600}' <= c <= '\U{1F64F}') || ('\U{1F300}' <= c <= '\U{1F5FF}')
    || ('\U{1F680}' <= c <= '\U{1F6FF}') || ('\U{1F1E0}' <= c <= '\U{1F1FF}')
  }

  /** The pattern substitution alone: every emoji goes, every other
      character stays. */
  function DropEmojis(s: string): (r: string)
    ensures |r| <= |s|
    ensures forall k | 0 <= k < |r| :: !IsEmoji(r[k])
    ensures forall c | !IsEmoji(c) :: c in r <==> c in s
    ensures (forall k | 0 <= k < |s| :: !IsEmoji(s[k])) ==> r == s
  {
    if s == [] then "" else (if IsEmoji(s[0]) then "" else [s[0]]) + DropEmojis(s[1..])
  }

  /** `remove_emojis`: the pattern substitution, then the Latin-1 round trip
      that drops what Latin-1 cannot encode. */
  function RemoveEmojis(s: string): (r: string)
    ensures |r| <= |s|
    ensures forall k | 0 <= k < |r| :: r[k] as int <= 0xFF && !IsEmoji(r[k])
    ensures (forall k | 0 <= k < |s| :: s[k] as int <= 0xFF) ==> r == s
  {
    KeepUpTo(DropEmojis(s), 0xFF)
  }

  /** The emoji pattern is redundant: the Latin-1 round trip alone keeps
      exactly the code points up to 0xFF. */
  lemma {:induction false} RemoveEmojisIsLatin1Filter(s: string)
    ensures RemoveEmojis(s) == KeepUpTo(s, 0xFF)
  {
    if s != [] {
      RemoveEmojisIsLatin1Filter(s[1..]);
      if IsEmoji(s[0]) {
        assert DropEmojis(s) == DropEmojis(s[1..]);
      } else {
        assert DropEmojis(s) == [s[0]] + DropEmojis(s[1..]);
        assert (DropEmojis(s))[1..] == DropEmojis(s[1..]);
      }
    }
  }

  // ------------------------------------------------ language detection

  datatype Language = Xml | Html | Json | Java | Cpp | Python | JavaScript | PlainText

  /** `re.search(r"\bclass\s+\w+", content)` with ASCII word characters. */
  predicate ClassDeclAt(s: string, i: int, j: int) {
    0 <= i && i + 5 < j < |s|
    && MatchAt(s, "class", i) && (i == 0 || !IsWordChar(s[i - 1]))
    && (forall k | i + 5 <= k < j :: IsPySpace(s[k])) && IsWordChar(s[j])
  }

  predicate HasClassDecl(s: string) {
    exists i, j | 0 <= i < j < |s| :: ClassDeclAt(s, i, j)
  }

  /** The seven tests of the chain, in their order. */
  predicate LooksXml(c: string) { Contains(c, "<?xml") }
  predicate LooksHtml(c: string) { Contains(Lower(c), "<html") || Contains(c, "<!DOCTYPE html>") }
  predicate LooksJson(c: string) { StartsWith(Trim(c, Py), "{") || StartsWith(Trim(c, Py), "[") }
  predicate LooksJava(c: string) { HasClassDecl(c) && Contains(c, "public") }
  predicate LooksCpp(c: string) { Contains(c, "#include") }
  predicate LooksPython(c: string) { Contains(c, "def ") }
  predicate LooksJavaScript(c: string) { Contains(c, "function") || Contains(c, "=>") }

  /** `detect_language_from_content`: the first test that holds decides,
      and plain text is what none of them claims. */
  function DetectLanguage(content: string): (l: Language)
    ensures l == Xml <==> LooksXml(content)
    ensures l == Html <==> !LooksXml(content) && LooksHtml(content)
    ensures l == Json <==> !LooksXml(content) && !LooksHtml(content) && LooksJson(content)
    ensures l == Java <==> !LooksXml(content) && !LooksHtml(content) && !LooksJson(content)
                           && LooksJava(content)
    ensures l == Cpp <==> !LooksXml(content) && !LooksHtml(content) && !LooksJson(content)
                          && !LooksJava(content) && LooksCpp(content)
    ensures l == Python <==> !LooksXml(content) && !LooksHtml(content) && !LooksJson(content)
                             && !LooksJava(content) && !LooksCpp(content) && LooksPython(content)
    ensures l == JavaScript <==> !LooksXml(content) && !LooksHtml(content) && !LooksJson(content)
                                 && !LooksJava(content) && !LooksCpp(content) && !LooksPython(content)
                                 && LooksJavaScript(content)
    ensures l == PlainText <==> !LooksXml(content) && !LooksHtml(content) && !LooksJson(content)
                                && !LooksJava(content) && !LooksCpp(content) && !LooksPython(content)
                                && !LooksJavaScript(content)
  {
    if LooksXml(content) then Xml
    else if LooksHtml(content) then Html
    else if LooksJson(content) then Json
    else if LooksJava(content) then Java
    else if LooksCpp(content) then Cpp
    else if LooksPython(content) then Python
    else if LooksJavaScript(content) then JavaScript
    else PlainText
  }

  /** The order decides mixed texts: a C++ file that also holds `def ` is
      C++, a text with both `def ` and `function` is Python, and a text
      opening with `{` is JSON whatever code it holds. */
  lemma DetectionOrder(content: string)
    requires !LooksXml(content) && !LooksHtml(content)
    ensures StartsWith(Trim(content, Py), "{") ==> DetectLanguage(content) == Json
    ensures !LooksJson(content) && !LooksJava(content) && LooksCpp(content) && LooksPython(content)
            ==> DetectLanguage(content) == Cpp
    ensures !LooksJson(content) && !LooksJava(content) && !LooksCpp(content)
              && Contains(content, "def ") && Contains(content, "function")
            ==> DetectLanguage(content) == Python
  {
  }

  // -------------------------------------------- the fallback language

  /** The framework profiles of the final fallback of the test-generation
      endpoint. */
  datatype Profile = StaticHtml | ReactApp | VueApp | FlaskApp | PlainJavaScript

  /** The HTML test, as written: `"<!DOCTYPE html>" in code_content.upper()`. */
  predicate HtmlTestAsWritten(c: string) {
    Contains(Lower(c), "<html") || Contains(Upper(c), "<!DOCTYPE html>")
  }

  /** The HTML test as evidently intended: the doctype searched case-insensitively. */
  predicate HtmlTest(c: string) {
    Contains(Lower(c), "<html") || Contains(Upper(c), "<!DOCTYPE HTML>")
  }

  /** The rest of the chain. `"def " in c or "import " in c and ".py" in c`
      groups as `"def " in c or ("import " in c and ".py" in c)`. */
  function ProfileAfterHtml(c: string): Profile {
    if Contains(c, "import React") || Contains(c, "from 'react'") then ReactApp
    else if Contains(c, "import Vue") || Contains(c, "from 'vue'") then VueApp
    else if Contains(c, "def ") || (Contains(c, "import ") && Contains(c, ".py")) then FlaskApp
    else if Contains(c, "function") || Contains(c, "const ") || Contains(c, "let ") then PlainJavaScript
    else StaticHtml
  }

  function FallbackProfileAsWritten(c: string): Profile {
    if HtmlTestAsWritten(c) then StaticHtml else ProfileAfterHtml(c)
  }

  function FallbackProfile(c: string): (p: Profile)
    ensures Contains(Upper(c), "<!DOCTYPE HTML>") || Contains(Lower(c), "<html") ==> p == StaticHtml
    ensures p == FlaskApp ==> Contains(c, "def ") || Contains(c, ".py")
    ensures p == ReactApp ==> Contains(c, "import React") || Contains(c, "from 'react'")
  {
    if HtmlTest(c) then StaticHtml else ProfileAfterHtml(c)
  }

  /** `and` binds tighter than `or`: without a React or Vue marker, `def `
      alone means Flask whatever `import` and `.py` say, while `import `
      without `.py` (and without `def `) never does. */
  lemma FlaskGrouping(c: string)
    requires !Contains(c, "import React") && !Contains(c, "from 'react'")
    requires !Contains(c, "import Vue") && !Contains(c, "from 'vue'")
    ensures Contains(c, "def ") ==> ProfileAfterHtml(c) == FlaskApp
    ensures !Contains(c, "def ") && !Contains(c, ".py") ==> ProfileAfterHtml(c) != FlaskApp
    ensures !Contains(c, "def ") && Contains(c, "import ") && Contains(c, ".py") ==> ProfileAfterHtml(c) == FlaskApp
  {
  }

  /** Corrected, a doctype in any letter case makes the page static HTML,
      whatever else it contains. */
  lemma DoctypeMeansHtml(c: string, doctype: string)
    requires Contains(c, doctype) && Upper(doctype) == "<!DOCTYPE HTML>"
    ensures FallbackProfile(c) == StaticHtml
  {
    UpperContains(c, doctype);
  }

  /** Upper-casing keeps occurrences, upper-cased. */
  lemma UpperContains(s: string, t: string)
    requires Contains(s, t)
    ensures Contains(Upper(s), Upper(t))
  {
    var i :| 0 <= i <= |s| - |t| && MatchAt(s, t, i);
    assert Upper(s)[i..i + |t|] == Upper(t) by {
      forall k | 0 <= k < |t|
        ensures Upper(s)[i..i + |t|][k] == Upper(t)[k]
      {
        assert s[i..i + |t|][k] == s[i + k];
      }
    }
    assert MatchAt(Upper(s), Upper(t), i);
  }

  /** As written, the doctype test never holds: the upper-cased text has no
      lower-case `h`, which the searched string contains. */
  lemma DoctypeTestAsWrittenNeverHolds(c: string)
    ensures !Contains(Upper(c), "<!DOCTYPE html>")
  {
    var t := "<!DOCTYPE html>";
    assert t[10] == 'h';
    forall k | 0 <= k < |Upper(c)|
      ensures Upper(c)[k] != 'h'
    {
      UpperHasNoLowerLetter(c, k);
    }
    NotContainsWithoutChar(Upper(c), t, 'h');
  }

  /** So a document that starts with a doctype but has no `<html` tag and
      contains a script `function` is classified as plain JavaScript as
      written, and as static HTML as intended. */
  lemma DoctypeDocumentMisclassified(c: string)
    requires Contains(c, "<!DOCTYPE html>") && !Contains(Lower(c), "<html")
    requires ProfileAfterHtml(c) == PlainJavaScript
    ensures FallbackProfileAsWritten(c) == PlainJavaScript
    ensures FallbackProfile(c) == StaticHtml
  {
    DoctypeTestAsWrittenNeverHolds(c);
    DoctypeMeansHtml(c, "<!DOCTYPE html>");
  }

  // ---------------------------------------------------------- spaces

  datatype SpaceChoice = Chosen(key: string) | Ambiguous

  /** `auto_detect_space`: a given key wins; otherwise the only space of the
      listing, if there is exactly one. An empty key stands for none. */
  function AutoDetectSpace(spaceKey: string, spaces: seq<string>): (r: SpaceChoice)
    ensures spaceKey != [] ==> r == Chosen(spaceKey)
    ensures spaceKey == [] && |spaces| == 1 ==> r == Chosen(spaces[0])
    ensures r == Ambiguous <==> spaceKey == [] && |spaces| != 1
  {
    if spaceKey != [] then Chosen(spaceKey)
    else if |spaces| == 1 then Chosen(spaces[0])
    else Ambiguous
  }

  // -------------------------------------------------- CSV from the model

  /** The filter of `clean_ai_csv`: a comma, not a code fence once stripped,
      and not starting with "here" in any case (before stripping). */
  predicate IsCsvLine(line: string) {
    ',' in line && !StartsWith(Trim(line, Py), "```") && !StartsWith(Lower(line), "here")
  }

  /** The stripped line, if the filter keeps it. */
  function KeptLine(line: string): (r: seq<string>)
    ensures |r| <= 1
    ensures |r| == 1 <==> IsCsvLine(line)
    ensures forall k | 0 <= k < |r| :: r[k] == Trim(line, Py) && ',' in r[k]
  {
    if IsCsvLine(line) then
      TrimKeepsNonSpace(line, ',');
      [Trim(line, Py)]
    else []
  }

  /** The stripped lines that pass the filter, in order; each holds a comma. */
  function CsvLines(lines: seq<string>): (r: seq<string>)
    ensures |r| <= |lines|
    ensures forall k | 0 <= k < |r| :: ',' in r[k]
  {
    if lines == [] then [] else KeptLine(lines[0]) + CsvLines(lines[1..])
  }

  /** `line.split(",")[0]` */
  function FirstField(line: string): string {
    SplitOn(line, ",")[0]
  }

  /** The rows after the header whose first field differs from the header's. */
  function DataRows(header: string, rows: seq<string>): (r: seq<string>)
    ensures |r| <= |rows|
    ensures forall k | 0 <= k < |r| :: FirstField(r[k]) != FirstField(header)
  {
    if rows == [] then []
    else (if FirstField(rows[0]) != FirstField(header) then [rows[0]] else []) + DataRows(header, rows[1..])
  }

  /** The cleaned table, or `None` where `clean_lines[0]` fails for want of
      any line with a comma. */
  function CleanCsvOf(raw: string): (r: Option<seq<string>>)
    ensures r.None? <==> CsvLines(SplitLines(Trim(raw, Py))) == []
    ensures r.Some? ==> |r.value| >= 1 && r.value[0] == CsvLines(SplitLines(Trim(raw, Py)))[0]
    ensures r.Some? ==> forall k | 1 <= k < |r.value| :: FirstField(r.value[k]) != FirstField(r.value[0])
    ensures r.Some? ==> r.value == [r.value[0]] + DataRows(r.value[0], CsvLines(SplitLines(Trim(raw, Py)))[1..])
  {
    var clean := CsvLines(SplitLines(Trim(raw, Py)));
    if clean == [] then None else Some([clean[0]] + DataRows(clean[0], clean[1..]))
  }

  /** One line: kept, stripped, exactly when it passes the filter. */
  lemma CsvLinesSingle(line: string)
    ensures CsvLines([line]) == (if IsCsvLine(line) then [Trim(line, Py)] else [])
  {
    assert [line][1..] == [];
  }

  /** The filter works line by line: the kept lines of `a + b` are those of
      `a` followed by those of `b`. */
  lemma {:induction false} CsvLinesAppend(a: seq<string>, b: seq<string>)
    ensures CsvLines(a + b) == CsvLines(a) + CsvLines(b)
    decreases |a|
  {
    if a == [] {
      assert a + b == b;
    } else {
      assert (a + b)[0] == a[0];
      assert (a + b)[1..] == a[1..] + b;
      CsvLinesAppend(a[1..], b);
    }
  }

  /** Every line that passes the filter is kept, stripped, between the lines
      kept before it and those kept after it. */
  lemma CsvLineKept(lines: seq<string>, k: nat)
    requires k < |lines| && IsCsvLine(lines[k])
    ensures CsvLines(lines) == CsvLines(lines[..k]) + [Trim(lines[k], Py)] + CsvLines(lines[k + 1..])
  {
    var before, line, after := lines[..k], lines[k], lines[k + 1..];
    SplitAround(lines, k);
    CsvLinesAppend(before + [line], after);
    CsvLinesAppend(before, [line]);
    CsvLinesSingle(line);
  }

  lemma SplitAround(lines: seq<string>, k: nat)
    requires k < |lines|
    ensures lines == lines[..k] + [lines[k]] + lines[k + 1..]
  {
  }

  /** `clean_ai_csv`: the kept lines, joined by `\n`. */
  method CleanAiCsv(raw: string) returns (r: Option<string>)
    ensures CleanCsvOf(raw).None? ==> r.None?
    ensures CleanCsvOf(raw).Some? ==> r == Some(Join(CleanCsvOf(raw).value, "\n"))
  {
    var clean := CsvLines(SplitLines(Trim(raw, Py)));
    if clean == [] {
      return None;
    }
    var rows := DropRepeatedHeaders(clean[0], clean[1..]);
    r := Some(Join([clean[0]] + rows, "\n"));
  }

  /** The loop of `clean_ai_csv` over the lines after the header. */
  method DropRepeatedHeaders(header: string, lines: seq<string>) returns (rows: seq<string>)
    ensures rows == DataRows(header, lines)
  {
    rows := [];
    var i := 0;
    while i < |lines|
      invariant 0 <= i <= |lines|
      invariant rows == DataRows(header, lines[..i])
    {
      DataRowsSnoc(header, lines[..i], lines[i]);
      assert lines[..i + 1] == lines[..i] + [lines[i]];
      if FirstField(lines[i]) != FirstField(header) {
        rows := rows + [lines[i]];
      }
      i := i + 1;
    }
    assert lines[..i] == lines;
  }

  lemma {:induction false} DataRowsSnoc(header: string, rows: seq<string>, row: string)
    ensures DataRows(header, rows + [row])
            == DataRows(header, rows) + (if FirstField(row) != FirstField(header) then [row] else [])
  {
    if rows == [] {
      assert [] + [row] == [row];
    } else {
      assert (rows + [row])[1..] == rows[1..] + [row];
      DataRowsSnoc(header, rows[1..], row);
    }
  }

  lemma TrimKeepsNonSpace(s: string, c: char)
    requires c in s && !IsPySpace(c)
    ensures c in Trim(s, Py)
  {
    var i :| 0 <= i < |s| && s[i] == c;
    var a := TrimStart(s, Py);
    var off := |s| - |a|;
    assert i >= off;
    assert a[i - off] == c;
    var r := TrimEnd(a, Py);
    assert i - off < |r|;
    assert r[i - off] == c;
  }

  /** Repeated header lines are dropped, the first line is kept, and the
      other rows stay in order. */
  lemma RepeatedHeaderDropped(header: string, row: string)
    ensures DataRows(header, [header, row])
            == (if FirstField(row) != FirstField(header) then [row] else [])
  {
    assert [header, row][1..] == [row];
    assert [row][1..] == [];
  }

  // ---------------------------------------------------- saving to pages

  datatype SaveMode = Append | Overwrite | NewPage

  /** `request.mode or "append"` followed by the mode test; `None` for an
      unknown mode. */
  function SaveModeOf(mode: string): Option<SaveMode> {
    if mode == [] || mode == "append" then Some(Append)
    else if mode == "overwrite" then Some(Overwrite)
    else if mode == "new" then Some(NewPage)
    else None
  }

  datatype SaveResult = Created(body: string) | Updated(body: string) | PageNotFound | InvalidMode

  /** What `/save-to-confluence` writes. `existing` is the stored body of the
      page with the requested title, `None` when there is no such page; the
      page is looked up before an unknown mode is rejected. */
  function SaveBody(mode: string, content: string, existing: Option<string>): (r: SaveResult)
    ensures SaveModeOf(mode) == Some(NewPage) ==> r == Created(content)
    ensures SaveModeOf(mode) != Some(NewPage) && existing.None? ==> r == PageNotFound
    ensures existing.Some? && SaveModeOf(mode) == Some(Append) ==> r == Updated(existing.value + "<hr/>" + content)
    ensures existing.Some? && SaveModeOf(mode) == Some(Overwrite) ==> r == Updated(content)
    ensures r == InvalidMode <==> existing.Some? && SaveModeOf(mode).None?
    ensures r.Updated? ==> StartsWith(r.body, existing.value) || r.body == content
  {
    var m := SaveModeOf(mode);
    if m == Some(NewPage) then Created(content)
    else if existing.None? then PageNotFound
    else if m == Some(Append) then Updated(existing.value + "<hr/>" + content)
    else if m == Some(Overwrite) then Updated(content)
    else InvalidMode
  }

  datatype PreviewResult = Preview(previewContent: string, diff: string) | PreviewNotFound | PreviewInvalidMode

  /** What `/preview-save-to-confluence` returns: the mode must be spelled
      out (there is no default and no "new"). */
  function PreviewBody(mode: string, content: string, existing: Option<string>): (r: PreviewResult)
    ensures r == PreviewNotFound <==> existing.None?
    ensures r == PreviewInvalidMode <==> existing.Some? && mode != "append" && mode != "overwrite"
    ensures r.Preview? && mode == "append" ==> StartsWith(r.previewContent, existing.value)
    ensures r.Preview? && mode == "overwrite" ==> r.previewContent == content
  {
    if existing.None? then PreviewNotFound
    else if mode == "append" then
      Preview(existing.value + "<hr/>" + content,
              "<div style='color: green;'>+ " + content + "</div>")
    else if mode == "overwrite" then
      Preview(content,
              "<div style='color: red;'>- " + existing.value + "</div><div style='color: green;'>+ "
              + content + "</div>")
    else PreviewInvalidMode
  }

  /** The preview shows exactly the body the save would write, for both
      modes it accepts. */
  lemma PreviewMatchesSave(mode: string, content: string, existing: string)
    requires mode == "append" || mode == "overwrite"
    ensures PreviewBody(mode, content, Some(existing)).Preview?
    ensures SaveBody(mode, content, Some(existing)).Updated?
    ensures PreviewBody(mode, content, Some(existing)).previewContent
            == SaveBody(mode, content, Some(existing)).body
  {
    assert mode != [];
    assert mode != "new" by {
      assert |"new"| == 3;
    }
  }

  /** An empty mode saves by appending, but cannot be previewed. */
  lemma EmptyModeSavesButCannotPreview(content: string, existing: string)
    ensures SaveBody("", content, Some(existing)) == Updated(existing + "<hr/>" + content)
    ensures SaveBody("", content, Some(existing)) == SaveBody("append", content, Some(existing))
    ensures PreviewBody("", content, Some(existing)) == PreviewInvalidMode
  {
  }
}

=== FILE: code_assistant.dfy ===
/** The code assistant (src/components/CodeAssistant.tsx): `processCode`
    dispatches on which of a modification instruction, a target language and
    an AI action are chosen, chains the backend calls of the chosen
    pipeline, and records the outputs, the instruction history and the
    error shown. The backend is a function from requests to replies. */
module CodeAssistant {
  import opened Text

  /** One call of the code-assistant endpoint: its `instruction` and its
      `target_language` (`None` when the field is left out). */
  datatype CodeRequest = CodeRequest(instruction: string, targetLanguage: Option<string>)

  /** A reply, or the exception the call raised. Empty strings stand for
      missing fields. */
  datatype Reply = Ok(modified: string, converted: string, original: string) | Failed(message: string)

  datatype HistoryEntry = HistoryEntry(instruction: string, output: string)

  /** What the component's state holds besides the form, plus the requests
      sent so far. */
  datatype Outputs = Outputs(aiAction: string, conversion: string, modification: string,
                             processed: string, history: seq<HistoryEntry>,
                             historyIndex: Option<nat>, error: string, processing: bool,
                             requests: seq<CodeRequest>)

  /** The form: space, page, the code found on the page, and the options. */
  datatype Form = Form(space: string, page: string, detectedCode: string, instruction: string,
                       targetLanguage: string, aiAction: string)

  const SelectPageError := "Please select a space and page."
  const NoOptionError := "Please provide a modification instruction, select a target language, or choose an AI action."
  const ProcessError := "Failed to process code. Please try again."
  const RunActionErrorPrefix := "Failed to run AI action: "
  const ActionDone := "AI action completed successfully."
  const ModificationDone := "Modification completed successfully."
  const Placeholder := "Select action..."

  /** `instruction.trim() !== ''` */
  predicate HasInstruction(f: Form) { !Blank(f.instruction, Js) }
  predicate HasLanguage(f: Form) { f.targetLanguage != [] }
  predicate HasAction(f: Form) { f.aiAction != [] && f.aiAction != Placeholder }

  /** `a || b || c || d` over strings: the first non-empty candidate, in
      order, and the last one when all before it are empty. */
  function FirstNonEmpty(a: string, b: string, c: string, d: string): (r: string)
    ensures a != [] ==> r == a
    ensures a == [] && b != [] ==> r == b
    ensures a == [] && b == [] && c != [] ==> r == c
    ensures a == [] && b == [] && c == [] ==> r == d
    ensures r == [] <==> a == [] && b == [] && c == [] && d == []
  {
    if a != [] then a else if b != [] then b else if c != [] then c else d
  }

  /** `modified_code || converted_code || original_code || ''` */
  function ModifiedCode(r: Reply): string
    requires r.Ok?
  {
    FirstNonEmpty(r.modified, r.converted, r.original, "")
  }

  /** `converted_code || modified_code || original_code || ''` */
  function ConvertedCode(r: Reply): string
    requires r.Ok?
  {
    FirstNonEmpty(r.converted, r.modified, r.original, "")
  }

  /** The AI-action catalogue: each action's name and the instruction that
      precedes the code in its prompt. */
  const ActionTable: seq<(string, string)> := [
    ("Optimize Performance",
     "Optimize the following code for performance without changing its functionality, return only the updated code:\n\n"),
    ("Generate Documentation",
     "Generate inline documentation and function-level comments for the following code, return only the updated code by commenting the each line of the code.:\n\n"),
    ("Refactor Structure",
     "Refactor the following code to improve structure, readability, and modularity, return only the updated code:\n\n"),
    ("Identify dead code",
     "Analyze the following code for any unsued code or dead code, return only the updated code by removing the dead code:\n\n"),
    ("Add Logging Statements",
     "Add appropriate logging statements to the following code for better traceability and debugging. Return only the updated code:\n\n")
  ]

  /** The value of the first entry of `table` whose key is `key`. */
  function Lookup(table: seq<(string, string)>, key: string): (r: Option<string>)
    ensures r.None? <==> forall k | 0 <= k < |table| :: table[k].0 != key
    ensures r.Some? ==> exists k | 0 <= k < |table| :: table[k] == (key, r.value)
  {
    if table == [] then None
    else if table[0].0 == key then Some(table[0].1)
    else
      var r := Lookup(table[1..], key);
      assert forall k | 1 <= k < |table| :: table[k] == table[1..][k - 1];
      r
  }

  /** The prompt of an AI action on `code`: its instruction followed by the
      code; none for a name outside the catalogue. */
  function ActionPrompt(action: string, code: string): Option<string> {
    match Lookup(ActionTable, action)
    case None => None
    case Some(p) => Some(p + code)
  }

  // ------------------------------------------------------------ dispatch

  datatype Path = NoOption | ModifyThenAct | ConvertModifyAct | ConvertThenModify | ConvertThenAct
                | ActOnly | SingleRequest

  /** The branch `processCode` takes once a space and a page are chosen. */
  function PathOf(m: bool, l: bool, a: bool): (p: Path)
    ensures p == NoOption <==> !m && !l && !a
    ensures p == ModifyThenAct <==> a && m && !l
    ensures p == ConvertModifyAct <==> l && m && a
    ensures p == ConvertThenModify <==> l && m && !a
    ensures p == ConvertThenAct <==> l && !m && a
    ensures p == ActOnly <==> a && !m && !l
    ensures p == SingleRequest <==> !a && (m != l)
  {
    if !m && !l && !a then NoOption
    else if a && m && !l then ModifyThenAct
    else if l && m && a then ConvertModifyAct
    else if l && m && !a then ConvertThenModify
    else if l && !m && a then ConvertThenAct
    else if a then ActOnly
    else SingleRequest
  }

  /** The last call of an AI-action pipeline on `code`: nothing when the
      action has no prompt, otherwise the action's output. */
  function Act(o: Outputs, f: Form, api: CodeRequest -> Reply, code: string): (r: Outputs)
    ensures r.history == o.history && r.historyIndex == o.historyIndex
    ensures r.conversion == o.conversion && r.modification == o.modification
    ensures ActReplied(f, api, code) ==> r.error == o.error && |r.requests| == |o.requests| + 1
    ensures ActionPrompt(f.aiAction, code).None? ==> r.requests == o.requests && r.aiAction == []
  {
    match ActionPrompt(f.aiAction, code)
    case None => o.(aiAction := "")
    case Some(p) =>
      var req := CodeRequest(p, None);
      var r := api(req);
      var o1 := o.(requests := o.requests + [req]);
      if r.Failed? then o1.(error := ProcessError)
      else o1.(aiAction := FirstNonEmpty(r.modified, r.converted, r.original, ActionDone))
  }

  /** Whether the action step of a pipeline on `code` got a reply. */
  predicate ActReplied(f: Form, api: CodeRequest -> Reply, code: string) {
    ActionPrompt(f.aiAction, code).Some? && api(CodeRequest(ActionPrompt(f.aiAction, code).value, None)).Ok?
  }

  /** Instruction, then AI action, without a target language. */
  function ModifyThenActSpec(o: Outputs, f: Form, api: CodeRequest -> Reply): Outputs {
    var req := CodeRequest(f.instruction, Some(""));
    var r := api(req);
    var o1 := o.(requests := o.requests + [req]);
    if r.Failed? then o1.(error := ProcessError)
    else
      var o2 := Act(o1, f, api, ModifiedCode(r));
      if !ActReplied(f, api, ModifiedCode(r)) then o2
      else
        o2.(modification := "", conversion := "",
            history := [HistoryEntry(f.instruction, o2.aiAction)] + o2.history,
            historyIndex := Some(0), processed := "")
  }

  /** The conversion call that starts the pipelines with a target language. */
  function ConvertRequest(f: Form): CodeRequest {
    CodeRequest("", Some(f.targetLanguage))
  }

  /** The modification of converted code. */
  function ModifyConvertedRequest(f: Form, converted: string): CodeRequest {
    CodeRequest(f.instruction + "\n\n" + converted, Some(""))
  }

  /** The first two calls of the pipelines that convert and then modify:
      the conversion, then the instruction applied to the converted code.
      Gives the state and the reply of the last call made. */
  function ConvertAndModify(o: Outputs, f: Form, api: CodeRequest -> Reply): (r: (Outputs, Reply))
    ensures r.0.history == o.history && r.0.historyIndex == o.historyIndex
    ensures r.1.Ok? ==> r.0.error == o.error
    ensures r.1.Failed? ==> r.0.error == ProcessError
    ensures |o.requests| < |r.0.requests| && r.0.requests[..|o.requests|] == o.requests
  {
    var r1 := api(ConvertRequest(f));
    var o1 := o.(requests := o.requests + [ConvertRequest(f)]);
    if r1.Failed? then (o1.(error := ProcessError), r1)
    else
      var req2 := ModifyConvertedRequest(f, ConvertedCode(r1));
      var r2 := api(req2);
      var o2 := o1.(requests := o1.requests + [req2]);
      if r2.Failed? then (o2.(error := ProcessError), r2) else (o2, r2)
  }

  /** Conversion, then the instruction, then the AI action. */
  function ConvertModifyActSpec(o: Outputs, f: Form, api: CodeRequest -> Reply): Outputs {
    var (o2, r2) := ConvertAndModify(o, f, api);
    if r2.Failed? then o2
    else
      var o3 := Act(o2, f, api, ModifiedCode(r2));
      if !ActReplied(f, api, ModifiedCode(r2)) then o3
      else
        o3.(history := [HistoryEntry(f.instruction, o3.aiAction)] + o3.history,
            historyIndex := Some(0), processed := "")
  }

  /** Conversion, then the instruction. */
  function ConvertThenModifySpec(o: Outputs, f: Form, api: CodeRequest -> Reply): Outputs {
    var (o2, r2) := ConvertAndModify(o, f, api);
    if r2.Failed? then o2
    else
      var out := FirstNonEmpty(r2.modified, r2.converted, r2.original, ModificationDone);
      o2.(modification := out, history := [HistoryEntry(f.instruction, out)] + o2.history,
          historyIndex := Some(0), conversion := "", aiAction := "", processed := "")
  }

  /** Conversion, then the AI action. */
  function ConvertThenActSpec(o: Outputs, f: Form, api: CodeRequest -> Reply): Outputs {
    var r1 := api(ConvertRequest(f));
    var o1 := o.(requests := o.requests + [ConvertRequest(f)]);
    if r1.Failed? then o1.(error := ProcessError)
    else
      var o2 := Act(o1.(conversion := "", modification := ""), f, api, ConvertedCode(r1));
      if !ActReplied(f, api, ConvertedCode(r1)) then o2
      else o2.(processed := "")
  }

  /** `runAiAction`: the chosen action on the code found on the page. */
  function RunAiActionSpec(o: Outputs, f: Form, api: CodeRequest -> Reply): Outputs {
    if f.aiAction == [] || f.aiAction == Placeholder || f.detectedCode == [] then o
    else
      match ActionPrompt(f.aiAction, f.detectedCode)
      case None => o
      case Some(p) =>
        var req := CodeRequest(p, None);
        var r := api(req);
        var o1 := o.(requests := o.requests + [req]);
        if r.Failed? then o1.(error := RunActionErrorPrefix + r.message)
        else o1.(aiAction := FirstNonEmpty(r.modified, r.converted, r.original, ActionDone))
  }

  /** One call with the instruction and the language (`targetLanguage ||
      undefined`); `m` and `l` say whether an instruction and a language
      were given. */
  function SingleRequestSpec(o: Outputs, f: Form, api: CodeRequest -> Reply, m: bool, l: bool): Outputs {
    var req := CodeRequest(f.instruction, if f.targetLanguage == [] then None else Some(f.targetLanguage));
    var r := api(req);
    var o1 := o.(requests := o.requests + [req]);
    if r.Failed? then o1.(error := ProcessError)
    else
      var o2 := o1.(conversion := if l && r.converted != [] then r.converted else "");
      if m && r.modified != [] then
        o2.(modification := r.modified, history := [HistoryEntry(f.instruction, r.modified)] + o2.history,
            historyIndex := Some(0))
      else o2.(modification := "")
  }

  /** `processCode` */
  function Process(o: Outputs, f: Form, api: CodeRequest -> Reply): Outputs {
    if f.space == [] || f.page == [] then o.(error := SelectPageError)
    else
      var o1 := o.(aiAction := "", conversion := "", modification := "");
      var path := PathOf(HasInstruction(f), HasLanguage(f), HasAction(f));
      if path == NoOption then o1.(error := NoOptionError)
      else
        var o2 := o1.(processing := true, error := "");
        Run(o2, f, api, path, HasInstruction(f), HasLanguage(f)).(processing := false)
  }

  /** The pipeline of one path, from the state after the checks. */
  function Run(o: Outputs, f: Form, api: CodeRequest -> Reply, path: Path, m: bool, l: bool): Outputs {
    match path
    case ModifyThenAct => ModifyThenActSpec(o, f, api)
    case ConvertModifyAct => ConvertModifyActSpec(o, f, api)
    case ConvertThenModify => ConvertThenModifySpec(o, f, api)
    case ConvertThenAct => ConvertThenActSpec(o, f, api)
    case ActOnly => RunAiActionSpec(o, f, api)
    case _ => SingleRequestSpec(o, f, api, m, l)
  }

  // --------------------------------------------------- the component

  class Assistant {
    /** The space, page, detected code and chosen options. */
    var form: Form
    var aiActionOutput: string
    var conversionOutput: string
    var modificationOutput: string
    var processedCode: string
    var history: seq<HistoryEntry>
    var historyIndex: Option<nat>
    var error: string
    var processing: bool
    /** The requests sent to the backend so far. */
    var requests: seq<CodeRequest>

    function State(): Outputs
      reads this
    {
      Outputs(aiActionOutput, conversionOutput, modificationOutput, processedCode, history,
              historyIndex, error, processing, requests)
    }

    /** Sends one request and records it. */
    method Call(api: CodeRequest -> Reply, req: CodeRequest) returns (r: Reply)
      modifies this
      ensures r == api(req)
      ensures State() == old(State()).(requests := old(requests) + [req])
      ensures form == old(form)
    {
      requests := requests + [req];
      r := api(req);
    }

    /** The last step of the action pipelines. Returns whether a reply
        arrived. */
    method RunAct(api: CodeRequest -> Reply, code: string) returns (done: bool)
      modifies this
      ensures State() == Act(old(State()), form, api, code)
      ensures done <==> ActReplied(form, api, code)
      ensures form == old(form)
    {
      var prompt := ActionPrompt(form.aiAction, code);
      if prompt.None? {
        aiActionOutput := "";
        return false;
      }
      var r := Call(api, CodeRequest(prompt.value, None));
      if r.Failed? {
        error := ProcessError;
        return false;
      }
      aiActionOutput := FirstNonEmpty(r.modified, r.converted, r.original, ActionDone);
      return true;
    }

    method RunAiAction(api: CodeRequest -> Reply)
      modifies this
      ensures State() == RunAiActionSpec(old(State()), old(form), api)
      ensures form == old(form)
    {
      if form.aiAction == [] || form.aiAction == Placeholder || form.detectedCode == [] {
        return;
      }
      var prompt := ActionPrompt(form.aiAction, form.detectedCode);
      if prompt.None? {
        return;
      }
      var r := Call(api, CodeRequest(prompt.value, None));
      if r.Failed? {
        error := RunActionErrorPrefix + r.message;
        return;
      }
      aiActionOutput := FirstNonEmpty(r.modified, r.converted, r.original, ActionDone);
    }

    method ProcessCode(api: CodeRequest -> Reply)
      modifies this
      ensures State() == Process(old(State()), old(form), api)
      ensures form == old(form)
    {
      if form.space == [] || form.page == [] {
        error := SelectPageError;
        return;
      }
      aiActionOutput, conversionOutput, modificationOutput := "", "", "";
      var m, l, a := HasInstruction(form), HasLanguage(form), HasAction(form);
      if !m && !l && !a {
        error := NoOptionError;
        return;
      }
      processing, error := true, "";
      Dispatch(api, PathOf(m, l, a), m, l);
      processing := false;
    }

    /** The pipeline of the chosen path. */
    method Dispatch(api: CodeRequest -> Reply, path: Path, m: bool, l: bool)
      modifies this
      ensures State() == Run(old(State()), old(form), api, path, m, l)
      ensures form == old(form)
    {
      match path {
        case ModifyThenAct => ModifyThenActStep(api);
        case ConvertModifyAct => ConvertModifyActStep(api);
        case ConvertThenModify => ConvertThenModifyStep(api);
        case ConvertThenAct => ConvertThenActStep(api);
        case ActOnly => RunAiAction(api);
        case _ => SingleRequestStep(api, m, l);
      }
    }

    method ModifyThenActStep(api: CodeRequest -> Reply)
      modifies this
      ensures State() == ModifyThenActSpec(old(State()), old(form), api)
      ensures form == old(form)
    {
      var r := Call(api, CodeRequest(form.instruction, Some("")));
      if r.Failed? {
        error := ProcessError;
        return;
      }
      var done := RunAct(api, ModifiedCode(r));
      if !done {
        return;
      }
      modificationOutput, conversionOutput := "", "";
      history := [HistoryEntry(form.instruction, aiActionOutput)] + history;
      historyIndex := Some(0);
      processedCode := "";
    }

    method ConvertAndModifyStep(api: CodeRequest -> Reply) returns (r2: Reply)
      modifies this
      ensures (State(), r2) == ConvertAndModify(old(State()), old(form), api)
      ensures form == old(form)
    {
      var r1 := Call(api, ConvertRequest(form));
      if r1.Failed? {
        error := ProcessError;
        return r1;
      }
      r2 := Call(api, ModifyConvertedRequest(form, ConvertedCode(r1)));
      if r2.Failed? {
        error := ProcessError;
      }
    }

    method ConvertModifyActStep(api: CodeRequest -> Reply)
      modifies this
      ensures State() == ConvertModifyActSpec(old(State()), old(form), api)
      ensures form == old(form)
    {
      var r2 := ConvertAndModifyStep(api);
      if r2.Failed? {
        return;
      }
      var done := RunAct(api, ModifiedCode(r2));
      if !done {
        return;
      }
      history, historyIndex, processedCode := [HistoryEntry(form.instruction, aiActionOutput)] + history, Some(0), "";
    }

    method ConvertThenModifyStep(api: CodeRequest -> Reply)
      modifies this
      ensures State() == ConvertThenModifySpec(old(State()), old(form), api)
      ensures form == old(form)
    {
      var r2 := ConvertAndModifyStep(api);
      if r2.Failed? {
        return;
      }
      var out := FirstNonEmpty(r2.modified, r2.converted, r2.original, ModificationDone);
      modificationOutput, history, historyIndex, conversionOutput, aiActionOutput, processedCode
        := out, [HistoryEntry(form.instruction, out)] + history, Some(0), "", "", "";
    }

    method ConvertThenActStep(api: CodeRequest -> Reply)
      modifies this
      ensures State() == ConvertThenActSpec(old(State()), old(form), api)
      ensures form == old(form)
    {
      var r1 := Call(api, ConvertRequest(form));
      if r1.Failed? {
        error := ProcessError;
        return;
      }
      conversionOutput, modificationOutput := "", "";
      var done := RunAct(api, ConvertedCode(r1));
      if !done {
        return;
      }
      processedCode := "";
    }

    method SingleRequestStep(api: CodeRequest -> Reply, m: bool, l: bool)
      modifies this
      ensures State() == SingleRequestSpec(old(State()), old(form), api, m, l)
      ensures form == old(form)
    {
      var req := CodeRequest(form.instruction, if form.targetLanguage == [] then None else Some(form.targetLanguage));
      requests := requests + [req];
      var r := api(req);
      if r.Failed? {
        error := ProcessError;
        return;
      }
      var conversion := if l && r.converted != [] then r.converted else "";
      if m && r.modified != [] {
        conversionOutput, modificationOutput, history, historyIndex
          := conversion, r.modified, [HistoryEntry(form.instruction, r.modified)] + history, Some(0);
      } else {
        conversionOutput, modificationOutput := conversion, "";
      }
    }
  }

  // ------------------------------------------------------- properties

  /** Without any option chosen nothing is sent, the outputs are cleared
      and the error asks for an option. */
  lemma NoOptionNoRequest(o: Outputs, f: Form, api: CodeRequest -> Reply)
    requires f.space != [] && f.page != []
    requires !HasInstruction(f) && !HasLanguage(f) && !HasAction(f)
    ensures var r := Process(o, f, api);
            r.requests == o.requests && r.error == NoOptionError
            && r.aiAction == [] && r.conversion == [] && r.modification == []
  {
  }

  /** Earlier outputs never leak into a run: the three outputs after
      `processCode` do not depend on their values before it. */
  lemma OutputsClearedFirst(o: Outputs, f: Form, api: CodeRequest -> Reply, x: string, y: string, z: string)
    requires f.space != [] && f.page != []
    ensures var p := Process(o, f, api);
            var q := Process(o.(aiAction := x, conversion := y, modification := z), f, api);
            p.aiAction == q.aiAction && p.conversion == q.conversion && p.modification == q.modification
  {
  }

  /** With all three options and a backend that answers, the calls are the
      conversion, then the instruction applied to the converted code, then
      the action applied to the modified code. */
  lemma AllThreeInOrder(o: Outputs, f: Form, api: CodeRequest -> Reply)
    requires f.space != [] && f.page != [] && HasInstruction(f) && HasLanguage(f) && HasAction(f)
    requires api(ConvertRequest(f)).Ok?
    ensures var modReq := ModifyConvertedRequest(f, ConvertedCode(api(ConvertRequest(f))));
            api(modReq).Ok? && ActionPrompt(f.aiAction, ModifiedCode(api(modReq))).Some? ==>
            Process(o, f, api).requests
            == o.requests + [ConvertRequest(f), modReq,
                             CodeRequest(ActionPrompt(f.aiAction, ModifiedCode(api(modReq))).value, None)]
  {
  }

  /** The history grows by one entry, for the instruction, and points at
      it, or stays as it was; it grows only when an instruction is given. */
  lemma HistoryOnlyWithInstruction(o: Outputs, f: Form, api: CodeRequest -> Reply)
    ensures var r := Process(o, f, api);
            (r.history == o.history && r.historyIndex == o.historyIndex)
            || (HasInstruction(f) && r.historyIndex == Some(0) && |r.history| == |o.history| + 1
                && r.history[0].instruction == f.instruction && r.history[1..] == o.history)
  {
  }

  /** `runAiAction` sends nothing and changes nothing without a real action
      and some detected code. */
  lemma RunAiActionGuard(o: Outputs, f: Form, api: CodeRequest -> Reply)
    requires f.aiAction == [] || f.aiAction == Placeholder || f.detectedCode == []
    ensures RunAiActionSpec(o, f, api) == o
  {
  }

  // ------------------------------------------------ export and impact

  /** The content `exportCode` writes: the first non-empty of the
      modification, conversion, AI-action, processed and detected code;
      `None` when all are empty and nothing is exported. */
  function ExportContent(o: Outputs, f: Form): (c: Option<string>)
    ensures c.None? <==> o.modification == [] && o.conversion == [] && o.aiAction == []
                         && o.processed == [] && f.detectedCode == []
    ensures o.modification != [] ==> c == Some(o.modification)
    ensures o.modification == [] && o.conversion != [] ==> c == Some(o.conversion)
    ensures o.modification == [] && o.conversion == [] && o.aiAction != [] ==> c == Some(o.aiAction)
    ensures o.modification == [] && o.conversion == [] && o.aiAction == [] && o.processed != []
            ==> c == Some(o.processed)
    ensures o.modification == [] && o.conversion == [] && o.aiAction == [] && o.processed == []
              && f.detectedCode != []
            ==> c == Some(f.detectedCode)
  {
    var content := if o.modification != [] then o.modification
                   else FirstNonEmpty(o.conversion, o.aiAction, o.processed, f.detectedCode);
    if content == [] then None else Some(content)
  }

  datatype ImpactInput = Refused(message: string) | Compare(oldCode: string, newCode: string)

  const NoOriginalError := "No original code available for analysis."
  const NoResultError := "No AI result available for analysis."

  /** `analyzeImpact`: the original is the detected code; the new code is
      the first non-empty of the AI-action, modification, conversion and
      processed code. */
  function ImpactInputOf(o: Outputs, f: Form): (r: ImpactInput)
    ensures f.detectedCode == [] <==> r == Refused(NoOriginalError)
    ensures r == Refused(NoResultError) <==>
              f.detectedCode != [] && o.aiAction == [] && o.modification == [] && o.conversion == []
              && o.processed == []
    ensures r.Compare? ==> r.oldCode == f.detectedCode && r.newCode != []
    ensures f.detectedCode != [] && o.aiAction != [] ==> r == Compare(f.detectedCode, o.aiAction)
    ensures f.detectedCode != [] && o.aiAction == [] && o.modification != []
            ==> r == Compare(f.detectedCode, o.modification)
    ensures f.detectedCode != [] && o.aiAction == [] && o.modification == [] && o.conversion != []
            ==> r == Compare(f.detectedCode, o.conversion)
    ensures f.detectedCode != [] && o.aiAction == [] && o.modification == [] && o.conversion == []
              && o.processed != []
            ==> r == Compare(f.detectedCode, o.processed)
  {
    if f.detectedCode == [] then Refused(NoOriginalError)
    else
      var n := FirstNonEmpty(o.aiAction, o.modification, o.conversion, o.processed);
      if n == [] then Refused(NoResultError) else Compare(f.detectedCode, n)
  }

  /** Export and impact analysis rank the outputs differently: with both a
      modification and an AI-action output, export takes the modification
      and impact analysis the AI-action output. */
  lemma ExportAndImpactDisagree(o: Outputs, f: Form)
    requires o.modification != [] && o.aiAction != [] && o.modification != o.aiAction
    requires f.detectedCode != []
    ensures ExportContent(o, f) == Some(o.modification)
    ensures ImpactInputOf(o, f) == Compare(f.detectedCode, o.aiAction)
    ensures ExportContent(o, f).value != ImpactInputOf(o, f).newCode
  {
  }
}

=== FILE: diff_metrics.dfy ===
/** The change metrics of the impact analyser (backend/main.py, the
    `/impact-analyzer` and `/direct-code-impact-analyzer` endpoints): the
    unified diff of two line lists, the added/removed counts taken from it by
    line prefix, the percentage of change and the risk level and score derived
    from that percentage.

    The edit script is an input: which script difflib's matcher picks is not
    modelled, only that it turns the old lines into the new ones. Percentages
    are exact rationals kept as integer hundredths; Python's `round` (ties to
    even) is written out. */
module DiffMetrics {
  import opened Text

  /** One step of a line edit script. */
  datatype Edit = Keep(line: string) | Add(line: string) | Remove(line: string)

  /** The lines a script reads from the old text. */
  function OldSide(script: seq<Edit>): seq<string> {
    if script == [] then []
    else (if script[0].Add? then [] else [script[0].line]) + OldSide(script[1..])
  }

  /** The lines a script writes to the new text. */
  function NewSide(script: seq<Edit>): seq<string> {
    if script == [] then []
    else (if script[0].Remove? then [] else [script[0].line]) + NewSide(script[1..])
  }

  /** `script` is an edit script from `oldLines` to `newLines`. */
  predicate ScriptBetween(script: seq<Edit>, oldLines: seq<string>, newLines: seq<string>) {
    OldSide(script) == oldLines && NewSide(script) == newLines
  }

  /** The script that keeps every line: what the matcher finds for equal inputs. */
  function KeepAll(lines: seq<string>): (script: seq<Edit>)
    ensures |script| == |lines|
    ensures forall k | 0 <= k < |script| :: script[k] == Keep(lines[k])
  {
    seq(|lines|, k requires 0 <= k < |lines| => Keep(lines[k]))
  }

  predicate HasChange(script: seq<Edit>) {
    exists k | 0 <= k < |script| :: !script[k].Keep?
  }

  function RenderEdit(e: Edit): string {
    match e
    case Keep(l) => " " + l
    case Add(l) => "+" + l
    case Remove(l) => "-" + l
  }

  function RenderBody(script: seq<Edit>): (lines: seq<string>)
    ensures |lines| == |script|
  {
    if script == [] then [] else [RenderEdit(script[0])] + RenderBody(script[1..])
  }

  /** `difflib.unified_diff(old, new, fromfile, tofile, lineterm='')`: nothing
      when the script changes nothing, otherwise the two file header lines
      followed by the prefixed lines. Hunk headers (`@@ ... @@`) and the
      trimming of context to three lines are not modelled; neither begins
      with `+` or `-`. */
  function UnifiedDiff(fromFile: string, toFile: string, script: seq<Edit>): (lines: seq<string>)
    ensures lines == [] <==> !HasChange(script)
    ensures lines != [] ==> |lines| == |script| + 2 && lines[0] == "--- " + fromFile && lines[1] == "+++ " + toFile
  {
    if !HasChange(script) then []
    else ["--- " + fromFile, "+++ " + toFile] + RenderBody(script)
  }

  // ------------------------------------------------------------ counting

  /** `l.startswith('+') and not l.startswith('+++')` */
  predicate IsAddedLine(l: string) { StartsWith(l, "+") && !StartsWith(l, "+++") }

  /** `l.startswith('-') and not l.startswith('---')` */
  predicate IsRemovedLine(l: string) { StartsWith(l, "-") && !StartsWith(l, "---") }

  function CountAdded(lines: seq<string>): (n: nat)
    ensures n <= |lines|
  {
    if lines == [] then 0 else (if IsAddedLine(lines[0]) then 1 else 0) + CountAdded(lines[1..])
  }

  function CountRemoved(lines: seq<string>): (n: nat)
    ensures n <= |lines|
  {
    if lines == [] then 0 else (if IsRemovedLine(lines[0]) then 1 else 0) + CountRemoved(lines[1..])
  }

  /** Add steps, and those the prefix test can see (content not starting with `++`). */
  function AddSteps(script: seq<Edit>): nat {
    if script == [] then 0 else (if script[0].Add? then 1 else 0) + AddSteps(script[1..])
  }

  function VisibleAddSteps(script: seq<Edit>): nat {
    if script == [] then 0
    else (if script[0].Add? && !StartsWith(script[0].line, "++") then 1 else 0) + VisibleAddSteps(script[1..])
  }

  function RemoveSteps(script: seq<Edit>): nat {
    if script == [] then 0 else (if script[0].Remove? then 1 else 0) + RemoveSteps(script[1..])
  }

  function VisibleRemoveSteps(script: seq<Edit>): nat {
    if script == [] then 0
    else (if script[0].Remove? && !StartsWith(script[0].line, "--") then 1 else 0) + VisibleRemoveSteps(script[1..])
  }

  lemma {:induction false} AddStepsBound(script: seq<Edit>)
    ensures VisibleAddSteps(script) <= AddSteps(script) <= |NewSide(script)|
    ensures VisibleRemoveSteps(script) <= RemoveSteps(script) <= |OldSide(script)|
  {
    if script != [] {
      AddStepsBound(script[1..]);
    }
  }

  lemma {:induction false} AllVisible(script: seq<Edit>)
    requires forall k | 0 <= k < |script| :: !StartsWith(script[k].line, "++") && !StartsWith(script[k].line, "--")
    ensures VisibleAddSteps(script) == AddSteps(script)
    ensures VisibleRemoveSteps(script) == RemoveSteps(script)
  {
    if script != [] {
      AllVisible(script[1..]);
    }
  }

  /** A one-character marker in front of `l` adds one more to any prefix test. */
  lemma MarkedPrefix(c: char, l: string, p: string)
    ensures StartsWith([c] + l, [c] + p) <==> StartsWith(l, p)
  {
    var r := [c] + l;
    if StartsWith(l, p) {
      assert r[..|p| + 1] == [c] + l[..|p|];
    }
    if StartsWith(r, [c] + p) {
      assert l[..|p|] == r[1..|p| + 1];
    }
  }

  lemma RenderedLineCounts(e: Edit)
    ensures IsAddedLine(RenderEdit(e)) <==> e.Add? && !StartsWith(e.line, "++")
    ensures IsRemovedLine(RenderEdit(e)) <==> e.Remove? && !StartsWith(e.line, "--")
  {
    var r := RenderEdit(e);
    assert "+++" == ['+'] + "++" && "---" == ['-'] + "--";
    match e
    case Keep(l) =>
      assert r[0] == ' ';
    case Add(l) =>
      assert r == ['+'] + l && r[0] == '+';
      MarkedPrefix('+', l, "++");
    case Remove(l) =>
      assert r == ['-'] + l && r[0] == '-';
      MarkedPrefix('-', l, "--");
  }

  lemma {:induction false} CountBody(script: seq<Edit>)
    ensures CountAdded(RenderBody(script)) == VisibleAddSteps(script)
    ensures CountRemoved(RenderBody(script)) == VisibleRemoveSteps(script)
  {
    if script != [] {
      assert RenderBody(script)[1..] == RenderBody(script[1..]);
      assert RenderBody(script)[0] == RenderEdit(script[0]);
      CountBody(script[1..]);
      RenderedLineCounts(script[0]);
    }
  }

  lemma {:induction false} NoChangeNoSteps(script: seq<Edit>)
    requires !HasChange(script)
    ensures AddSteps(script) == 0 && RemoveSteps(script) == 0
  {
    if script != [] {
      assert !HasChange(script[1..]) by {
        forall k | 0 <= k < |script[1..]| ensures script[1..][k].Keep? {
          assert script[1..][k] == script[k + 1];
        }
      }
      NoChangeNoSteps(script[1..]);
    }
  }

  /** The prefix counts of a rendered diff are exactly the add and remove
      steps whose content does not itself start with `++` or `--`: the two
      file header lines are never counted, and neither is an added line
      `++x` (rendered `+++x`) or a removed line `--x` (rendered `---x`). */
  lemma CountsOfUnifiedDiff(fromFile: string, toFile: string, script: seq<Edit>)
    ensures CountAdded(UnifiedDiff(fromFile, toFile, script)) == VisibleAddSteps(script)
    ensures CountRemoved(UnifiedDiff(fromFile, toFile, script)) == VisibleRemoveSteps(script)
  {
    var d := UnifiedDiff(fromFile, toFile, script);
    if HasChange(script) {
      assert ("--- " + fromFile)[..3] == "---" && ("--- " + fromFile)[0] == '-';
      assert ("+++ " + toFile)[..3] == "+++" && ("+++ " + toFile)[0] == '+';
      assert d[0] == "--- " + fromFile && d[1] == "+++ " + toFile;
      assert d[1..][1..] == RenderBody(script);
      assert CountAdded(d) == CountAdded(d[1..]) == CountAdded(RenderBody(script));
      assert CountRemoved(d) == CountRemoved(d[1..]) == CountRemoved(RenderBody(script));
      CountBody(script);
    } else {
      NoChangeNoSteps(script);
      AddStepsBound(script);
    }
  }

  /** An added line whose content begins `++` is not counted, nor a removed
      line whose content begins `--`. */
  lemma DoubledMarkerLinesUncounted(fromFile: string, toFile: string)
    ensures CountAdded(UnifiedDiff(fromFile, toFile, [Add("++x")])) == 0
    ensures CountRemoved(UnifiedDiff(fromFile, toFile, [Remove("--x")])) == 0
  {
    CountsOfUnifiedDiff(fromFile, toFile, [Add("++x")]);
    CountsOfUnifiedDiff(fromFile, toFile, [Remove("--x")]);
    assert StartsWith("++x", "++");
    assert StartsWith("--x", "--");
  }

  // ---------------------------------------------------------- percentages

  lemma MulSucc(d: int, q: int)
    ensures d * (q + 1) == d * q + d
  {
  }

  /** Rounding `n / d` to `q` or `q + 1`, for `n == d * q + m`, lands within
      one half of the quotient; it is a tie exactly when `2 * m == d`. */
  lemma NearestCandidate(n: int, d: int, q: int, m: int, r: int)
    requires d > 0 && n == d * q + m && 0 <= m < d
    requires (2 * m < d && r == q) || (2 * m > d && r == q + 1) || (2 * m == d && (r == q || r == q + 1))
    ensures 2 * (d * r) <= 2 * n + d && 2 * n <= 2 * (d * r) + d
    ensures 2 * n == 2 * (d * r) + d || 2 * n + d == 2 * (d * r) ==> 2 * m == d
  {
    if r == q + 1 {
      MulSucc(d, q);
    }
  }

  /** Python's `round(n / d)` for non-negative `n`: the nearest integer
      (`|n/d - r| <= 1/2`), ties to the even one. */
  function RoundHalfEven(n: nat, d: nat): (r: nat)
    requires d > 0
    ensures 2 * (d * r) <= 2 * n + d && 2 * n <= 2 * (d * r) + d
    ensures 2 * n == 2 * (d * r) + d || 2 * n + d == 2 * (d * r) ==> r % 2 == 0
  {
    var q := n / d;
    var m := n % d;
    RoundedQuotient(n, d, q, m);
    HalfEvenChoice(n, d, q, m);
    HalfEven(q, m, d)
  }

  /** The candidate chosen from quotient `q` and remainder `m`. */
  function HalfEven(q: nat, m: nat, d: nat): nat {
    if 2 * m < d then q
    else if 2 * m > d then q + 1
    else if q % 2 == 0 then q
    else q + 1
  }

  lemma RoundedQuotient(n: nat, d: nat, q: int, m: int)
    requires d > 0 && q == n / d && m == n % d
    ensures q >= 0 && 0 <= m < d && n == d * q + m
  {
  }

  lemma HalfEvenChoice(n: int, d: nat, q: nat, m: nat)
    requires d > 0 && n == d * q + m && m < d
    ensures var r := HalfEven(q, m, d);
            2 * (d * r) <= 2 * n + d && 2 * n <= 2 * (d * r) + d
            && (2 * n == 2 * (d * r) + d || 2 * n + d == 2 * (d * r) ==> r % 2 == 0)
  {
    NearestCandidate(n, d, q, m, HalfEven(q, m, d));
  }

  lemma RoundHalfEvenMonotone(n1: nat, n2: nat, d: nat)
    requires d > 0 && n1 <= n2
    ensures RoundHalfEven(n1, d) <= RoundHalfEven(n2, d)
  {
    var r1, r2 := RoundHalfEven(n1, d), RoundHalfEven(n2, d);
    if r1 > r2 {
      var k := r1 - r2 - 1;
      MulSucc(d, r2 + k);
      MulGrows(d, r2, k);
      assert false;
    }
  }

  lemma MulGrows(d: int, a: int, k: int)
    requires d > 0 && k >= 0
    ensures d * (a + k) >= d * a
    ensures k > 0 ==> d * (a + k) >= d * a + d
  {
  }

  datatype Metrics = Metrics(linesAdded: nat, linesRemoved: nat, totalLines: nat, percentHundredths: nat)

  /** `len(old_lines) or 1` */
  function TotalLines(oldLines: seq<string>): (t: nat)
    ensures t >= 1 && t >= |oldLines|
    ensures |oldLines| > 0 ==> t == |oldLines|
  {
    if |oldLines| == 0 then 1 else |oldLines|
  }

  /** `round((changed / total) * 100, 2)`, in hundredths of a percent. */
  function PercentHundredths(changed: nat, total: nat): (h: nat)
    requires total > 0
    ensures changed == 0 ==> h == 0
    ensures 2 * (total * h) <= 20000 * changed + total && 20000 * changed <= 2 * (total * h) + total
  {
    RoundHalfEven(10000 * changed, total)
  }

  /** The metrics block of both endpoints, computed from the old text's lines
      and the diff lines. */
  function ComputeMetrics(oldLines: seq<string>, diffLines: seq<string>): (m: Metrics)
    ensures m.linesAdded <= |diffLines| && m.linesRemoved <= |diffLines|
    ensures m.totalLines >= 1
    ensures m.linesAdded + m.linesRemoved == 0 ==> m.percentHundredths == 0
  {
    var added := CountAdded(diffLines);
    var removed := CountRemoved(diffLines);
    var total := TotalLines(oldLines);
    Metrics(added, removed, total, PercentHundredths(added + removed, total))
  }

  /** Equal texts: the matcher keeps every line, so the diff is empty and
      every metric is zero, even for an empty text. */
  lemma IdenticalTextsNoChange(lines: seq<string>, fromFile: string, toFile: string)
    ensures UnifiedDiff(fromFile, toFile, KeepAll(lines)) == []
    ensures ComputeMetrics(lines, UnifiedDiff(fromFile, toFile, KeepAll(lines)))
            == Metrics(0, 0, TotalLines(lines), 0)
  {
    assert !HasChange(KeepAll(lines));
  }

  /** The counts never exceed the lines actually added and removed. */
  lemma CountsBoundedByScript(oldLines: seq<string>, newLines: seq<string>, script: seq<Edit>,
                              fromFile: string, toFile: string)
    requires ScriptBetween(script, oldLines, newLines)
    ensures ComputeMetrics(oldLines, UnifiedDiff(fromFile, toFile, script)).linesAdded <= |newLines|
    ensures ComputeMetrics(oldLines, UnifiedDiff(fromFile, toFile, script)).linesRemoved <= |oldLines|
  {
    CountsOfUnifiedDiff(fromFile, toFile, script);
    AddStepsBound(script);
  }

  /** The percentage is not capped at 100: replacing one line by two gives 300%. */
  lemma PercentCanExceedHundred()
    ensures ComputeMetrics(["a"], UnifiedDiff("old", "new", [Remove("a"), Add("b"), Add("c")])).percentHundredths == 30000
  {
    var script := [Remove("a"), Add("b"), Add("c")];
    CountsOfUnifiedDiff("old", "new", script);
    assert VisibleAddSteps(script) == 2 by {
      assert !StartsWith("b", "++") && !StartsWith("c", "++");
    }
    assert VisibleRemoveSteps(script) == 1 by {
      assert !StartsWith("a", "--");
    }
  }

  // ------------------------------------------------------- risk from percent

  datatype RiskLevel = Low | Medium | High

  function Rank(l: RiskLevel): nat {
    match l
    case Low => 0
    case Medium => 1
    case High => 2
  }

  /** `"low" if p < 10 else "medium" if p < 30 else "high"` */
  function LevelFromPercent(h: nat): (l: RiskLevel)
    ensures l == Low <==> h < 1000
    ensures l == Medium <==> 1000 <= h < 3000
    ensures l == High <==> h >= 3000
  {
    if h < 1000 then Low else if h < 3000 then Medium else High
  }

  /** `min(10, max(1, round(p / 10)))` with `p` in hundredths. */
  function ScoreFromPercent(h: nat): (s: int)
    ensures 1 <= s <= 10
  {
    var r := RoundHalfEven(h, 1000);
    if r > 10 then 10 else if r < 1 then 1 else r
  }

  lemma LevelMonotone(h1: nat, h2: nat)
    requires h1 <= h2
    ensures Rank(LevelFromPercent(h1)) <= Rank(LevelFromPercent(h2))
  {
  }

  lemma ScoreMonotone(h1: nat, h2: nat)
    requires h1 <= h2
    ensures ScoreFromPercent(h1) <= ScoreFromPercent(h2)
  {
    RoundHalfEvenMonotone(h1, h2, 1000);
  }

  /** The boundaries: 9.99 is low, 10.00 and 29.99 medium, 30.00 high. */
  lemma LevelBoundaries()
    ensures LevelFromPercent(999) == Low && LevelFromPercent(1000) == Medium
    ensures LevelFromPercent(2999) == Medium && LevelFromPercent(3000) == High
  {
  }

  /** A 25% change rounds to score 2 (a tie, to even) while its level is medium;
      15% rounds to 2 and 35% to 4. */
  lemma ScoreTiesToEven()
    ensures ScoreFromPercent(2500) == 2 && LevelFromPercent(2500) == Medium
    ensures ScoreFromPercent(1500) == 2 && ScoreFromPercent(3500) == 4
    ensures ScoreFromPercent(0) == 1 && ScoreFromPercent(20000) == 10
  {
  }
}

=== FILE: doc_sections.dfy ===
/** The section parser of the document-analysis endpoint (backend/main.py):
    the model's answer is cut into four assessments (maintainability,
    usability, accessibility, consistency), first by `## ` headers, then by
    blank-line paragraphs, and finally by an even split of its lines. */
module DocSections {
  import opened Text

  const NotAvailable := "Analysis not available"

  datatype Analysis = Analysis(maintainability: string, usability: string,
                               accessibility: string, consistency: string)

  function Initial(): Analysis {
    Analysis(NotAvailable, NotAvailable, NotAvailable, NotAvailable)
  }

  // ---------------------------------------------------- the header pass

  /** `section.strip().split('\n')` */
  function SectionLines(section: string): (lines: seq<string>)
    ensures |lines| >= 1
  {
    SplitOn(Trim(section, Py), "\n")
  }

  /** `lines[0].strip().upper()` */
  function SectionHeader(section: string): string {
    Upper(Trim(SectionLines(section)[0], Py))
  }

  /** `'\n'.join(lines[1:]).strip()` */
  function SectionBody(section: string): string {
    Trim(Join(SectionLines(section)[1..], "\n"), Py)
  }

  /** One `## ` section: the first keyword its header mentions, in the order
      maintainability, usability, accessibility, consistency, receives its
      body. */
  function ApplyHeaderSection(q: Analysis, section: string): Analysis {
    if Trim(section, Py) == [] then q
    else
      var h := SectionHeader(section);
      var c := SectionBody(section);
      if Contains(h, "MAINTAINABILITY") then q.(maintainability := c)
      else if Contains(h, "USABILITY") then q.(usability := c)
      else if Contains(h, "ACCESSIBILITY") then q.(accessibility := c)
      else if Contains(h, "CONSISTENCY") then q.(consistency := c)
      else q
  }

  /** The header loop over `sections`, in order: later sections override
      earlier ones. */
  function HeaderPass(q: Analysis, sections: seq<string>): Analysis {
    if sections == [] then q
    else ApplyHeaderSection(HeaderPass(q, sections[..|sections| - 1]), sections[|sections| - 1])
  }

  // ------------------------------------------------- the paragraph pass

  function ApplyParagraph(q: Analysis, paragraph: string): Analysis {
    var l := Lower(paragraph);
    var c := Trim(paragraph, Py);
    if Contains(l, "maintainability") then q.(maintainability := c)
    else if Contains(l, "usability") then q.(usability := c)
    else if Contains(l, "accessibility") then q.(accessibility := c)
    else if Contains(l, "consistency") then q.(consistency := c)
    else q
  }

  function ParagraphPass(q: Analysis, paragraphs: seq<string>): Analysis {
    if paragraphs == [] then q
    else ApplyParagraph(ParagraphPass(q, paragraphs[..|paragraphs| - 1]), paragraphs[|paragraphs| - 1])
  }

  // ------------------------------------------------------ the even split

  /** The line list cut in four: the first three parts get `n // 4` lines
      each and the last part the rest. */
  function EvenSplit(text: string): Analysis {
    var parts := SplitOn(text, "\n");
    var n := |parts| / 4;
    Analysis(Join(parts[..n], "\n"), Join(parts[n..2 * n], "\n"),
             Join(parts[2 * n..3 * n], "\n"), Join(parts[3 * n..], "\n"))
  }

  /** The four assessments of the (stripped) answer `text`. */
  function Sections(text: string): (q: Analysis)
    ensures q.maintainability != NotAvailable || q == EvenSplit(text)
  {
    var q1 := HeaderPass(Initial(), SplitOn(text, "## "));
    if q1.maintainability != NotAvailable then q1
    else
      var q2 := ParagraphPass(q1, SplitOn(text, "\n\n"));
      if q2.maintainability != NotAvailable then q2
      else EvenSplit(text)
  }

  /** The header loop: each `## ` section in turn updates the four values. */
  method HeaderLoop(sections: seq<string>) returns (r: Analysis)
    ensures r == HeaderPass(Initial(), sections)
  {
    r := Initial();
    var i := 0;
    while i < |sections|
      invariant 0 <= i <= |sections|
      invariant r == HeaderPass(Initial(), sections[..i])
    {
      assert sections[..i + 1][..i] == sections[..i];
      r := ApplyHeaderSection(r, sections[i]);
      i := i + 1;
    }
    assert sections[..|sections|] == sections;
  }

  /** The paragraph loop, starting from the values the header loop left. */
  method ParagraphLoop(q: Analysis, paragraphs: seq<string>) returns (r: Analysis)
    ensures r == ParagraphPass(q, paragraphs)
  {
    r := q;
    var j := 0;
    while j < |paragraphs|
      invariant 0 <= j <= |paragraphs|
      invariant r == ParagraphPass(q, paragraphs[..j])
    {
      assert paragraphs[..j + 1][..j] == paragraphs[..j];
      r := ApplyParagraph(r, paragraphs[j]);
      j := j + 1;
    }
    assert paragraphs[..|paragraphs|] == paragraphs;
  }

  /** The parser as written: the four values are reassigned by the loops
      and the fallbacks. */
  method ParseSections(text: string) returns (r: Analysis)
    ensures r == Sections(text)
  {
    r := HeaderLoop(SplitOn(text, "## "));
    if r.maintainability == NotAvailable {
      r := ParagraphLoop(r, SplitOn(text, "\n\n"));
    }
    if r.maintainability == NotAvailable {
      r := EvenSplit(text);
    }
  }

  // ------------------------------------------------------- properties

  /** When the answer has at least four lines, the even split loses nothing:
      its four parts joined by newlines give the answer back. */
  lemma EvenSplitRoundTrip(text: string)
    requires |SplitOn(text, "\n")| >= 4
    ensures var q := EvenSplit(text);
            q.maintainability + "\n" + q.usability + "\n" + q.accessibility + "\n" + q.consistency == text
    ensures var n := |SplitOn(text, "\n")| / 4;
            var q := EvenSplit(text);
            |SplitOn(q.maintainability, "\n")| == n && |SplitOn(q.usability, "\n")| == n
            && |SplitOn(q.accessibility, "\n")| == n
            && |SplitOn(q.consistency, "\n")| == |SplitOn(text, "\n")| - 3 * n
  {
    var parts := SplitOn(text, "\n");
    var n := |parts| / 4;
    var p1, p2, p3, p4 := parts[..n], parts[n..2 * n], parts[2 * n..3 * n], parts[3 * n..];
    assert parts == p1 + p2 + p3 + p4;
    JoinSplitOn(text, "\n");
    JoinQuarters(p1, p2, p3, p4);
    EvenSplitSizes(text);
  }

  /** The sizes half of `EvenSplitRoundTrip`. */
  lemma EvenSplitSizes(text: string)
    requires |SplitOn(text, "\n")| >= 4
    ensures var n := |SplitOn(text, "\n")| / 4;
            var q := EvenSplit(text);
            |SplitOn(q.maintainability, "\n")| == n && |SplitOn(q.usability, "\n")| == n
            && |SplitOn(q.accessibility, "\n")| == n
            && |SplitOn(q.consistency, "\n")| == |SplitOn(text, "\n")| - 3 * n
  {
    var parts := SplitOn(text, "\n");
    var n := |parts| / 4;
    assert parts[..n] == parts[0..n];
    assert parts[3 * n..] == parts[3 * n..|parts|];
    QuarterLines(text, 0, n);
    QuarterLines(text, n, 2 * n);
    QuarterLines(text, 2 * n, 3 * n);
    QuarterLines(text, 3 * n, |parts|);
  }

  /** A non-empty run of lines joined by newlines splits back into that run. */
  lemma QuarterLines(text: string, lo: nat, hi: nat)
    requires lo < hi <= |SplitOn(text, "\n")|
    ensures |SplitOn(Join(SplitOn(text, "\n")[lo..hi], "\n"), "\n")| == hi - lo
  {
    var ps := SplitOn(text, "\n")[lo..hi];
    forall k | 0 <= k < |ps|
      ensures '\n' !in ps[k]
    {
      SplitOnCharFree(text, '\n', lo + k);
    }
    SplitJoinChar(ps, '\n');
  }

  lemma JoinQuarters(p1: seq<string>, p2: seq<string>, p3: seq<string>, p4: seq<string>)
    requires |p1| >= 1 && |p2| >= 1 && |p3| >= 1 && |p4| >= 1
    ensures Join(p1, "\n") + "\n" + Join(p2, "\n") + "\n" + Join(p3, "\n") + "\n" + Join(p4, "\n")
            == Join(p1 + p2 + p3 + p4, "\n")
  {
    JoinAppend(p1, p2, "\n");
    JoinAppend(p1 + p2, p3, "\n");
    JoinAppend(p1 + p2 + p3, p4, "\n");
  }

  /** With fewer than four lines the first three parts are empty and the
      last one is the whole answer. */
  lemma ShortTextAllInLast(text: string)
    requires |SplitOn(text, "\n")| < 4
    ensures EvenSplit(text) == Analysis("", "", "", text)
  {
    var parts := SplitOn(text, "\n");
    assert parts[0..] == parts;
    JoinSplitOn(text, "\n");
  }

  /** The header names `keyword` (upper case) in a non-blank section. */
  predicate HeaderNames(section: string, keyword: string) {
    Trim(section, Py) != [] && Contains(SectionHeader(section), keyword)
  }

  /** A header naming maintainability fills maintainability and nothing
      else, whatever other topics it also names. */
  lemma MaintainabilityHeaderWins(q: Analysis, section: string)
    requires HeaderNames(section, "MAINTAINABILITY")
    ensures ApplyHeaderSection(q, section) == q.(maintainability := SectionBody(section))
  {
  }

  /** The same priority holds in the paragraph pass. */
  lemma MaintainabilityParagraphWins(q: Analysis, paragraph: string)
    requires Contains(Lower(paragraph), "maintainability")
    ensures ApplyParagraph(q, paragraph) == q.(maintainability := Trim(paragraph, Py))
  {
  }

  /** Without a header naming maintainability, the header pass leaves the
      maintainability value as it was. */
  lemma {:induction false} HeaderPassKeepsMaintainability(q: Analysis, sections: seq<string>)
    requires forall k | 0 <= k < |sections| :: !HeaderNames(sections[k], "MAINTAINABILITY")
    ensures HeaderPass(q, sections).maintainability == q.maintainability
    decreases |sections|
  {
    if sections != [] {
      var s' := sections[..|sections| - 1];
      assert forall k | 0 <= k < |s'| :: s'[k] == sections[k];
      HeaderPassKeepsMaintainability(q, s');
    }
  }

  /** Without a paragraph mentioning maintainability, the paragraph pass
      leaves the maintainability value as it was. */
  lemma {:induction false} ParagraphPassKeepsMaintainability(q: Analysis, paragraphs: seq<string>)
    requires forall k | 0 <= k < |paragraphs| :: !Contains(Lower(paragraphs[k]), "maintainability")
    ensures ParagraphPass(q, paragraphs).maintainability == q.maintainability
    decreases |paragraphs|
  {
    if paragraphs != [] {
      var p' := paragraphs[..|paragraphs| - 1];
      assert forall k | 0 <= k < |p'| :: p'[k] == paragraphs[k];
      ParagraphPassKeepsMaintainability(q, p');
    }
  }

  /** With no `## ` header naming maintainability the paragraph pass is
      run, on top of what the header pass found. */
  lemma ParagraphFallbackTaken(text: string)
    requires forall k | 0 <= k < |SplitOn(text, "## ")| :: !HeaderNames(SplitOn(text, "## ")[k], "MAINTAINABILITY")
    ensures var q2 := ParagraphPass(HeaderPass(Initial(), SplitOn(text, "## ")), SplitOn(text, "\n\n"));
            Sections(text) == if q2.maintainability != NotAvailable then q2 else EvenSplit(text)
  {
    HeaderPassKeepsMaintainability(Initial(), SplitOn(text, "## "));
  }

  /** With maintainability named neither in a header nor in a paragraph, the
      answer is split evenly by lines. */
  lemma EvenSplitFallbackTaken(text: string)
    requires forall k | 0 <= k < |SplitOn(text, "## ")| :: !HeaderNames(SplitOn(text, "## ")[k], "MAINTAINABILITY")
    requires forall k | 0 <= k < |SplitOn(text, "\n\n")| :: !Contains(Lower(SplitOn(text, "\n\n")[k]), "maintainability")
    ensures Sections(text) == EvenSplit(text)
  {
    var q1 := HeaderPass(Initial(), SplitOn(text, "## "));
    HeaderPassKeepsMaintainability(Initial(), SplitOn(text, "## "));
    ParagraphPassKeepsMaintainability(q1, SplitOn(text, "\n\n"));
  }

  /** The header pass is a left fold: passing over `a + b` is passing over
      `a`, then over `b`. */
  lemma {:induction false} HeaderPassAppend(q: Analysis, a: seq<string>, b: seq<string>)
    ensures HeaderPass(q, a + b) == HeaderPass(HeaderPass(q, a), b)
    decreases |b|
  {
    if b == [] {
      assert a + b == a;
    } else {
      var b' := b[..|b| - 1];
      assert (a + b)[..|a + b| - 1] == a + b';
      assert (a + b)[|a + b| - 1] == b[|b| - 1];
      HeaderPassAppend(q, a, b');
    }
  }

  /** Sections whose header names none of the four topics change nothing. */
  lemma {:induction false} UnrelatedSectionsIgnored(q: Analysis, sections: seq<string>)
    requires forall k | 0 <= k < |sections| :: ApplyHeaderSection(q, sections[k]) == q
    ensures HeaderPass(q, sections) == q
    decreases |sections|
  {
    if sections != [] {
      var s' := sections[..|sections| - 1];
      assert forall k | 0 <= k < |s'| :: s'[k] == sections[k];
      UnrelatedSectionsIgnored(q, s');
    }
  }
}

=== FILE: feature_config.dfy ===
/** The feature table of the front end (src/utils/featureConfig.ts): one
    entry per tool, keyed by the tool's id, a lookup that falls back to
    the search tool, and the list the navigation shows. Icons are left
    out. */
module FeatureConfig {
  import opened Text

  /** An entry; `name` is the entry's `label`. */
  datatype Config = Config(id: string, name: string, title: string, description: string)

  /** The keys of `featureConfigs`, in the order they are written. */
  const Keys: seq<string> := ["search", "video", "code", "impact", "test", "image"]

  /** The entries of `featureConfigs`, in the order of `Keys`. */
  const Configs: seq<Config> := [
    Config("search", "AI Powered Search", "AI Powered Search", "Smart search across Confluence pages and files"),
    Config("video", "Video Summarizer", "Video Summarizer", "AI-powered video summarization and analysis"),
    Config("code", "Code Assistant", "Code Assistant", "AI-powered code modification and conversion"),
    Config("impact", "Impact Analyzer", "Impact Analyzer", "Analyze documentation and code changes and risks"),
    Config("test", "Test Support Tool", "Test Support Tool",
           "AI-powered test strategy and workflow generation with analysis"),
    Config("image", "Chart Builder", "Chart Builder", "AI-powered chart and visualization builder")
  ]

  /** The `features` list: id and label of each tool. */
  const Features: seq<(string, string)> := [
    ("search", "AI Powered Search"),
    ("video", "Video Summarizer"),
    ("code", "Code Assistant"),
    ("impact", "Impact Analyzer"),
    ("test", "Test Support Tool"),
    ("image", "Chart Builder")
  ]

  /** The position of `key` among `keys`, or `None`. */
  function IndexOf(keys: seq<string>, key: string): (r: Option<nat>)
    ensures r.None? <==> key !in keys
    ensures r.Some? ==> r.value < |keys| && keys[r.value] == key
    ensures r.Some? ==> forall j | 0 <= j < r.value :: keys[j] != key
  {
    if keys == [] then None
    else if keys[0] == key then Some(0)
    else
      var t := IndexOf(keys[1..], key);
      if t.None? then None else Some(t.value + 1)
  }

  /** `getFeatureConfig`: the entry of a known id, and the search entry for
      any other id or for none. */
  function GetFeatureConfig(featureId: Option<string>): (c: Config)
    ensures featureId.Some? && featureId.value in Keys ==> c.id == featureId.value
    ensures featureId.None? || featureId.value !in Keys ==> c == Configs[0]
  {
    TableWellFormed();
    if featureId.None? then Configs[0]
    else
      var i := IndexOf(Keys, featureId.value);
      if i.None? then Configs[0] else Configs[i.value]
  }

  /** Every entry's id is its own key and its title is its label. */
  lemma TableWellFormed()
    ensures |Configs| == |Keys| == |Features| == 6
    ensures forall i | 0 <= i < |Configs| :: Configs[i].id == Keys[i] && Configs[i].title == Configs[i].name
  {
    assert Configs[0].id == Keys[0] && Configs[1].id == Keys[1] && Configs[2].id == Keys[2];
    assert Configs[3].id == Keys[3] && Configs[4].id == Keys[4] && Configs[5].id == Keys[5];
  }

  /** No key is written twice, so each entry is found by its own key. */
  lemma KeysDistinct()
    ensures forall i, j | 0 <= i < j < |Keys| :: Keys[i] != Keys[j]
  {
    assert Keys[0][0] == 's' && Keys[1][0] == 'v' && Keys[2][0] == 'c';
    assert Keys[3][0] == 'i' && Keys[4][0] == 't' && Keys[5][0] == 'i';
    assert Keys[3][1] != Keys[5][1] || Keys[3][2] != Keys[5][2];
  }

  /** Each of the six ids gets its own entry. */
  lemma KnownIdsFound(i: nat)
    requires i < |Keys|
    ensures GetFeatureConfig(Some(Keys[i])) == Configs[i]
  {
    KeysDistinct();
    var r := IndexOf(Keys, Keys[i]);
    assert r.Some?;
    assert r.value == i;
  }

  /** The navigation lists the same tools, with the same labels, in the
      order of the table. */
  lemma FeaturesMatchTable()
    ensures |Features| == |Configs|
    ensures forall i | 0 <= i < |Features| :: Features[i] == (Configs[i].id, Configs[i].name)
  {
    assert Features[0] == (Configs[0].id, Configs[0].name);
    assert Features[1] == (Configs[1].id, Configs[1].name);
    assert Features[2] == (Configs[2].id, Configs[2].name);
    assert Features[3] == (Configs[3].id, Configs[3].name);
    assert Features[4] == (Configs[4].id, Configs[4].name);
    assert Features[5] == (Configs[5].id, Configs[5].name);
  }
}

=== FILE: impact_report.dfy ===
/** The two impact-analysis endpoints of backend/main.py, `/impact-analyzer`
    (two wiki pages) and `/direct-code-impact-analyzer` (two pasted code
    texts), modelled once as a function of the two texts.

    The language model is an oracle from prompts to answers that may fail
    (`None`); the Stack Exchange search the scanner calls is an oracle too
    (see RiskScanner). The edit script difflib would pick is an input, constrained to turn the old
    lines into the new ones. Fetching the pages and extracting their text
    are not part of this model: the extracted texts are the inputs. */
module ImpactReport {
  import opened Text
  import DiffMetrics
  import Narrative
  import RiskScanner

  /** Which endpoint: pages of a space, or code pasted directly. */
  datatype Variant = Pages | DirectCode

  /** The requests sent to the model; each carries what the endpoint
      interpolates into it (the sanitised diff, or the follow-up context).
      Their fixed wording is not modelled. */
  datatype Prompt =
    | ImpactPrompt(variant: Variant, diff: string)
    | RecommendationsPrompt(variant: Variant, diff: string)
    | RiskPrompt(variant: Variant, diff: string)
    | RiskFactorsPrompt(variant: Variant, diff: string)
    | QuestionPrompt(variant: Variant, question: string, context: string)

  /** An empty `question` stands for a request without one. */
  datatype Request = Request(variant: Variant, oldTitle: string, newTitle: string,
                             oldContent: string, newContent: string,
                             question: string, scanStackOverflow: bool)

  datatype Error = MissingContent | ModelFailed

  datatype Report = Report(metrics: DiffMetrics.Metrics, filesChanged: nat,
                           impact: string, recommendations: string, riskAnalysis: string,
                           level: DiffMetrics.RiskLevel, score: int,
                           factors: seq<string>, answer: Option<string>,
                           diff: string, citations: seq<RiskScanner.Finding>)

  datatype Outcome = Failed(error: Error) | Done(report: Report)

  // -------------------------------------------------------------- the diff

  /** The file names written into the diff header. */
  function FromFile(req: Request): string {
    if req.variant == Pages then req.oldTitle else "original_code"
  }

  function ToFile(req: Request): string {
    if req.variant == Pages then req.newTitle else "modified_code"
  }

  /** `'\n'.join(difflib.unified_diff(old_lines, new_lines, ...))` */
  function DiffText(req: Request, script: seq<DiffMetrics.Edit>): string {
    Join(DiffMetrics.UnifiedDiff(FromFile(req), ToFile(req), script), "\n")
  }

  /** The diff as interpolated into every prompt. */
  function SafeDiff(req: Request, script: seq<DiffMetrics.Edit>): string {
    Narrative.SanitisePrompt(DiffText(req, script))
  }

  /** The metrics are counted on `full_diff_text.splitlines()`. */
  function MetricsOf(req: Request, script: seq<DiffMetrics.Edit>): (m: DiffMetrics.Metrics)
    ensures m.totalLines >= 1 && m.totalLines >= |SplitLines(req.oldContent)|
    ensures m.linesAdded <= |SplitLines(DiffText(req, script))| && m.linesRemoved <= |SplitLines(DiffText(req, script))|
    ensures m.linesAdded + m.linesRemoved == 0 ==> m.percentHundredths == 0
  {
    DiffMetrics.ComputeMetrics(SplitLines(req.oldContent), SplitLines(DiffText(req, script)))
  }

  predicate NoLineBreak(s: string) {
    forall j | 0 <= j < |s| :: !IsLineBreak(s[j])
  }

  /** Joining lines without breaks with `\n` and splitting the result at line
      boundaries gives the lines back. */
  lemma {:induction false} SplitLinesJoin(lines: seq<string>)
    requires forall k | 0 <= k < |lines| :: lines[k] != [] && NoLineBreak(lines[k])
    ensures SplitLines(Join(lines, "\n")) == lines
  {
    if |lines| == 1 {
      LineLengthOfPlain(lines[0], "");
    } else if |lines| > 1 {
      var rest := lines[1..];
      JoinCons(lines[0], rest, "\n");
      SplitLinesCons(lines[0], Join(rest, "\n"));
      SplitLinesJoin(rest);
      assert lines == [lines[0]] + rest;
    }
  }

  /** A break-free line followed by `\n` is split off whole. */
  lemma SplitLinesCons(l: string, rest: string)
    requires NoLineBreak(l)
    ensures SplitLines(l + "\n" + rest) == [l] + SplitLines(rest)
  {
    var s := l + "\n" + rest;
    LineLengthOfPlain(l, "\n" + rest);
    assert s == l + ("\n" + rest);
    assert s[|l|] == '\n';
    assert s[|l| + 1..] == rest;
    assert s[..|l|] == l;
  }

  lemma LineLengthOfPlain(l: string, t: string)
    requires NoLineBreak(l)
    requires t == [] || IsLineBreak(t[0])
    ensures LineLength(l + t) == |l|
  {
    var s := l + t;
    assert forall k | 0 <= k < |l| :: s[k] == l[k];
    if t != [] {
      assert s[|l|] == t[0];
    }
  }

  /** Every line an edit script mentions is a line of one of the two texts. */
  lemma {:induction false} ScriptLinesFromSides(script: seq<DiffMetrics.Edit>, k: nat)
    requires k < |script|
    ensures script[k].line in DiffMetrics.OldSide(script) || script[k].line in DiffMetrics.NewSide(script)
  {
    if k > 0 {
      ScriptLinesFromSides(script[1..], k - 1);
      assert script[1..][k - 1] == script[k];
    }
  }

  lemma MarkedLinePlain(c: char, l: string)
    requires !IsLineBreak(c) && NoLineBreak(l)
    ensures [c] + l != [] && NoLineBreak([c] + l)
  {
    var s := [c] + l;
    forall j | 0 <= j < |s|
      ensures !IsLineBreak(s[j])
    {
      if j > 0 {
        assert s[j] == l[j - 1];
      }
    }
  }

  /** With break-free file names, the lines of the rendered diff are
      non-empty and break-free. */
  lemma DiffLinesPlain(req: Request, script: seq<DiffMetrics.Edit>)
    requires DiffMetrics.ScriptBetween(script, SplitLines(req.oldContent), SplitLines(req.newContent))
    requires NoLineBreak(FromFile(req)) && NoLineBreak(ToFile(req))
    ensures forall k | 0 <= k < |DiffMetrics.UnifiedDiff(FromFile(req), ToFile(req), script)| ::
              DiffMetrics.UnifiedDiff(FromFile(req), ToFile(req), script)[k] != []
              && NoLineBreak(DiffMetrics.UnifiedDiff(FromFile(req), ToFile(req), script)[k])
  {
    var d := DiffMetrics.UnifiedDiff(FromFile(req), ToFile(req), script);
    if DiffMetrics.HasChange(script) {
      var body := DiffMetrics.RenderBody(script);
      assert d == ["--- " + FromFile(req), "+++ " + ToFile(req)] + body;
      forall k | 0 <= k < |d|
        ensures d[k] != [] && NoLineBreak(d[k])
      {
        if k == 0 {
          assert "--- " + FromFile(req) == ['-'] + ("-- " + FromFile(req));
          MarkedLinePlain('-', "-- " + FromFile(req));
        } else if k == 1 {
          assert "+++ " + ToFile(req) == ['+'] + ("++ " + ToFile(req));
          MarkedLinePlain('+', "++ " + ToFile(req));
        } else {
          RenderedLinePlain(req, script, k - 2);
        }
      }
    }
  }

  lemma RenderedLinePlain(req: Request, script: seq<DiffMetrics.Edit>, k: nat)
    requires DiffMetrics.ScriptBetween(script, SplitLines(req.oldContent), SplitLines(req.newContent))
    requires k < |script|
    ensures DiffMetrics.RenderBody(script)[k] != [] && NoLineBreak(DiffMetrics.RenderBody(script)[k])
  {
    ScriptLinesFromSides(script, k);
    RenderBodyAt(script, k);
    var e := script[k];
    assert NoLineBreak(e.line);
    match e
    case Keep(l) => assert " " + l == [' '] + l; MarkedLinePlain(' ', l);
    case Add(l) => assert "+" + l == ['+'] + l; MarkedLinePlain('+', l);
    case Remove(l) => assert "-" + l == ['-'] + l; MarkedLinePlain('-', l);
  }

  lemma {:induction false} RenderBodyAt(script: seq<DiffMetrics.Edit>, k: nat)
    requires k < |script|
    ensures DiffMetrics.RenderBody(script)[k] == DiffMetrics.RenderEdit(script[k])
  {
    if k > 0 {
      RenderBodyAt(script[1..], k - 1);
    }
  }

  /** The endpoint's counts are the script's added and removed lines, except
      those whose own text begins with `++` or `--`, as long as the file names
      hold no line break (always so for pasted code). */
  lemma MetricsCountScript(req: Request, script: seq<DiffMetrics.Edit>)
    requires DiffMetrics.ScriptBetween(script, SplitLines(req.oldContent), SplitLines(req.newContent))
    requires NoLineBreak(FromFile(req)) && NoLineBreak(ToFile(req))
    ensures MetricsOf(req, script).linesAdded == DiffMetrics.VisibleAddSteps(script)
    ensures MetricsOf(req, script).linesRemoved == DiffMetrics.VisibleRemoveSteps(script)
    ensures MetricsOf(req, script).totalLines == DiffMetrics.TotalLines(SplitLines(req.oldContent))
  {
    DiffLinesPlain(req, script);
    SplitLinesJoin(DiffMetrics.UnifiedDiff(FromFile(req), ToFile(req), script));
    DiffMetrics.CountsOfUnifiedDiff(FromFile(req), ToFile(req), script);
  }

  lemma DirectCodeNamesPlain(req: Request)
    requires req.variant == DirectCode
    ensures NoLineBreak(FromFile(req)) && NoLineBreak(ToFile(req))
  {
  }

  // ------------------------------------------------------------ the report

  function Factors(variant: Variant, narrative: string): (fs: seq<string>)
    ensures |fs| <= |SplitOn(Trim(narrative, Py), "\n")|
    ensures variant == Pages ==> forall f | f in fs :: Narrative.CleanFactor(f)
    ensures variant == DirectCode ==>
              forall j | 0 <= j < |fs| :: Narrative.DashLineFor(SplitOn(Trim(narrative, Py), "\n"), fs[j])
  {
    match variant
    case Pages => Narrative.ExtractRiskFactors(narrative)
    case DirectCode => Narrative.ExtractDashFactors(narrative)
  }

  /** The follow-up answer: `None` is a failed model call; without a question
      the page endpoint answers `null` and the code endpoint `""`. */
  function AnswerOf(req: Request, safeDiff: string, context: string,
                    gemini: Prompt -> Option<string>): (a: Option<Option<string>>)
    ensures req.question == [] ==> a == Some(if req.variant == Pages then None else Some(""))
    ensures req.question != [] ==>
              var reply := gemini(QuestionPrompt(req.variant, req.question,
                                                 if req.variant == Pages then context else safeDiff));
              (a.None? <==> reply.None?) && (reply.Some? ==> a == Some(Some(Trim(reply.value, Py))))
  {
    if req.question == [] then
      Some(if req.variant == Pages then None else Some(""))
    else
      var ctx := if req.variant == Pages then context else safeDiff;
      match gemini(QuestionPrompt(req.variant, req.question, ctx))
      case None => None
      case Some(text) => Some(Some(Trim(text, Py)))
  }

  /** The scan runs on `f"{old_content}\n{new_content}"` when enabled. */
  function ScanContent(req: Request): string {
    req.oldContent + "\n" + req.newContent
  }

  /** The reported citations: when the check is enabled, the scanner's
      findings on `ScanContent(req)` over its twelve rules, with `so`
      answering its searches and `advice` the texts reported per rule. */
  function CitationsOf(req: Request, so: string -> RiskScanner.ApiResponse,
                       advice: seq<RiskScanner.Advice>): (cs: seq<RiskScanner.Finding>)
    ensures !req.scanStackOverflow ==> cs == []
    ensures |cs| <= 12
  {
    if req.scanStackOverflow
    then RiskScanner.Findings(RiskScanner.RiskRules(), advice, ScanContent(req), so)
    else []
  }

  /** The four narrative sections of the report, from the model's answers
      to the four prompts on the sanitised diff: each answer is stripped, the
      risk answer gets its severity markers and the factor answer is split
      into factors. */
  datatype Sections = Sections(impact: string, recommendations: string, riskAnalysis: string,
                               factors: seq<string>)

  function SectionsOf(variant: Variant, safeDiff: string, gemini: Prompt -> Option<string>): (r: Option<Sections>)
    ensures r.None? <==> gemini(ImpactPrompt(variant, safeDiff)).None?
                         || gemini(RecommendationsPrompt(variant, safeDiff)).None?
                         || gemini(RiskPrompt(variant, safeDiff)).None?
                         || gemini(RiskFactorsPrompt(variant, safeDiff)).None?
    ensures r.Some? ==> r.value.impact == Trim(gemini(ImpactPrompt(variant, safeDiff)).value, Py)
    ensures r.Some? ==> r.value.recommendations
                        == Trim(gemini(RecommendationsPrompt(variant, safeDiff)).value, Py)
    ensures r.Some? ==> r.value.riskAnalysis
                        == Narrative.TagRiskNarrative(Trim(gemini(RiskPrompt(variant, safeDiff)).value, Py))
    ensures r.Some? ==> Narrative.UntagSeverity(r.value.riskAnalysis)
                        == Trim(gemini(RiskPrompt(variant, safeDiff)).value, Py)
    ensures r.Some? ==> r.value.factors == Factors(variant, gemini(RiskFactorsPrompt(variant, safeDiff)).value)
  {
    var impact := gemini(ImpactPrompt(variant, safeDiff));
    var recs := gemini(RecommendationsPrompt(variant, safeDiff));
    var risk := gemini(RiskPrompt(variant, safeDiff));
    var factors := gemini(RiskFactorsPrompt(variant, safeDiff));
    if impact.None? || recs.None? || risk.None? || factors.None? then None
    else
      Some(Sections(Trim(impact.value, Py), Trim(recs.value, Py),
                    Narrative.TagRiskNarrative(Trim(risk.value, Py)),
                    Factors(variant, factors.value)))
  }

  function ContextOf(sec: Sections, m: DiffMetrics.Metrics): (ctx: string)
    ensures StartsWith(ctx, "Summary: " + Take(sec.impact, Narrative.SectionBudget) + "\n")
    ensures ctx[|ctx| - 1] == '%'
  {
    Narrative.QaContext(sec.impact, sec.recommendations, sec.riskAnalysis,
                        m.linesAdded, m.linesRemoved, m.percentHundredths)
  }

  /** The endpoint's response, or the error it raises; `advice` is the
      scanner's advice table (see `Endpoint`). */
  function ReportOf(req: Request, script: seq<DiffMetrics.Edit>,
                    gemini: Prompt -> Option<string>, so: string -> RiskScanner.ApiResponse,
    advice: seq<RiskScanner.Advice>): (o: Outcome)
    ensures o == Failed(MissingContent) <==> req.oldContent == [] || req.newContent == []
    ensures req.oldContent != [] && req.newContent != [] ==>
              var safe := SafeDiff(req, script);
              var sec := SectionsOf(req.variant, safe, gemini);
              (o.Done? <==> sec.Some? && AnswerOf(req, safe, ContextOf(sec.value, MetricsOf(req, script)), gemini).Some?)
    ensures o.Done? ==>
              var safe := SafeDiff(req, script);
              var sec := SectionsOf(req.variant, safe, gemini);
              sec.Some? && o.report.impact == sec.value.impact
              && o.report.recommendations == sec.value.recommendations
              && o.report.riskAnalysis == sec.value.riskAnalysis
              && o.report.factors == sec.value.factors
              && Some(o.report.answer) == AnswerOf(req, safe, ContextOf(sec.value, MetricsOf(req, script)), gemini)
    ensures o.Done? ==> o.report.diff == DiffText(req, script) && o.report.filesChanged == 1
    ensures o.Done? ==> o.report.level == DiffMetrics.LevelFromPercent(o.report.metrics.percentHundredths)
    ensures o.Done? ==> o.report.score == DiffMetrics.ScoreFromPercent(o.report.metrics.percentHundredths)
    ensures o.Done? ==> 1 <= o.report.score <= 10 && o.report.metrics.totalLines >= 1
    ensures o.Done? ==> o.report.metrics == MetricsOf(req, script)
    ensures o.Done? && req.scanStackOverflow ==>
              o.report.citations
              == RiskScanner.Findings(RiskScanner.RiskRules(), advice, req.oldContent + "\n" + req.newContent, so)
    ensures o.Done? && !req.scanStackOverflow ==> o.report.citations == []
    ensures o.Done? ==> gemini(RiskPrompt(req.variant, SafeDiff(req, script))).Some?
    ensures o.Done? ==> Narrative.UntagSeverity(o.report.riskAnalysis)
                        == Trim(gemini(RiskPrompt(req.variant, SafeDiff(req, script))).value, Py)
    ensures o.Done? && req.variant == Pages && req.question == [] ==> o.report.answer == None
  {
    if req.oldContent == [] || req.newContent == [] then Failed(MissingContent)
    else
      var m := MetricsOf(req, script);
      var safe := SafeDiff(req, script);
      match SectionsOf(req.variant, safe, gemini)
      case None => Failed(ModelFailed)
      case Some(sec) =>
        match AnswerOf(req, safe, ContextOf(sec, m), gemini)
        case None => Failed(ModelFailed)
        case Some(answer) => Done(Assemble(req, script, sec, answer, CitationsOf(req, so, advice)))
  }

  /** The report put together from its parts: one file, the metrics of the
      diff and the risk level and score they give. */
  function Assemble(req: Request, script: seq<DiffMetrics.Edit>, sec: Sections, answer: Option<string>,
                    citations: seq<RiskScanner.Finding>): (r: Report)
    ensures r.metrics == MetricsOf(req, script) && r.metrics.totalLines >= 1
    ensures r.filesChanged == 1 && r.diff == DiffText(req, script) && r.citations == citations
    ensures r.impact == sec.impact && r.recommendations == sec.recommendations
            && r.riskAnalysis == sec.riskAnalysis && r.factors == sec.factors && r.answer == answer
    ensures r.level == DiffMetrics.LevelFromPercent(r.metrics.percentHundredths)
    ensures r.score == DiffMetrics.ScoreFromPercent(r.metrics.percentHundredths) && 1 <= r.score <= 10
  {
    var m := MetricsOf(req, script);
    Report(m, 1, sec.impact, sec.recommendations, sec.riskAnalysis,
           DiffMetrics.LevelFromPercent(m.percentHundredths),
           DiffMetrics.ScoreFromPercent(m.percentHundredths),
           sec.factors, answer, DiffText(req, script), citations)
  }

  /** Both endpoints as deployed: the report with the scanner's own advice
      table. */
  function Endpoint(req: Request, script: seq<DiffMetrics.Edit>,
                    gemini: Prompt -> Option<string>, so: string -> RiskScanner.ApiResponse): Outcome {
    ReportOf(req, script, gemini, so, RiskScanner.RuleAdvice())
  }

  // ------------------------------------------------------------ properties

  /** When both texts are present and every model call answers, a report is
      produced, and its sections are the stripped answers, the tagged risk
      narrative and the extracted factors. */
  lemma AnsweredCallsGiveReport(req: Request, script: seq<DiffMetrics.Edit>,
                                gemini: Prompt -> Option<string>, so: string -> RiskScanner.ApiResponse,
    advice: seq<RiskScanner.Advice>)
    requires req.oldContent != [] && req.newContent != []
    requires forall p :: gemini(p).Some?
    ensures var o := ReportOf(req, script, gemini, so, advice);
            var safe := SafeDiff(req, script);
            o.Done?
            && o.report.impact == Trim(gemini(ImpactPrompt(req.variant, safe)).value, Py)
            && o.report.recommendations == Trim(gemini(RecommendationsPrompt(req.variant, safe)).value, Py)
            && o.report.riskAnalysis
               == Narrative.TagRiskNarrative(Trim(gemini(RiskPrompt(req.variant, safe)).value, Py))
            && o.report.factors == Factors(req.variant, gemini(RiskFactorsPrompt(req.variant, safe)).value)
  {
    var safe := SafeDiff(req, script);
    var sec := SectionsOf(req.variant, safe, gemini);
    assert gemini(ImpactPrompt(req.variant, safe)).Some?;
    assert gemini(RecommendationsPrompt(req.variant, safe)).Some?;
    assert gemini(RiskPrompt(req.variant, safe)).Some?;
    assert gemini(RiskFactorsPrompt(req.variant, safe)).Some?;
    assert sec.Some?;
    var ctx := ContextOf(sec.value, MetricsOf(req, script));
    var ctxUsed := if req.variant == Pages then ctx else safe;
    assert gemini(QuestionPrompt(req.variant, req.question, ctxUsed)).Some?;
  }

  /** Any failed model call fails the whole request. */
  lemma ModelFailureFailsRequest(req: Request, script: seq<DiffMetrics.Edit>,
                                 gemini: Prompt -> Option<string>, so: string -> RiskScanner.ApiResponse,
    advice: seq<RiskScanner.Advice>)
    requires req.oldContent != [] && req.newContent != []
    requires gemini(RiskPrompt(req.variant, SafeDiff(req, script))).None?
    ensures ReportOf(req, script, gemini, so, advice) == Failed(ModelFailed)
  {
  }

  /** Comparing a text with itself reports no change, the lowest level and
      score, and an empty diff. */
  lemma IdenticalTextsReportNoChange(req: Request, gemini: Prompt -> Option<string>, so: string -> RiskScanner.ApiResponse,
    advice: seq<RiskScanner.Advice>)
    requires req.oldContent == req.newContent
    requires ReportOf(req, DiffMetrics.KeepAll(SplitLines(req.oldContent)), gemini, so, advice).Done?
    ensures var r := ReportOf(req, DiffMetrics.KeepAll(SplitLines(req.oldContent)), gemini, so, advice).report;
            r.metrics.linesAdded == 0 && r.metrics.linesRemoved == 0 && r.metrics.percentHundredths == 0
            && r.level == DiffMetrics.Low && r.score == 1 && r.diff == ""
  {
    var lines := SplitLines(req.oldContent);
    DiffMetrics.IdenticalTextsNoChange(lines, FromFile(req), ToFile(req));
  }

  /** With the scan switched off no citation is reported. */
  lemma ScanDisabledNoCitations(req: Request, script: seq<DiffMetrics.Edit>,
                                gemini: Prompt -> Option<string>, so: string -> RiskScanner.ApiResponse,
    advice: seq<RiskScanner.Advice>)
    requires !req.scanStackOverflow
    requires ReportOf(req, script, gemini, so, advice).Done?
    ensures ReportOf(req, script, gemini, so, advice).report.citations == []
  {
  }

  /** With the search failing every time, each citation of the report
      carries the two placeholder links. */
  lemma FailedSearchCitationsHaveTwoLinks(req: Request, script: seq<DiffMetrics.Edit>,
                                          gemini: Prompt -> Option<string>,
                                          so: string -> RiskScanner.ApiResponse,
                                          advice: seq<RiskScanner.Advice>, j: nat)
    requires forall q :: so(q) == RiskScanner.ApiFailed
    requires ReportOf(req, script, gemini, so, advice).Done?
    requires j < |ReportOf(req, script, gemini, so, advice).report.citations|
    ensures |ReportOf(req, script, gemini, so, advice).report.citations[j].links| == 2
  {
    RiskScanner.FailedSearchGivesTwoLinks(RiskScanner.RiskRules(), advice, ScanContent(req), so, j);
  }

  /** A `for (var` loop anywhere in either text is cited at least twice when
      the scan is on, whatever the search answers. */
  lemma ForVarCitedTwiceInReport(req: Request, script: seq<DiffMetrics.Edit>,
                                 gemini: Prompt -> Option<string>, so: string -> RiskScanner.ApiResponse,
    advice: seq<RiskScanner.Advice>)
    requires req.scanStackOverflow
    requires RiskScanner.Detects(RiskScanner.ForVar, Lower(ScanContent(req)))
    requires ReportOf(req, script, gemini, so, advice).Done?
    ensures |ReportOf(req, script, gemini, so, advice).report.citations| >= 2
  {
    RiskScanner.ForVarCitedTwice(advice, ScanContent(req), so);
  }

  /** The citations do not depend on letter case: two requests whose
      scanned texts agree up to case get the same citations. */
  lemma CitationsIgnoreCase(r1: Request, r2: Request, so: string -> RiskScanner.ApiResponse,
    advice: seq<RiskScanner.Advice>)
    requires r1.scanStackOverflow == r2.scanStackOverflow
    requires Lower(ScanContent(r1)) == Lower(ScanContent(r2))
    ensures CitationsOf(r1, so, advice) == CitationsOf(r2, so, advice)
  {
    RiskScanner.ScanIgnoresCase(RiskScanner.RiskRules(), advice, ScanContent(r1), ScanContent(r2), so);
  }

  /** For pasted code the counts are the visible added and removed lines of
      the edit script, each bounded by the size of the corresponding text. */
  lemma DirectCodeCounts(req: Request, script: seq<DiffMetrics.Edit>,
                         gemini: Prompt -> Option<string>, so: string -> RiskScanner.ApiResponse,
    advice: seq<RiskScanner.Advice>)
    requires req.variant == DirectCode
    requires DiffMetrics.ScriptBetween(script, SplitLines(req.oldContent), SplitLines(req.newContent))
    requires ReportOf(req, script, gemini, so, advice).Done?
    ensures var m := ReportOf(req, script, gemini, so, advice).report.metrics;
            m.linesAdded == DiffMetrics.VisibleAddSteps(script) <= |SplitLines(req.newContent)|
            && m.linesRemoved == DiffMetrics.VisibleRemoveSteps(script) <= |SplitLines(req.oldContent)|
  {
    DirectCodeNamesPlain(req);
    MetricsCountScript(req, script);
    DiffMetrics.AddStepsBound(script);
  }

  /** The two endpoints extract risk factors differently from the same
      answer: a `* x` line is a factor of the page endpoint only. */
  lemma VariantsDisagreeOnStarBullets()
    ensures Factors(Pages, "* x") == ["x"]
    ensures Factors(DirectCode, "* x") == []
  {
    var n := "* x";
    assert n[0] == '*' && n[|n| - 1] == 'x' && '\n' !in n;
    PlainLineIsOneLine(n);
    Narrative.StarBulletKeptByBulletFactors();
    Narrative.StarBulletDroppedByDashFactors();
  }

  /** A line with no surrounding space and no line break is one trimmed
      line. */
  lemma PlainLineIsOneLine(n: string)
    requires n != [] && !IsSpace(Py, n[0]) && !IsSpace(Py, n[|n| - 1]) && '\n' !in n
    ensures SplitOn(Trim(n, Py), "\n") == [n]
  {
    TrimStartPastSpaces([], n, Py);
    assert [] + n == n;
    TrimEndPastSpaces(n, [], Py);
    assert n + [] == n;
    SplitOnCharAbsent(n, '\n');
  }
}

=== FILE: impact_view.dfy ===
/** The impact analyzer's view (src/components/ImpactAnalyzer.tsx): how the
    response of the impact endpoint is stored, and how the risk level shown
    is derived from the stored score rather than from the level the
    backend computed. */
module ImpactView {
  import opened Text
  import opened DiffMetrics

  /** `getRiskLevelFromScore` */
  function LevelFromScore(score: int): (l: RiskLevel)
    ensures l == Low <==> score <= 3
    ensures l == Medium <==> 3 < score <= 6
    ensures l == High <==> score > 6
  {
    if score <= 3 then Low else if score <= 6 then Medium else High
  }

  /** A higher score never shows a lower level. */
  lemma LevelFromScoreMonotone(s1: int, s2: int)
    requires s1 <= s2
    ensures Rank(LevelFromScore(s1)) <= Rank(LevelFromScore(s2))
  {
  }

  /** The fields of the impact response the view reads; `None` for a field
      that is missing. */
  datatype Response = Response(diff: Option<string>, linesAdded: Option<int>, linesRemoved: Option<int>,
                               filesChanged: Option<int>, percentage: Option<int>,
                               riskLevel: Option<RiskLevel>, riskScore: Option<int>)

  /** What `analyzeDiff` stores. */
  datatype Stored = Stored(diff: string, linesAdded: int, linesRemoved: int, filesChanged: int,
                           percentage: int, level: RiskLevel, score: int)

  /** `x || d` for a number: a missing field or a zero gives the default. */
  function OrNumber(x: Option<int>, d: int): (r: int)
    ensures x.Some? && x.value != 0 ==> r == x.value
    ensures x.None? || x.value == 0 ==> r == d
  {
    if x.Some? && x.value != 0 then x.value else d
  }

  /** `analyzeDiff`: each missing count is 0, a missing or zero file count
      is 1, a missing level is low and a missing score 0. */
  function StoredOf(r: Response): (s: Stored)
    ensures s.filesChanged != 0
    ensures r.riskScore.None? ==> s.score == 0
    ensures r.riskLevel.None? ==> s.level == Low
    ensures r.riskLevel.Some? ==> s.level == r.riskLevel.value
  {
    Stored(if r.diff.Some? then r.diff.value else "",
           OrNumber(r.linesAdded, 0), OrNumber(r.linesRemoved, 0), OrNumber(r.filesChanged, 1),
           OrNumber(r.percentage, 0),
           if r.riskLevel.Some? then r.riskLevel.value else Low,
           OrNumber(r.riskScore, 0))
  }

  /** The level shown in the risk assessment panel. */
  function Shown(s: Stored): RiskLevel {
    LevelFromScore(s.score)
  }

  /** A response without a score shows as low, whatever level it carries. */
  lemma MissingScoreShowsLow(r: Response)
    requires r.riskScore.None?
    ensures Shown(StoredOf(r)) == Low
  {
  }

  /** The stored level plays no part in what is shown. */
  lemma ShownIgnoresStoredLevel(r: Response, l: Option<RiskLevel>)
    ensures Shown(StoredOf(r)) == Shown(StoredOf(r.(riskLevel := l)))
  {
  }

  /** For a response computed by the backend from a change of `h`
      hundredths of a percent: the level shown is the one of its score. */
  function ShownForPercent(h: nat): RiskLevel {
    Shown(StoredOf(Response(None, None, None, None, None,
                            Some(LevelFromPercent(h)), Some(ScoreFromPercent(h)))))
  }

  /** The score of a change below 30% is at most 3. */
  lemma ScoreBelowThirty(h: nat)
    requires h < 3000
    ensures ScoreFromPercent(h) <= 3
  {
    var r := RoundHalfEven(h, 1000);
    assert 2 * (1000 * r) <= 2 * h + 1000;
  }

  /** Every change the backend rates medium is shown as low, and no change
      is shown above the level the backend gave it. */
  lemma MediumShownAsLow(h: nat)
    ensures LevelFromPercent(h) == Medium ==> ShownForPercent(h) == Low
    ensures LevelFromPercent(h) == Low ==> ShownForPercent(h) == Low
    ensures Rank(ShownForPercent(h)) <= Rank(LevelFromPercent(h))
  {
    if h < 3000 {
      ScoreBelowThirty(h);
    }
  }

  /** A 25% change: medium for the backend, score 2, shown as low. */
  lemma TwentyFivePercentDisagrees()
    ensures LevelFromPercent(2500) == Medium && ShownForPercent(2500) == Low
  {
    MediumShownAsLow(2500);
  }
}

=== FILE: narrative.dfy ===
/** Text post-processing around the generated narrative of the impact
    analyser (backend/main.py): the prompt sanitiser applied to the diff, the
    severity tagging of the risk narrative, the two risk-factor extractors and
    the condensed context of the follow-up question. */
module Narrative {
  import opened Text

  // ------------------------------------------------------ prompt sanitiser

  /** Every character of `s` occurs in `t` (membership only, not order). */
  predicate CharsFrom(s: string, t: string) {
    forall c | c in s :: c in t
  }

  /** Index of the first occurrence of `c` in `s`. */
  function IndexOf(s: string, c: char): (r: Option<nat>)
    ensures r.None? <==> c !in s
    ensures r.Some? ==> r.value < |s| && s[r.value] == c && c !in s[..r.value]
  {
    if s == [] then None
    else if s[0] == c then Some(0)
    else match IndexOf(s[1..], c)
      case None => None
      case Some(k) => assert s[..k + 1] == [s[0]] + s[1..][..k]; Some(k + 1)
  }

  /** No match of `<[^>]+>` in `s`: every `<` that has a `>` after it is
      immediately followed by `>`. */
  predicate NoTag(s: string) {
    forall i, j | 0 <= i < j < |s| && s[i] == '<' && s[j] == '>' :: s[i + 1] == '>'
  }

  /** `re.sub(r'<[^>]+>', '', s)`: from each `<`, scanning left to right, the
      text up to and including the first `>` after it is removed, provided at
      least one character lies between them. */
  function StripTags(s: string): (r: string)
    ensures |r| <= |s|
    ensures CharsFrom(r, s)
    decreases |s|
  {
    if s == [] then []
    else
      var rest := StripTags(s[1..]);
      if s[0] == '<' then
        match IndexOf(s[1..], '>')
        case Some(j) =>
          if j >= 1 then StripTags(s[j + 2..]) else [s[0]] + rest
        case None => [s[0]] + rest
      else [s[0]] + rest
  }

  lemma NoTagTail(s: string)
    requires s != [] && NoTag(s)
    ensures NoTag(s[1..])
  {
    forall i, j | 0 <= i < j < |s[1..]| && s[1..][i] == '<' && s[1..][j] == '>'
      ensures s[1..][i + 1] == '>'
    {
      assert s[i + 1] == '<' && s[j + 1] == '>';
    }
  }

  lemma NoTagCons(c: char, t: string)
    requires NoTag(t)
    requires c == '<' && '>' in t ==> t[0] == '>'
    ensures NoTag([c] + t)
  {
    var s := [c] + t;
    forall i, j | 0 <= i < j < |s| && s[i] == '<' && s[j] == '>'
      ensures s[i + 1] == '>'
    {
      if i == 0 {
        assert t[j - 1] == '>';
      } else {
        assert t[i - 1] == '<' && t[j - 1] == '>';
      }
    }
  }

  /** Nothing in the output of the tag stripper is a tag any more. */
  lemma {:induction false} StripTagsLeavesNoTag(s: string)
    ensures NoTag(StripTags(s))
    decreases |s|
  {
    if s != [] {
      StripTagsLeavesNoTag(s[1..]);
      var rest := StripTags(s[1..]);
      if s[0] == '<' {
        match IndexOf(s[1..], '>')
        case Some(j) =>
          if j >= 1 {
            StripTagsLeavesNoTag(s[j + 2..]);
          } else {
            assert s[1..] == ['>'] + s[2..];
            assert rest == ['>'] + StripTags(s[2..]);
            NoTagCons('<', rest);
          }
        case None =>
          NoTagCons('<', rest);
      } else {
        NoTagCons(s[0], rest);
      }
    }
  }

  /** Text without a tag passes through the stripper unchanged, so stripping
      is idempotent. */
  lemma {:induction false} StripTagsKeepsTagless(s: string)
    requires NoTag(s)
    ensures StripTags(s) == s
    decreases |s|
  {
    if s != [] {
      NoTagTail(s);
      StripTagsKeepsTagless(s[1..]);
      if s[0] == '<' {
        match IndexOf(s[1..], '>')
        case Some(j) =>
          assert s[1..][j] == '>' && s[j + 1] == '>';
          assert s[1] == '>';
          assert j == 0 by { assert s[1..][0] == '>'; }
        case None =>
      }
      assert s == [s[0]] + s[1..];
    }
  }

  lemma StripTagsIdempotent(s: string)
    ensures StripTags(StripTags(s)) == StripTags(s)
  {
    StripTagsLeavesNoTag(s);
    StripTagsKeepsTagless(StripTags(s));
  }

  lemma {:induction false} KeepUpToKeepsNoTag(s: string, max: int)
    requires NoTag(s) && max >= '>' as int
    ensures NoTag(KeepUpTo(s, max))
    decreases |s|
  {
    if s != [] {
      NoTagTail(s);
      KeepUpToKeepsNoTag(s[1..], max);
      var rest := KeepUpTo(s[1..], max);
      if s[0] as int <= max {
        assert KeepUpTo(s, max) == [s[0]] + rest;
        if s[0] == '<' && '>' in rest {
          var k :| 0 <= k < |rest| && rest[k] == '>';
          KeepUpToCharsFrom(s[1..], max, '>');
          var j :| 1 <= j < |s| && s[j] == '>';
          assert s[1] == '>';
          assert rest == [s[1]] + KeepUpTo(s[2..], max) by {
            assert s[1..][1..] == s[2..];
          }
        }
        NoTagCons(s[0], rest);
      }
    }
  }

  lemma {:induction false} KeepUpToCharsFrom(s: string, max: int, c: char)
    requires c in KeepUpTo(s, max)
    ensures exists j | 0 <= j < |s| :: s[j] == c
    decreases |s|
  {
    if s != [] {
      if c in KeepUpTo(s[1..], max) {
        KeepUpToCharsFrom(s[1..], max, c);
        var j :| 0 <= j < |s[1..]| && s[1..][j] == c;
        assert s[j + 1] == c;
      } else {
        assert s[0] == c;
      }
    }
  }

  lemma TakeKeepsNoTag(s: string, n: nat)
    requires NoTag(s)
    ensures NoTag(Take(s, n))
  {
    var t := Take(s, n);
    forall i, j | 0 <= i < j < |t| && t[i] == '<' && t[j] == '>'
      ensures t[i + 1] == '>'
    {
      assert s[i] == '<' && s[j] == '>';
    }
  }

  const MaxPromptChars := 10000

  /** `clean_and_truncate_prompt(text, max_chars=10000)`: tags removed, then
      every run of non-ASCII characters, then the text cut to 10000
      characters. The result is ASCII, within the limit and holds no tag. */
  function SanitisePrompt(text: string): (r: string)
    ensures |r| <= MaxPromptChars
    ensures forall k | 0 <= k < |r| :: IsAscii(r[k])
    ensures NoTag(r)
  {
    var untagged := StripTags(text);
    var ascii := KeepUpTo(untagged, 0x7F);
    StripTagsLeavesNoTag(text);
    KeepUpToKeepsNoTag(untagged, 0x7F);
    TakeKeepsNoTag(ascii, MaxPromptChars);
    Take(ascii, MaxPromptChars)
  }

  /** Short, tagless ASCII text is sent unchanged. */
  lemma SanitiseKeepsPlainText(text: string)
    requires NoTag(text) && |text| <= MaxPromptChars
    requires forall k | 0 <= k < |text| :: IsAscii(text[k])
    ensures SanitisePrompt(text) == text
  {
    StripTagsKeepsTagless(text);
  }

  // ------------------------------------------------------ severity tagging

  const GreenCircle: char := '\U{1F7E2}'
  const YellowCircle: char := '\U{1F7E1}'
  const RedCircle: char := '\U{1F534}'

  /** The emoji put in front of each severity word. */
  function Marker(w: string): (c: char)
    ensures !IsWordChar(c) && c != ' '
  {
    if w == "Low" then GreenCircle else if w == "Medium" then YellowCircle else RedCircle
  }

  /** `\b(Low|Medium|High)\b` at the start of `s` (given that the character
      before is not a word character): the word, when it is followed by the
      end of the text or a non-word character. */
  function SeverityWordAt(s: string): (w: Option<string>)
    ensures w.Some? ==> (w.value == "Low" || w.value == "Medium" || w.value == "High")
    ensures w.Some? ==> w.value <= s && (|s| == |w.value| || !IsWordChar(s[|w.value|]))
    ensures w.Some? ==> s != [] && IsWordChar(s[0])
  {
    if "Low" <= s && (|s| == 3 || !IsWordChar(s[3])) then Some("Low")
    else if "Medium" <= s && (|s| == 6 || !IsWordChar(s[6])) then Some("Medium")
    else if "High" <= s && (|s| == 4 || !IsWordChar(s[4])) then Some("High")
    else None
  }

  /** The `re.sub` over the risk narrative: every whole-word, case-sensitive
      `Low`, `Medium` or `High` gets its emoji and a space in front.
      `afterWord` says whether the preceding character is a word character. */
  function TagSeverity(s: string, afterWord: bool): (r: string)
    ensures |r| >= |s|
    decreases |s|
  {
    if s == [] then []
    else if !afterWord && SeverityWordAt(s).Some? then
      var w := SeverityWordAt(s).value;
      [Marker(w), ' '] + w + TagSeverity(s[|w|..], true)
    else [s[0]] + TagSeverity(s[1..], IsWordChar(s[0]))
  }

  /** A tagged severity word at the start of `t`. */
  function TaggedWordAt(t: string): (w: Option<string>)
    ensures w.Some? ==> |t| >= |w.value| + 2 && SeverityWordAt(t[2..]) == w
  {
    if |t| >= 2 && t[1] == ' ' && SeverityWordAt(t[2..]).Some? && t[0] == Marker(SeverityWordAt(t[2..]).value)
    then SeverityWordAt(t[2..])
    else None
  }

  /** Removes the emoji and space in front of every tagged severity word. */
  function UntagSeverity(t: string): (r: string)
    ensures |r| <= |t|
    decreases |t|
  {
    if t == [] then []
    else if TaggedWordAt(t).Some? then
      var w := TaggedWordAt(t).value;
      w + UntagSeverity(t[|w| + 2..])
    else [t[0]] + UntagSeverity(t[1..])
  }

  predicate AllWordChars(u: string) {
    forall k | 0 <= k < |u| :: IsWordChar(u[k])
  }

  /** The first character of the tagged text: a marker where a word is
      tagged, the input's own first character otherwise. */
  lemma TagFirstChar(s: string, afterWord: bool)
    requires s != []
    ensures var t := TagSeverity(s, afterWord);
            t != [] &&
            (if !afterWord && SeverityWordAt(s).Some? then t[0] == Marker(SeverityWordAt(s).value)
             else t == [s[0]] + TagSeverity(s[1..], IsWordChar(s[0])))
  {
  }

  /** A run of word characters at the start of the tagged text was there, as
      it is, at the start of the input, and the tagged text goes on as the
      tagging of what follows it. */
  lemma {:induction false} TaggedWordRun(s: string, afterWord: bool, u: string)
    requires u != [] && AllWordChars(u) && u <= TagSeverity(s, afterWord)
    ensures u <= s
    ensures TagSeverity(s, afterWord)[|u|..] == TagSeverity(s[|u|..], true)
    decreases |u|
  {
    var t := TagSeverity(s, afterWord);
    assert s != [];
    TagFirstChar(s, afterWord);
    assert IsWordChar(t[0]);
    assert t == [s[0]] + TagSeverity(s[1..], IsWordChar(s[0]));
    assert s[0] == u[0];
    if |u| > 1 {
      var t1 := TagSeverity(s[1..], true);
      assert IsWordChar(s[0]) && t[1..] == t1;
      assert u[1..] <= t1;
      TaggedWordRun(s[1..], true, u[1..]);
      assert t[|u|..] == t1[|u| - 1..];
      assert s[1..][|u| - 1..] == s[|u|..];
      assert u == [u[0]] + u[1..];
      assert s == [s[0]] + s[1..];
    } else {
      assert t[1..] == TagSeverity(s[1..], true);
    }
  }

  /** A severity word followed by the end or a non-word character is
      recognised as that word. */
  lemma SeverityWordAtWord(x: string, w: string)
    requires w == "Low" || w == "Medium" || w == "High"
    requires w <= x && (|x| == |w| || !IsWordChar(x[|w|]))
    ensures SeverityWordAt(x) == Some(w)
  {
    if w == "Medium" {
      assert x[0] == 'M';
    } else if w == "High" {
      assert x[0] == 'H';
    }
  }

  /** Outside a word, the tagged text never starts with a bare severity word:
      a word that stands alone there has been given its marker. */
  lemma NoBareSeverityWord(y: string)
    ensures SeverityWordAt(TagSeverity(y, false)).None?
  {
    var t := TagSeverity(y, false);
    if y != [] {
      TagFirstChar(y, false);
    }
    if y != [] && SeverityWordAt(y).None? && SeverityWordAt(t).Some? {
      var w := SeverityWordAt(t).value;
      TaggedWordRun(y, false, w);
      var rest := y[|w|..];
      if rest != [] {
        TagFirstChar(rest, true);
      }
      SeverityWordAtWord(y, w);
    }
  }

  /** Outside a word, the tagged text never starts with a space and a severity
      word either. */
  lemma NoSpacedSeverityWord(x: string)
    ensures var t := TagSeverity(x, false);
            !(|t| >= 2 && t[0] == ' ' && SeverityWordAt(t[1..]).Some?)
  {
    if x != [] {
      TagFirstChar(x, false);
      if SeverityWordAt(x).None? && x[0] == ' ' {
        NoBareSeverityWord(x[1..]);
      }
    }
  }

  /** A character copied unchanged is never the start of a tagged word. */
  lemma CopiedCharStartsNoTag(s: string, afterWord: bool)
    requires s != [] && !(!afterWord && SeverityWordAt(s).Some?)
    ensures TaggedWordAt(TagSeverity(s, afterWord)).None?
  {
    var t := TagSeverity(s, afterWord);
    TagFirstChar(s, afterWord);
    if !IsWordChar(s[0]) {
      var t1 := TagSeverity(s[1..], false);
      assert t[1..] == t1;
      NoSpacedSeverityWord(s[1..]);
      assert |t| >= 3 ==> t1[1..] == t[2..];
    }
  }

  /** A word tagged at the start is recognised as tagged. */
  lemma TaggedWordFound(s: string)
    requires SeverityWordAt(s).Some?
    ensures TaggedWordAt(TagSeverity(s, false)) == SeverityWordAt(s)
  {
    var w := SeverityWordAt(s).value;
    var rest := s[|w|..];
    var t := TagSeverity(s, false);
    assert t == [Marker(w), ' '] + w + TagSeverity(rest, true);
    assert t[2..] == w + TagSeverity(rest, true);
    if rest != [] {
      TagFirstChar(rest, true);
    }
    SeverityWordAtWord(t[2..], w);
  }

  /** Tagging only inserts markers: removing them gives back the narrative. */
  lemma {:induction false} UntagTagSeverity(s: string, afterWord: bool)
    ensures UntagSeverity(TagSeverity(s, afterWord)) == s
    decreases |s|
  {
    if s != [] {
      if !afterWord && SeverityWordAt(s).Some? {
        UntagTagSeverity(s[|SeverityWordAt(s).value|..], true);
        UntagTaggedWord(s);
      } else {
        UntagTagSeverity(s[1..], IsWordChar(s[0]));
        UntagCopiedChar(s, afterWord);
      }
    }
  }

  /** The step of `UntagTagSeverity` at a tagged word. */
  lemma UntagTaggedWord(s: string)
    requires SeverityWordAt(s).Some?
    requires var w := SeverityWordAt(s).value;
             UntagSeverity(TagSeverity(s[|w|..], true)) == s[|w|..]
    ensures UntagSeverity(TagSeverity(s, false)) == s
  {
    var w := SeverityWordAt(s).value;
    var t := TagSeverity(s, false);
    TaggedWordFound(s);
    assert t[|w| + 2..] == TagSeverity(s[|w|..], true);
    assert s == w + s[|w|..];
  }

  /** The step of `UntagTagSeverity` at a copied character. */
  lemma UntagCopiedChar(s: string, afterWord: bool)
    requires s != [] && (afterWord || SeverityWordAt(s).None?)
    requires UntagSeverity(TagSeverity(s[1..], IsWordChar(s[0]))) == s[1..]
    ensures UntagSeverity(TagSeverity(s, afterWord)) == s
  {
    var t := TagSeverity(s, afterWord);
    CopiedCharStartsNoTag(s, afterWord);
    assert t == [s[0]] + TagSeverity(s[1..], IsWordChar(s[0]));
    assert s == [s[0]] + s[1..];
  }

  /** The test for one severity word gives the same answer on `x` and on
      `x + b` when `x` ends in a non-word character: the word would have to
      fit inside `x`. */
  lemma WordTestPrefix(x: string, b: string, w: string)
    requires w == "Low" || w == "Medium" || w == "High"
    requires x != [] && !IsWordChar(x[|x| - 1])
    ensures (w <= x + b && (|x + b| == |w| || !IsWordChar((x + b)[|w|])))
            == (w <= x && (|x| == |w| || !IsWordChar(x[|w|])))
  {
    var s := x + b;
    assert forall k | 0 <= k < |w| :: IsWordChar(w[k]);
    if |x| <= |w| {
      assert s[|x| - 1] == x[|x| - 1];
      assert IsWordChar(w[|x| - 1]);
    } else {
      assert s[..|w|] == x[..|w|];
      assert s[|w|] == x[|w|];
    }
  }

  /** A text ending in a non-word character holds any severity word found
      at its start whole, so what follows it does not matter. */
  lemma SeverityWordAtPrefix(x: string, b: string)
    requires x != [] && !IsWordChar(x[|x| - 1])
    ensures SeverityWordAt(x + b) == SeverityWordAt(x)
  {
    WordTestPrefix(x, b, "Low");
    WordTestPrefix(x, b, "Medium");
    WordTestPrefix(x, b, "High");
  }

  /** The tagging of `a + b`, where `a` ends in a non-word character (or is
      empty and starts no word), is the tagging of `a` followed by that of
      `b` on its own. */
  lemma {:induction false} TagAppendFrom(a: string, b: string, afterWord: bool)
    requires a == [] ==> !afterWord
    requires a != [] ==> !IsWordChar(a[|a| - 1])
    ensures TagSeverity(a + b, afterWord) == TagSeverity(a, afterWord) + TagSeverity(b, false)
    decreases |a|, 2
  {
    if a == [] {
      assert a + b == b;
    } else if !afterWord && SeverityWordAt(a).Some? {
      TagAppendWord(a, b);
    } else {
      TagAppendChar(a, b, afterWord);
    }
  }

  /** `TagAppendFrom` where `a` starts with a severity word. */
  lemma {:induction false} TagAppendWord(a: string, b: string)
    requires a != [] && !IsWordChar(a[|a| - 1]) && SeverityWordAt(a).Some?
    ensures TagSeverity(a + b, false) == TagSeverity(a, false) + TagSeverity(b, false)
    decreases |a|, 1
  {
    var w := SeverityWordAt(a).value;
    assert |w| < |a| by {
      assert IsWordChar(w[|w| - 1]);
      assert a[|w| - 1] == w[|w| - 1];
    }
    TagAppendTagged(a, b, w);
    TagAppendFrom(a[|w|..], b, true);
    var rest := TagSeverity(a[|w|..], true);
    Regroup([Marker(w), ' '] + w, rest, TagSeverity(b, false));
  }

  /** The severity word `w` at the start of `a` is tagged at the start of
      `a + b` as well. */
  lemma TagAppendTagged(a: string, b: string, w: string)
    requires a != [] && !IsWordChar(a[|a| - 1]) && SeverityWordAt(a) == Some(w)
    requires |w| < |a|
    ensures TagSeverity(a + b, false) == [Marker(w), ' '] + w + TagSeverity(a[|w|..] + b, true)
    ensures TagSeverity(a, false) == [Marker(w), ' '] + w + TagSeverity(a[|w|..], true)
  {
    SeverityWordAtPrefix(a, b);
    DropAppend(a, b, |w|);
  }

  /** `TagAppendFrom` where the first character of `a` is copied. */
  lemma {:induction false} TagAppendChar(a: string, b: string, afterWord: bool)
    requires a != [] && !IsWordChar(a[|a| - 1])
    requires !(!afterWord && SeverityWordAt(a).Some?)
    ensures TagSeverity(a + b, afterWord) == TagSeverity(a, afterWord) + TagSeverity(b, false)
    decreases |a|, 1
  {
    TagAppendCopied(a, b, afterWord);
    TagAppendFrom(a[1..], b, IsWordChar(a[0]));
    var rest := TagSeverity(a[1..], IsWordChar(a[0]));
    Regroup([a[0]], rest, TagSeverity(b, false));
  }

  /** The first character of `a`, copied, is the first character of the
      tagging of `a + b`. */
  lemma TagAppendCopied(a: string, b: string, afterWord: bool)
    requires a != [] && !IsWordChar(a[|a| - 1])
    requires !(!afterWord && SeverityWordAt(a).Some?)
    ensures TagSeverity(a + b, afterWord) == [a[0]] + TagSeverity(a[1..] + b, IsWordChar(a[0]))
    ensures TagSeverity(a, afterWord) == [a[0]] + TagSeverity(a[1..], IsWordChar(a[0]))
  {
    SeverityWordAtPrefix(a, b);
    DropAppend(a, b, 1);
  }

  lemma DropAppend(a: string, b: string, n: nat)
    requires n <= |a|
    ensures (a + b)[n..] == a[n..] + b
    ensures n < |a| ==> (a + b)[n] == a[n]
  {
  }

  /** The whole-word rule makes tagging split at every non-word character. */
  lemma TagAppend(a: string, b: string)
    requires a == [] || !IsWordChar(a[|a| - 1])
    ensures TagSeverity(a + b, false) == TagSeverity(a, false) + TagSeverity(b, false)
  {
    TagAppendFrom(a, b, false);
  }

  /** A severity word standing between word boundaries anywhere in the
      narrative gets its marker and a space, and the text on either side is
      tagged as it would be on its own. */
  lemma TagWordInContext(a: string, w: string, b: string)
    requires w == "Low" || w == "Medium" || w == "High"
    requires a == [] || !IsWordChar(a[|a| - 1])
    requires b == [] || !IsWordChar(b[0])
    ensures TagSeverity(a + w + b, false)
            == TagSeverity(a, false) + [Marker(w), ' '] + w + TagSeverity(b, false)
  {
    var ta := TagSeverity(a, false);
    var tb := TagSeverity(b, false);
    var m := [Marker(w), ' '];
    TagAround(a, w + b);
    TagWordThenRest(w, b);
    Regroup(ta, m + w, tb);
    Regroup(ta, m, w);
  }

  /** `TagAppend` with the text after `a` written as `w + b`. */
  lemma TagAround(a: string, wb: string)
    requires a == [] || !IsWordChar(a[|a| - 1])
    ensures forall w, b | w + b == wb :: TagSeverity(a + w + b, false) == TagSeverity(a, false) + TagSeverity(wb, false)
  {
    TagAppend(a, wb);
    forall w, b | w + b == wb
      ensures TagSeverity(a + w + b, false) == TagSeverity(a, false) + TagSeverity(wb, false)
    {
      assert a + w + b == a + wb;
    }
  }

  lemma Regroup(x: string, y: string, z: string)
    ensures x + (y + z) == (x + y) + z
  {
  }

  /** A severity word at the start, before a word boundary, is tagged and
      the rest is tagged on its own. */
  lemma TagWordThenRest(w: string, b: string)
    requires w == "Low" || w == "Medium" || w == "High"
    requires b == [] || !IsWordChar(b[0])
    ensures TagSeverity(w + b, false) == [Marker(w), ' '] + w + TagSeverity(b, false)
  {
    SeverityWordAtWord(w + b, w);
    assert (w + b)[|w|..] == b;
    if b != [] {
      assert TagSeverity(b, true) == TagSeverity(b, false);
    }
  }

  /** `re.sub(r'\b(Low|Medium|High)\b', ...)` over the stripped risk narrative. */
  function TagRiskNarrative(raw: string): (r: string)
    ensures UntagSeverity(r) == raw
  {
    UntagTagSeverity(raw, false);
    TagSeverity(raw, false)
  }

  /** In the narrative, every `Low`, `Medium` or `High` that stands between
      word boundaries, wherever it occurs, gets its own marker and a space,
      and the text around it is tagged as it would be alone. */
  lemma TagRiskNarrativeWord(a: string, w: string, b: string)
    requires w == "Low" || w == "Medium" || w == "High"
    requires a == [] || !IsWordChar(a[|a| - 1])
    requires b == [] || !IsWordChar(b[0])
    ensures TagRiskNarrative(a + w + b)
            == TagRiskNarrative(a) + [Marker(w), ' '] + w + TagRiskNarrative(b)
  {
    TagWordInContext(a, w, b);
  }

  lemma TagExamples()
    ensures TagSeverity("High", false) == [RedCircle, ' '] + "High"
    ensures TagSeverity("Lower", false) == "Lower"
  {
    assert SeverityWordAt("High") == Some("High");
    assert "High"[4..] == [];
    assert SeverityWordAt("Lower") == None by {
      assert IsWordChar("Lower"[3]);
    }
    assert TagSeverity("ower", true) == "ower" by {
      assert TagSeverity("wer", true) == "wer" by {
        assert TagSeverity("er", true) == "er" by {
          assert TagSeverity("r", true) == "r";
        }
      }
    }
  }

  // ------------------------------------------------ risk-factor extraction

  /** The class `[\*\-•\s]` of `re.sub(r"^[\*\-•\s]+", "", line)`. */
  predicate IsBulletMark(c: char) {
    c == '*' || c == '-' || c == '\U{2022}' || IsPySpace(c)
  }

  function StripBullets(l: string): (r: string)
    ensures |r| <= |l| && r == l[|l| - |r|..]
    ensures r != [] ==> !IsBulletMark(r[0])
    ensures forall k | 0 <= k < |l| - |r| :: IsBulletMark(l[k])
    decreases |l|
  {
    if l != [] && IsBulletMark(l[0]) then StripBullets(l[1..]) else l
  }

  /** `re.sub(r"^[\*\-•\s]+", "", line).strip()`: the bullet class holds
      every whitespace character, so only the end is left for `strip()`. */
  function NormaliseFactor(l: string): (f: string)
    ensures f != [] ==> !IsBulletMark(f[0]) && !IsPySpace(f[|f| - 1])
  {
    TrimEnd(StripBullets(l), Py)
  }

  predicate IsBlank(l: string) { Trim(l, Py) == [] }

  /** The factor a single line contributes: none when it is blank. */
  function LineFactor(l: string): (fs: seq<string>)
    ensures |fs| <= 1
    ensures forall f | f in fs :: CleanFactor(f)
  {
    if IsBlank(l) then [] else [NormaliseFactor(l)]
  }

  /** `[NormaliseFactor(line) for line in lines if line.strip()]` */
  function BulletFactors(lines: seq<string>): (fs: seq<string>)
    ensures |fs| <= |lines|
  {
    FlatMapShort(LineFactor, lines);
    FlatMap(LineFactor, lines)
  }

  function CountNonBlank(lines: seq<string>): nat {
    if lines == [] then 0 else (if IsBlank(lines[0]) then 0 else 1) + CountNonBlank(lines[1..])
  }

  /** A factor without leading bullet marks and without surrounding whitespace. */
  predicate CleanFactor(f: string) {
    f == [] || (!IsBulletMark(f[0]) && !IsPySpace(f[|f| - 1]))
  }

  /** One factor per non-blank line. */
  lemma {:induction false} BulletFactorsCount(lines: seq<string>)
    ensures |BulletFactors(lines)| == CountNonBlank(lines)
  {
    if lines != [] {
      BulletFactorsCount(lines[1..]);
    }
  }

  /** Every factor is clean. */
  lemma {:induction false} BulletFactorsClean(lines: seq<string>)
    ensures forall f | f in BulletFactors(lines) :: CleanFactor(f)
  {
    if lines != [] {
      BulletFactorsClean(lines[1..]);
    }
  }

  /** Order is kept and nothing is de-duplicated: the factors of two blocks of
      lines are the factors of the first followed by those of the second. */
  lemma BulletFactorsAppend(a: seq<string>, b: seq<string>)
    ensures BulletFactors(a + b) == BulletFactors(a) + BulletFactors(b)
  {
    FlatMapAppend(LineFactor, a, b);
  }

  /** A single line contributes its own factor. */
  lemma SingleLineFactors(l: string)
    ensures BulletFactors([l]) == LineFactor(l)
  {
    assert [l][1..] == [];
    assert FlatMap(LineFactor, [l]) == LineFactor(l) + FlatMap(LineFactor, []);
  }

  /** A line made only of bullet marks, such as `---`, becomes an empty factor. */
  lemma MarkerOnlyLineGivesEmptyFactor()
    ensures BulletFactors(["---"]) == [""]
  {
    assert "---"[0] == '-';
    assert !IsBlank("---") by {
      assert !IsPySpace("---"[0]);
    }
    assert StripBullets("---") == "" by {
      assert StripBullets("-") == "" by { assert "-"[1..] == ""; }
      assert "---"[1..] == "--" && "--"[1..] == "-";
    }
  }

  /** Risk factors of the page-based analyser:
      `text.strip().split("\n")`, blank lines dropped, bullets and whitespace removed. */
  function ExtractRiskFactors(narrative: string): (fs: seq<string>)
    ensures |fs| == CountNonBlank(SplitOn(Trim(narrative, Py), "\n"))
    ensures forall f | f in fs :: CleanFactor(f)
  {
    var lines := SplitOn(Trim(narrative, Py), "\n");
    BulletFactorsCount(lines);
    BulletFactorsClean(lines);
    BulletFactors(lines)
  }

  /** The factor one line contributes to the direct-code extractor. */
  function DashFactor(line: string): (fs: seq<string>)
    ensures |fs| <= 1
    ensures fs != [] ==> StartsWith(Trim(line, Py), "- ") && Trim(line, Py) == "- " + fs[0]
  {
    var l := Trim(line, Py);
    if StartsWith(l, "- ") then
      assert l == l[..2] + l[2..];
      [l[2..]]
    else []
  }

  /** `line.strip()[2:]` for the stripped lines that start with `- `. */
  function DashFactors(lines: seq<string>): (fs: seq<string>)
    ensures |fs| <= |lines|
  {
    FlatMapShort(DashFactor, lines);
    FlatMap(DashFactor, lines)
  }

  /** The direct-code extractor keeps line order too. */
  lemma DashFactorsAppend(a: seq<string>, b: seq<string>)
    ensures DashFactors(a + b) == DashFactors(a) + DashFactors(b)
  {
    FlatMapAppend(DashFactor, a, b);
  }

  /** The two extractors disagree on `*` bullets: the page-based one keeps the
      item, the direct-code one drops the line. */
  lemma SpaceBulletStripped()
    ensures StripBullets(" x") == "x"
  {
    SpaceThenStop("x");
    assert [' '] + "x" == " x";
  }

  lemma SpaceThenStop(t: string)
    requires t != [] && !IsBulletMark(t[0])
    ensures StripBullets([' '] + t) == t
  {
    StripBulletsCons(' ', t);
    StripBulletsStop(t);
  }

  lemma StripBulletsCons(c: char, t: string)
    requires IsBulletMark(c)
    ensures StripBullets([c] + t) == StripBullets(t)
  {
    assert ([c] + t)[1..] == t;
  }

  lemma StripBulletsStop(t: string)
    requires t != [] && !IsBulletMark(t[0])
    ensures StripBullets(t) == t
  {
  }

  lemma StarBulletNormalised()
    ensures NormaliseFactor("* x") == "x"
  {
    assert "* x"[1..] == " x";
    SpaceBulletStripped();
    assert "x"[0] == 'x';
  }

  lemma StarBulletNotBlank()
    ensures !IsBlank("* x")
  {
    assert "* x"[0] == '*';
  }

  lemma StarBulletKeptByBulletFactors()
    ensures BulletFactors(["* x"]) == ["x"]
  {
    StarBulletNormalised();
    StarBulletNotBlank();
    SingleLineFactors("* x");
  }

  lemma StarBulletDroppedByDashFactors()
    ensures DashFactors(["* x"]) == []
  {
    var l := "* x";
    assert l[0] == '*' && !IsPySpace(l[0]);
    assert TrimStart(l, Py) == l;
    assert Trim(l, Py)[0] == '*';
    assert DashFactor(l) == [];
    assert ["* x"][1..] == [];
  }

  /** Risk factors of the direct-code analyser. */
  function ExtractDashFactors(narrative: string): (fs: seq<string>)
    ensures |fs| <= |SplitOn(Trim(narrative, Py), "\n")|
    ensures forall j | 0 <= j < |fs| :: DashLineFor(SplitOn(Trim(narrative, Py), "\n"), fs[j])
  {
    var lines := SplitOn(Trim(narrative, Py), "\n");
    DashFactorsFromLines(lines);
    DashFactors(lines)
  }

  /** Some line of `lines` gives the factor `f`: stripped, it is `- `
      followed by `f` (see `DashFactor`). */
  predicate DashLineFor(lines: seq<string>, f: string) {
    exists k | 0 <= k < |lines| :: DashFactor(lines[k]) == [f]
  }

  /** Every direct-code factor is the rest of a stripped line that starts
      with `- `. */
  lemma {:induction false} DashFactorsFromLines(lines: seq<string>)
    ensures forall j | 0 <= j < |DashFactors(lines)| :: DashLineFor(lines, DashFactors(lines)[j])
  {
    if lines != [] {
      var head := DashFactor(lines[0]);
      var rest := DashFactors(lines[1..]);
      assert DashFactors(lines) == head + rest;
      DashFactorsFromLines(lines[1..]);
      forall j | 0 <= j < |head + rest|
        ensures DashLineFor(lines, (head + rest)[j])
      {
        if j < |head| {
          DashLineFirst(lines, head, rest, j);
        } else {
          ConcatRight(head, rest, j);
          DashLineLater(lines, rest[j - |head|]);
        }
      }
    }
  }

  lemma ConcatRight(a: seq<string>, b: seq<string>, j: nat)
    requires |a| <= j < |a| + |b|
    ensures (a + b)[j] == b[j - |a|]
  {
  }

  /** A factor of the first line is a factor of the whole list. */
  lemma DashLineFirst(lines: seq<string>, head: seq<string>, rest: seq<string>, j: nat)
    requires lines != [] && head == DashFactor(lines[0]) && j < |head|
    ensures DashLineFor(lines, (head + rest)[j])
  {
    assert (head + rest)[j] == head[0];
    assert DashFactor(lines[0]) == [head[0]];
  }

  /** A factor of a later line is a factor of the whole list. */
  lemma DashLineLater(lines: seq<string>, f: string)
    requires lines != [] && DashLineFor(lines[1..], f)
    ensures DashLineFor(lines, f)
  {
    var k :| 0 <= k < |lines[1..]| && DashFactor(lines[1..][k]) == [f];
    assert lines[1..][k] == lines[k + 1];
  }

  // ------------------------------------------------- follow-up question

  const SectionBudget := 1000

  /** Python's `repr` of a float that is a whole number of hundredths. */
  function FormatHundredths(h: nat): (r: string)
    ensures |r| >= 3
    ensures NatToString(h / 100) + "." <= r
    ensures |r| == |NatToString(h / 100)| + 2 || |r| == |NatToString(h / 100)| + 3
    ensures |r| == |NatToString(h / 100)| + 3 <==> h % 10 != 0
    ensures r[|r| - 1] == '0' <==> h % 100 == 0
  {
    var whole := NatToString(h / 100);
    var frac := h % 100;
    if frac == 0 then whole + ".0"
    else if frac % 10 == 0 then whole + "." + [DigitChar(frac / 10)]
    else whole + "." + [DigitChar(frac / 10), DigitChar(frac % 10)]
  }

  /** The condensed report handed to the model with the user's question:
      each narrative section cut to its first 1000 characters. */
  function QaContext(impact: string, recommendations: string, risks: string,
                     added: nat, removed: nat, percent: nat): (ctx: string)
    ensures StartsWith(ctx, "Summary: " + Take(impact, SectionBudget) + "\n")
    ensures ctx[|ctx| - 1] == '%'
  {
    var summary := "Summary: " + Take(impact, SectionBudget) + "\n";
    var sections := "Recommendations: " + Take(recommendations, SectionBudget) + "\n"
                    + "Risks: " + Take(risks, SectionBudget) + "\n";
    var changes := "Changes: +" + NatToString(added) + ", -" + NatToString(removed) + ", ~" + FormatHundredths(percent) + "%";
    assert changes[|changes| - 1] == '%';
    summary + (sections + changes)
  }

  /** Only the first 1000 characters of each section reach the context. */
  lemma QaContextSeesOnlyBudget(i1: string, i2: string, r1: string, r2: string, k1: string, k2: string,
                                added: nat, removed: nat, percent: nat)
    requires Take(i1, SectionBudget) == Take(i2, SectionBudget)
    requires Take(r1, SectionBudget) == Take(r2, SectionBudget)
    requires Take(k1, SectionBudget) == Take(k2, SectionBudget)
    ensures QaContext(i1, r1, k1, added, removed, percent) == QaContext(i2, r2, k2, added, removed, percent)
  {
  }

  /** The context's length is bounded whatever the length of the narrative. */
  lemma QaContextBounded(impact: string, recommendations: string, risks: string,
                         added: nat, removed: nat, percent: nat)
    ensures |QaContext(impact, recommendations, risks, added, removed, percent)|
            <= 3 * SectionBudget + 60 + |NatToString(added)| + |NatToString(removed)| + |FormatHundredths(percent)|
  {
  }
}

=== FILE: output_formatters.dfy ===
/** The markdown formatters of the tool outputs
    (src/utils/toolOutputFormatters.ts), one per tool. */
module OutputFormatters {
  import opened Text

  /** `formatAIPoweredSearchOutput`: the answer as it is. */
  function FormatSearch(response: string): (r: string)
    ensures r == response
  {
    response
  }

  // ---------------------------------------------------- code assistant

  const ActionLabel := "AI Action Output:"
  const ConversionLabel := "Target Language Conversion Output:"
  const ModificationLabel := "Modification Output:"

  /** The block header chosen by the output's label: each labelled output
      gets the heading of its own label, any other `### Output`. */
  function CodeHeader(out: string): (h: string)
    ensures StartsWith(out, ActionLabel) ==> h == ActionHeader
    ensures StartsWith(out, ConversionLabel) ==> h == ConversionHeader
    ensures StartsWith(out, ModificationLabel) ==> h == ModificationHeader
    ensures !StartsWith(out, ActionLabel) && !StartsWith(out, ConversionLabel) && !StartsWith(out, ModificationLabel)
            ==> h == "### Output"
  {
    LabelsExclusive(out);
    if StartsWith(out, ActionLabel) then ActionHeader
    else if StartsWith(out, ConversionLabel) then ConversionHeader
    else if StartsWith(out, ModificationLabel) then ModificationHeader
    else "### Output"
  }

  /** No output starts with two of the labels: they differ in their first letter. */
  lemma LabelsExclusive(out: string)
    ensures !(StartsWith(out, ActionLabel) && StartsWith(out, ConversionLabel))
    ensures !(StartsWith(out, ActionLabel) && StartsWith(out, ModificationLabel))
    ensures !(StartsWith(out, ConversionLabel) && StartsWith(out, ModificationLabel))
  {
    assert ActionLabel[0] == 'A' && ConversionLabel[0] == 'T' && ModificationLabel[0] == 'M';
  }

  /** The index of the first colon of `s`, or `|s|` when there is none. */
  function ColonIndex(s: string): (i: nat)
    ensures i <= |s|
    ensures forall k | 0 <= k < i :: s[k] != ':'
    ensures i < |s| ==> s[i] == ':'
  {
    if s == [] || s[0] == ':' then 0 else 1 + ColonIndex(s[1..])
  }

  /** `out.replace(/^[^:]+:\n/, '')`: a non-empty run of characters other
      than a colon, the first colon and a newline are removed from the
      start. The run cannot end before the first colon, since the next
      character must be a colon. */
  function StripLabel(out: string): (r: string)
    ensures |r| <= |out|
    ensures r == out || r == out[|out| - |r|..]
  {
    var i := ColonIndex(out);
    if 0 < i && i + 1 < |out| && out[i + 1] == '\n' then out[i + 2..] else out
  }

  /** A label line is stripped and the content after it kept whole. */
  lemma StripLabelRoundTrip(tag: string, content: string)
    requires tag != [] && ':' !in tag
    ensures StripLabel(tag + ":\n" + content) == content
  {
    var s := tag + ":\n" + content;
    assert forall k | 0 <= k < |tag| :: s[k] == tag[k];
    assert s[|tag|] == ':';
    assert ColonIndex(s) == |tag|;
    assert s[|tag| + 2..] == content;
  }

  /** Text without a colon is left alone. */
  lemma NoColonKept(out: string)
    requires ':' !in out
    ensures StripLabel(out) == out
  {
  }

  const Rule := "---\n"
  const JsFence := "\n\n\n```js\n"
  const CloseFence := "\n```"

  /** One output's block: a rule, the header, and the output without its
      label in a fenced block. */
  function CodeBlock(out: string): (b: string)
    ensures StartsWith(b, Rule + CodeHeader(out))
  {
    var h := Rule + CodeHeader(out);
    PrefixAppend(h, h, JsFence + StripLabel(out) + CloseFence);
    h + (JsFence + StripLabel(out) + CloseFence)
  }

  /** A prefix of `a` is a prefix of `a + b`. */
  lemma PrefixAppend(p: string, a: string, b: string)
    requires p <= a
    ensures p <= a + b
  {
    assert forall k | 0 <= k < |p| :: (a + b)[k] == a[k];
  }

  const ActionHeader := "### AI Action Output"
  const ConversionHeader := "### Target Language Conversion Output"
  const ModificationHeader := "### Modification Output"

  /** An output labelled by the AI action gets that header, and only its
      content goes into the fenced block. */
  lemma ActionBlock(content: string)
    ensures CodeBlock(ActionLabel + Newline + content) == Rule + ActionHeader + (JsFence + content + CloseFence)
  {
    var s := ActionLabel + Newline + content;
    assert ActionLabel <= s;
    StripLabelRoundTrip("AI Action Output", content);
    assert s == "AI Action Output" + ":\n" + content;
  }

  /** The same for an output labelled as a modification: neither of the
      earlier labels matches it. */
  lemma ModificationBlock(content: string)
    ensures CodeBlock(ModificationLabel + Newline + content)
            == Rule + ModificationHeader + (JsFence + content + CloseFence)
  {
    var s := ModificationLabel + Newline + content;
    assert s[0] == 'M';
    assert ModificationLabel <= s;
    StripLabelRoundTrip("Modification Output", content);
    assert s == "Modification Output" + ":\n" + content;
  }

  function CodeBlocks(outputs: seq<string>): (bs: seq<string>)
    ensures |bs| == |outputs|
    ensures forall i | 0 <= i < |outputs| :: bs[i] == CodeBlock(outputs[i])
  {
    seq(|outputs|, i requires 0 <= i < |outputs| => CodeBlock(outputs[i]))
  }

  /** `formatCodeAssistantOutput`: the blocks joined by newlines. */
  function FormatCode(outputs: seq<string>): (r: string)
    ensures outputs == [] ==> r == []
    ensures outputs != [] ==> StartsWith(r, Rule + CodeHeader(outputs[0]))
  {
    var bs := CodeBlocks(outputs);
    if outputs == [] then ""
    else
      JoinStartsWith(bs, "\n", Rule + CodeHeader(outputs[0]));
      Join(bs, "\n")
  }

  lemma JoinStartsWith(parts: seq<string>, sep: string, p: string)
    requires |parts| >= 1 && StartsWith(parts[0], p)
    ensures StartsWith(Join(parts, sep), p)
  {
    if |parts| > 1 {
      PrefixAppend(p, parts[0], sep + Join(parts[1..], sep));
      assert parts[0] + sep + Join(parts[1..], sep) == parts[0] + (sep + Join(parts[1..], sep));
    }
  }

  /** One more output adds one block after a newline. */
  lemma FormatCodeSnoc(outputs: seq<string>, out: string)
    requires outputs != []
    ensures FormatCode(outputs + [out]) == FormatCode(outputs) + "\n" + CodeBlock(out)
  {
    assert CodeBlocks(outputs + [out]) == CodeBlocks(outputs) + [CodeBlock(out)];
    JoinAppend(CodeBlocks(outputs), [CodeBlock(out)], "\n");
  }

  // -------------------------------------------------------- questions

  datatype QA = QA(question: string, answer: string)

  function QaText(q: QA): string {
    "**Q:** " + q.question + "\n**A:** " + q.answer
  }

  /** The questions and answers, separated by blank lines. */
  function QaList(qa: seq<QA>): string {
    Join(seq(|qa|, i requires 0 <= i < |qa| => QaText(qa[i])), "\n\n")
  }

  // ------------------------------------------------------ test support

  datatype SupportReport = SupportReport(strategy: string, crossPlatform: string, sensitivity: string,
                                         qa: seq<QA>)

  const Newline := "\n"
  const StrategyHeading := "## Test Strategy\n"
  const CrossPlatformHeading := "\n## Cross-Platform Analysis\n"
  const SensitivityHeading := "\n## Sensitivity Analysis\n"
  const QaHeading := "\n## Q&A\n"

  /** A section: its heading and text and a newline, or nothing when the
      text is empty. */
  function Part(heading: string, text: string): (r: string)
    ensures text == [] ==> r == []
    ensures text != [] ==> r == heading + text + Newline
  {
    if text == [] then "" else heading + text + Newline
  }

  /** The questions under their heading, or nothing when there are none. */
  function QaPart(heading: string, qa: seq<QA>): (r: string)
    ensures qa == [] ==> r == []
    ensures qa != [] ==> r == heading + QaList(qa)
  {
    if qa == [] then "" else heading + QaList(qa)
  }

  function SupportText(r: SupportReport): string {
    Part(StrategyHeading, r.strategy) + Part(CrossPlatformHeading, r.crossPlatform)
    + Part(SensitivityHeading, r.sensitivity) + QaPart(QaHeading, r.qa)
  }

  /** `formatTestSupportOutput`: each non-empty section is appended in turn. */
  method FormatTestSupport(r: SupportReport) returns (out: string)
    ensures out == SupportText(r)
  {
    var strategy, cross, sensitivity := "", "", "";
    if r.strategy != [] {
      strategy := StrategyHeading + r.strategy + Newline;
    }
    out := strategy;
    if r.crossPlatform != [] {
      cross := CrossPlatformHeading + r.crossPlatform + Newline;
    }
    out := out + cross;
    if r.sensitivity != [] {
      sensitivity := SensitivityHeading + r.sensitivity + Newline;
    }
    out := out + sensitivity;
    if |r.qa| > 0 {
      out := out + (QaHeading + QaList(r.qa));
    }
  }

  /** The output is empty exactly when every section is; the strategy comes
      first when present, and the questions last. */
  lemma SupportTextSections(r: SupportReport)
    ensures SupportText(r) == [] <==> r.strategy == [] && r.crossPlatform == [] && r.sensitivity == [] && r.qa == []
    ensures r.strategy != [] ==> StartsWith(SupportText(r), StrategyHeading + r.strategy + Newline)
    ensures r.strategy == [] && r.crossPlatform != [] ==>
            StartsWith(SupportText(r), CrossPlatformHeading + r.crossPlatform + Newline)
    ensures r.qa != [] ==> EndsWith(SupportText(r), QaHeading + QaList(r.qa))
  {
    var a := Part(StrategyHeading, r.strategy);
    var b := Part(CrossPlatformHeading, r.crossPlatform);
    var c := Part(SensitivityHeading, r.sensitivity);
    var d := QaPart(QaHeading, r.qa);
    assert SupportText(r) == a + b + c + d;
    PrefixAppend(a, a, b);
    PrefixAppend(a, a + b, c);
    PrefixAppend(a, a + b + c, d);
    if r.strategy == [] {
      assert a + b == b;
      PrefixAppend(b, b, c);
      PrefixAppend(b, b + c, d);
    }
    if r.qa != [] {
      assert (a + b + c + d)[|a + b + c| ..] == d;
    }
  }

  // ---------------------------------------------------- impact analyzer

  /** The metrics; the percentage is a number JavaScript prints itself. */
  datatype ImpactMetrics = ImpactMetrics(linesAdded: int, linesRemoved: int, filesChanged: int,
                                         percentage: string)

  /** The risk assessment; a missing level prints as `undefined`. */
  datatype Risk = Risk(level: Option<string>, score: int, factors: seq<string>)

  datatype ImpactResult = ImpactResult(metrics: Option<ImpactMetrics>, risk: Option<Risk>,
                                       summary: string, diff: string, qa: seq<QA>)

  const MetricsHeading := "## Metrics\n"
  const AddedLabel := "- Lines Added: "
  const RemovedLabel := "\n- Lines Removed: "
  const FilesLabel := "\n- Files Changed: "
  const PercentLabel := "\n- Percentage Changed: "
  const PercentEnd := "%\n"
  const RiskHeading := "\n## Risk Assessment\n- **Risk Level**: "
  const ScoreLabel := "\n- **Risk Score**: "
  const FactorsLabel := "/10\n- **Risk Factors**:\n"
  const FactorIndent := "  - "
  const BlankLine := "\n\n"
  const DiffHeading := "\n\n## Code Diff\n\n```diff\n"
  const Undefined := "undefined"

  /** The four metric lines. */
  function MetricLines(m: ImpactMetrics): string {
    AddedLabel + IntToString(m.linesAdded) + RemovedLabel + IntToString(m.linesRemoved)
    + FilesLabel + IntToString(m.filesChanged) + PercentLabel + m.percentage + PercentEnd
  }

  /** `level?.toUpperCase()` in a template. */
  function LevelText(level: Option<string>): string {
    if level.Some? then Upper(level.value) else Undefined
  }

  function FactorLines(factors: seq<string>): string {
    Join(seq(|factors|, i requires 0 <= i < |factors| => FactorIndent + factors[i]), Newline)
  }

  function RiskLines(x: Risk): string {
    RiskHeading + LevelText(x.level) + ScoreLabel + IntToString(x.score) + FactorsLabel
    + FactorLines(x.factors)
  }

  /** The risk block opens with its heading and the level in upper case:
      no lower-case letter of the level survives. */
  lemma RiskLevelUpperCase(x: Risk)
    requires x.level.Some?
    ensures StartsWith(RiskLines(x), RiskHeading + Upper(x.level.value))
    ensures forall c | c in LevelText(x.level) :: !('a' <= c <= 'z')
  {
    var u := Upper(x.level.value);
    assert RiskLines(x) == (RiskHeading + u) + (ScoreLabel + IntToString(x.score) + FactorsLabel
      + FactorLines(x.factors));
    forall c | c in u
      ensures !('a' <= c <= 'z')
    {
      var i :| 0 <= i < |u| && u[i] == c;
      UpperHasNoLowerLetter(x.level.value, i);
    }
  }

  function ImpactText(x: ImpactResult): string {
    MetricsHeading
    + (if x.metrics.Some? then MetricLines(x.metrics.value) else "")
    + (if x.risk.Some? then RiskLines(x.risk.value) else "")
    + (if x.summary != [] then BlankLine + x.summary else "")
    + (if x.diff != [] then DiffHeading + x.diff + CloseFence else "")
    + QaPart(QaHeading, x.qa)
  }

  /** `formatImpactAnalyzerOutput`: the metrics heading, then each part that
      is present. */
  method FormatImpact(x: ImpactResult) returns (out: string)
    ensures out == ImpactText(x)
  {
    out := MetricsHeading;
    var metrics, risk, summary, diff := "", "", "", "";
    if x.metrics.Some? {
      metrics := MetricLines(x.metrics.value);
    }
    out := out + metrics;
    if x.risk.Some? {
      risk := RiskLines(x.risk.value);
    }
    out := out + risk;
    if x.summary != [] {
      summary := BlankLine + x.summary;
    }
    out := out + summary;
    if x.diff != [] {
      diff := DiffHeading + x.diff + CloseFence;
    }
    out := out + diff;
    if |x.qa| > 0 {
      out := out + (QaHeading + QaList(x.qa));
    }
  }

  /** The output always opens with the metrics heading, and is just that
      heading when there is nothing else. */
  lemma ImpactTextShape(x: ImpactResult)
    ensures StartsWith(ImpactText(x), MetricsHeading)
    ensures x.metrics.None? && x.risk.None? && x.summary == [] && x.diff == [] && x.qa == [] ==>
            ImpactText(x) == MetricsHeading
  {
    var a := if x.metrics.Some? then MetricLines(x.metrics.value) else "";
    var b := if x.risk.Some? then RiskLines(x.risk.value) else "";
    var c := if x.summary != [] then BlankLine + x.summary else "";
    var d := if x.diff != [] then DiffHeading + x.diff + CloseFence else "";
    var e := QaPart(QaHeading, x.qa);
    var m := MetricsHeading;
    assert ImpactText(x) == m + a + b + c + d + e;
    PrefixAppend(m, m, a);
    PrefixAppend(m, m + a, b);
    PrefixAppend(m, m + a + b, c);
    PrefixAppend(m, m + a + b + c, d);
    PrefixAppend(m, m + a + b + c + d, e);
  }

  // ---------------------------------------------------- image insights

  datatype ImageInfo = ImageInfo(name: string, summary: string, qa: seq<QA>)

  const NameHeading := "### "
  const ImageQaHeading := "\n#### Q&A\n"
  const ImageRule := "\n---\n"

  /** One image's block: its name, its summary, and its questions. */
  function ImageBlock(img: ImageInfo): (b: string)
    ensures StartsWith(b, NameHeading + img.name + Newline)
  {
    var h := NameHeading + img.name + Newline;
    PrefixAppend(h, h, img.summary + Newline + QaPart(ImageQaHeading, img.qa));
    h + (img.summary + Newline + QaPart(ImageQaHeading, img.qa))
  }

  function ImageBlocks(images: seq<ImageInfo>): (bs: seq<string>)
    ensures |bs| == |images|
    ensures forall i | 0 <= i < |images| :: bs[i] == ImageBlock(images[i])
  {
    seq(|images|, i requires 0 <= i < |images| => ImageBlock(images[i]))
  }

  /** `formatImageInsightsOutput`: the blocks separated by rules. */
  function FormatImages(images: seq<ImageInfo>): (r: string)
    ensures images == [] ==> r == []
    ensures |images| == 1 ==> r == ImageBlock(images[0])
  {
    Join(ImageBlocks(images), ImageRule)
  }

  /** One more image adds one block after a rule, and the first image's
      name heads the output. */
  lemma FormatImagesSnoc(images: seq<ImageInfo>, img: ImageInfo)
    requires images != []
    ensures FormatImages(images + [img]) == FormatImages(images) + ImageRule + ImageBlock(img)
    ensures StartsWith(FormatImages(images + [img]), NameHeading + images[0].name + Newline)
  {
    assert ImageBlocks(images + [img]) == ImageBlocks(images) + [ImageBlock(img)];
    JoinAppend(ImageBlocks(images), [ImageBlock(img)], ImageRule);
    JoinStartsWith(ImageBlocks(images + [img]), ImageRule, NameHeading + images[0].name + Newline);
  }

  // --------------------------------------------------- video summarizer

  datatype VideoInfo = VideoInfo(name: string, summary: string, quotes: seq<string>,
                                 timestamps: seq<string>, qa: seq<QA>)

  const Dash := "- "
  const Quote := "\""
  const SummaryHeading := "\n**AI Summary:**\n"
  const QuotesHeading := "\n**Key Quotes:**\n"
  const TimestampsHeading := "\n**Timestamps:**\n"
  const VideoQaHeading := "\n**Q&A:**\n"

  function QuoteLines(quotes: seq<string>): string {
    Join(seq(|quotes|, i requires 0 <= i < |quotes| => Dash + Quote + quotes[i] + Quote), Newline)
  }

  function TimestampLines(timestamps: seq<string>): string {
    Join(seq(|timestamps|, i requires 0 <= i < |timestamps| => Dash + timestamps[i]), Newline)
  }

  function VideoText(v: VideoInfo): string {
    NameHeading + v.name + Newline
    + Part(SummaryHeading, v.summary)
    + (if v.quotes != [] then QuotesHeading + QuoteLines(v.quotes) else "")
    + (if v.timestamps != [] then TimestampsHeading + TimestampLines(v.timestamps) else "")
    + QaPart(VideoQaHeading, v.qa)
  }

  /** `formatVideoSummarizerOutput`: the name heading, then each part that
      is present. */
  method FormatVideo(v: VideoInfo) returns (out: string)
    ensures out == VideoText(v)
  {
    out := NameHeading + v.name + Newline;
    var summary, quotes, timestamps := "", "", "";
    if v.summary != [] {
      summary := SummaryHeading + v.summary + Newline;
    }
    out := out + summary;
    if |v.quotes| > 0 {
      quotes := QuotesHeading + QuoteLines(v.quotes);
    }
    out := out + quotes;
    if |v.timestamps| > 0 {
      timestamps := TimestampsHeading + TimestampLines(v.timestamps);
    }
    out := out + timestamps;
    if |v.qa| > 0 {
      out := out + (VideoQaHeading + QaList(v.qa));
    }
  }

  /** The name heading comes first; a video with nothing else is just
      its heading; the summary, when present, follows the heading
      directly. */
  lemma VideoTextShape(v: VideoInfo)
    ensures StartsWith(VideoText(v), NameHeading + v.name + Newline)
    ensures v.summary == [] && v.quotes == [] && v.timestamps == [] && v.qa == [] ==>
            VideoText(v) == NameHeading + v.name + Newline
    ensures v.summary != [] ==>
            StartsWith(VideoText(v), NameHeading + v.name + Newline + (SummaryHeading + v.summary + Newline))
  {
    var h := NameHeading + v.name + Newline;
    var a := Part(SummaryHeading, v.summary);
    var b := if v.quotes != [] then QuotesHeading + QuoteLines(v.quotes) else "";
    var c := if v.timestamps != [] then TimestampsHeading + TimestampLines(v.timestamps) else "";
    var d := QaPart(VideoQaHeading, v.qa);
    assert VideoText(v) == h + a + b + c + d;
    PrefixAppend(h + a, h + a, b);
    PrefixAppend(h + a, h + a + b, c);
    PrefixAppend(h + a, h + a + b + c, d);
    PrefixAppend(h, h, a);
    PrefixAppend(h, h + a, b);
    PrefixAppend(h, h + a + b, c);
    PrefixAppend(h, h + a + b + c, d);
  }
}

=== FILE: risk_scanner.dfy ===
/** The pattern scan of the impact analyser (`check_stack_overflow_risks` and
    `search_stack_overflow` in backend/main.py): twelve fixed rules are
    searched, case-insensitively, in the analysed text; each rule that fires
    yields one finding, carrying up to three Stack Overflow links found by a
    search on the rule's first search term. */
module RiskScanner {
  import opened Text
  import DiffMetrics

  // ------------------------------------------------ Stack Overflow search

  /** What the Stack Exchange search returns: a failure (network error, bad
      status, bad JSON), or a body with or without an `items` list, each item
      with or without a `question_id`. */
  datatype ApiResponse = ApiFailed | ApiBody(items: Option<seq<Option<int>>>)

  const QuestionUrl := "https://stackoverflow.com/questions/"

  /** One link per item whose question id is present and non-zero, in order. */
  function QuestionLinks(items: seq<Option<int>>): (links: seq<string>)
    ensures |links| <= |items|
    ensures forall j | 0 <= j < |links| :: StartsWith(links[j], QuestionUrl)
  {
    if items == [] then []
    else
      (if items[0].Some? && items[0].value != 0 then [QuestionUrl + IntToString(items[0].value)] else [])
      + QuestionLinks(items[1..])
  }

  /** The links of one item: its question URL when the id is usable. */
  lemma QuestionLinksSingle(item: Option<int>)
    ensures QuestionLinks([item]) == (if item.Some? && item.value != 0 then [QuestionUrl + IntToString(item.value)] else [])
  {
    assert [item][1..] == [];
  }

  /** The links of a list are those of its parts, in order. */
  lemma {:induction false} QuestionLinksAppend(a: seq<Option<int>>, b: seq<Option<int>>)
    ensures QuestionLinks(a + b) == QuestionLinks(a) + QuestionLinks(b)
    decreases |a|
  {
    if a == [] {
      assert a + b == b;
    } else {
      ItemsDropAppend(a, b);
      var head := QuestionLinks([a[0]]);
      QuestionLinksCons(a);
      QuestionLinksCons(a + b);
      QuestionLinksAppend(a[1..], b);
      LinksRegroup(head, QuestionLinks(a[1..]), QuestionLinks(b));
    }
  }

  lemma QuestionLinksCons(items: seq<Option<int>>)
    requires items != []
    ensures QuestionLinks(items) == QuestionLinks([items[0]]) + QuestionLinks(items[1..])
  {
    QuestionLinksSingle(items[0]);
  }

  lemma LinksRegroup(x: seq<string>, y: seq<string>, z: seq<string>)
    ensures x + (y + z) == (x + y) + z
  {
  }

  lemma ItemsDropAppend(a: seq<Option<int>>, b: seq<Option<int>>)
    requires a != []
    ensures (a + b)[0] == a[0] && (a + b)[1..] == a[1..] + b
  {
  }

  /** The two placeholder links returned when the search fails. */
  function MockLinks(query: string): (links: seq<string>)
    ensures |links| == 2 && links[0] != links[1]
    ensures forall j | 0 <= j < 2 :: StartsWith(links[j], QuestionUrl + "mock-")
  {
    var slug := Lower(ReplaceChar(query, ' ', "-"));
    var first, second := QuestionUrl + "mock-" + slug + "-1", QuestionUrl + "mock-" + slug + "-2";
    assert first[|first| - 1] != second[|second| - 1];
    [first, second]
  }

  /** `search_stack_overflow(query, num_results)`. */
  function SearchStackOverflow(query: string, limit: nat, api: string -> ApiResponse): (links: seq<string>)
    ensures api(query).ApiFailed? ==> links == MockLinks(query)
    ensures api(query).ApiBody? ==> |links| <= limit
    ensures forall j | 0 <= j < |links| :: StartsWith(links[j], QuestionUrl)
  {
    match api(query)
    case ApiFailed => MockLinks(query)
    case ApiBody(items) =>
      var links := if items.Some? then QuestionLinks(items.value) else [];
      if |links| <= limit then links else links[..limit]
  }

  /** With a body, the links are the first `limit` question links of its
      items (Python's `links[:num_results]`), or none without an `items` list. */
  lemma SearchTakesFirstLinks(query: string, limit: nat, api: string -> ApiResponse)
    requires api(query).ApiBody?
    ensures api(query).items.None? ==> SearchStackOverflow(query, limit, api) == []
    ensures api(query).items.Some? ==>
      var all := QuestionLinks(api(query).items.value);
      SearchStackOverflow(query, limit, api) == all[..if |all| <= limit then |all| else limit]
  {
  }

  /** A body without items, or whose items carry no usable id, gives no link
      at all (no placeholders). */
  lemma NoItemsNoLinks(query: string, limit: nat, api: string -> ApiResponse)
    requires api(query) == ApiBody(None) || api(query) == ApiBody(Some([None]))
    ensures SearchStackOverflow(query, limit, api) == []
  {
  }

  /** The placeholder slug is the query with spaces turned into dashes. */
  lemma MockLinksHaveNoSpace(query: string)
    ensures forall j | 0 <= j < |MockLinks(query)| :: ' ' !in MockLinks(query)[j][|QuestionUrl| + 5..]
  {
    var replaced := ReplaceChar(query, ' ', "-");
    var slug := Lower(replaced);
    assert ' ' !in replaced;
    forall k | 0 <= k < |slug|
      ensures slug[k] != ' '
    {
      assert replaced[k] != ' ';
    }
    var a := QuestionUrl + "mock-" + slug + "-1";
    var b := QuestionUrl + "mock-" + slug + "-2";
    assert a[|QuestionUrl| + 5..] == slug + "-1";
    assert b[|QuestionUrl| + 5..] == slug + "-2";
  }

  // ------------------------------------------------------------ matching

  /** How each rule's regular expression is matched. All texts below are
      lower case: the search is done with `re.IGNORECASE` on the lowered
      content. */
  datatype Detector =
    | Literal(text: string)        // a fixed text, such as `eval\(`
    | AssignAfter(name: string)    // `name\s*=`
    | ZeroDelayCall                // `setTimeout\(.*,\s*0\)`
    | KeywordSpace(word: string)   // `var\s+`
    | ForVar                       // `\bfor\s*\([^)]*var\s+`
    | ShellCall                    // `subprocess\.run.*shell=True`

  predicate AllSpace(s: string, i: int, j: int) {
    0 <= i <= j <= |s| && forall k | i <= k < j :: IsPySpace(s[k])
  }

  /** `.` matches anything but a line feed. */
  predicate NoNewline(s: string, i: int, j: int) {
    0 <= i <= j <= |s| && forall k | i <= k < j :: s[k] != '\n'
  }

  predicate NoCloseParen(s: string, i: int, j: int) {
    0 <= i <= j <= |s| && forall k | i <= k < j :: s[k] != ')'
  }

  /** `\b` before a word character. */
  predicate WordStart(s: string, i: int) {
    0 <= i <= |s| && (i == 0 || !IsWordChar(s[i - 1]))
  }

  predicate AssignAfterAt(s: string, name: string, i: int, j: int) {
    MatchAt(s, name, i) && AllSpace(s, i + |name|, j) && j < |s| && s[j] == '='
  }

  predicate ZeroDelayAt(s: string, i: int, j: int, k: int) {
    MatchAt(s, "settimeout(", i) && NoNewline(s, i + 11, j) && j < |s| && s[j] == ','
    && AllSpace(s, j + 1, k) && k + 1 < |s| && s[k] == '0' && s[k + 1] == ')'
  }

  predicate KeywordSpaceAt(s: string, word: string, k: int) {
    MatchAt(s, word, k) && k + |word| < |s| && IsPySpace(s[k + |word|])
  }

  predicate ForVarAt(s: string, i: int, j: int, k: int) {
    WordStart(s, i) && MatchAt(s, "for", i) && AllSpace(s, i + 3, j) && j < |s| && s[j] == '('
    && NoCloseParen(s, j + 1, k) && KeywordSpaceAt(s, "var", k)
  }

  predicate ShellCallAt(s: string, i: int, j: int) {
    MatchAt(s, "subprocess.run", i) && NoNewline(s, i + 14, j) && MatchAt(s, "shell=true", j)
  }

  /** `re.search(pattern, content, re.IGNORECASE)` for the lowered content `s`. */
  predicate Detects(d: Detector, s: string) {
    match d
    case Literal(text) => Contains(s, text)
    case AssignAfter(name) => exists i, j | 0 <= i <= j < |s| :: AssignAfterAt(s, name, i, j)
    case ZeroDelayCall => exists i, j, k | 0 <= i <= j <= k < |s| :: ZeroDelayAt(s, i, j, k)
    case KeywordSpace(word) => exists k | 0 <= k < |s| :: KeywordSpaceAt(s, word, k)
    case ForVar => exists i, j, k | 0 <= i <= j <= k < |s| :: ForVarAt(s, i, j, k)
    case ShellCall => exists i, j | 0 <= i <= j < |s| :: ShellCallAt(s, i, j)
  }

  // ------------------------------------------------------------- rules

  /** The regular expression of a rule, how it is matched and its level. */
  datatype Rule = Rule(pattern: string, detector: Detector, level: DiffMetrics.RiskLevel)

  /** The texts a rule reports: description, deprecation warning (absent for
      some rules), suggested alternatives and Stack Overflow search terms. */
  datatype Advice = Advice(description: string, deprecation: Option<string>,
                           alternatives: seq<string>, searchTerms: seq<string>)

  /** The table of `check_stack_overflow_risks`, in its order. */
  function RiskRules(): (rules: seq<Rule>)
    ensures |rules| == 12
  {
    [
      Rule("eval\\(", Literal("eval("), DiffMetrics.High),
      Rule("innerHTML\\s*=", AssignAfter("innerhtml"), DiffMetrics.Medium),
      Rule("document\\.write\\(", Literal("document.write("), DiffMetrics.High),
      Rule("setTimeout\\(.*,\\s*0\\)", ZeroDelayCall, DiffMetrics.Low),
      Rule("console\\.log\\(", Literal("console.log("), DiffMetrics.Low),
      Rule("var\\s+", KeywordSpace("var"), DiffMetrics.Medium),
      Rule("\\bfor\\s*\\([^)]*var\\s+", ForVar, DiffMetrics.Medium),
      Rule("exec\\(", Literal("exec("), DiffMetrics.High),
      Rule("pickle\\.load\\(", Literal("pickle.load("), DiffMetrics.High),
      Rule("subprocess\\.run.*shell=True", ShellCall, DiffMetrics.Medium),
      Rule("input\\(", Literal("input("), DiffMetrics.Medium),
      Rule("print\\(", Literal("print("), DiffMetrics.Low)
    ]
  }

  /** The advice attached to each rule of the table, in the same order. */
  function RuleAdvice(): seq<Advice> {
    [EvalAdvice(),
     InnerHtmlAdvice(),
     DocumentWriteAdvice(),
     ZeroDelayAdvice(),
     ConsoleLogAdvice(),
     VarAdvice(),
     ForVarAdvice(),
     ExecAdvice(),
     PickleLoadAdvice(),
     ShellTrueAdvice(),
     InputAdvice(),
     PrintAdvice()]
  }

  function EvalAdvice(): Advice {
    Advice("Use of eval() function is dangerous as it executes arbitrary code",
      Some("eval() is considered dangerous and should be avoided"),
      ["Use JSON.parse() for parsing JSON data",
       "Use Function constructor for dynamic code execution",
       "Implement proper input validation and sanitization"],
      ["javascript eval function security risks", "eval() dangerous code execution"])
  }

  function InnerHtmlAdvice(): Advice {
    Advice("Direct innerHTML assignment can lead to XSS attacks",
      Some("innerHTML assignment without sanitization is risky"),
      ["Use textContent for text-only content",
       "Use DOMPurify library for HTML sanitization",
       "Use createElement and appendChild for DOM manipulation"],
      ["innerHTML XSS security", "innerHTML vs textContent security"])
  }

  function DocumentWriteAdvice(): Advice {
    Advice("document.write() can cause security issues and poor performance",
      Some("document.write() is deprecated and should not be used"),
      ["Use DOM manipulation methods like createElement",
       "Use innerHTML with proper sanitization",
       "Use modern frameworks like React, Vue, or Angular"],
      ["document.write deprecated", "document.write security issues"])
  }

  function ZeroDelayAdvice(): Advice {
    Advice("setTimeout with 0 delay can indicate potential race conditions",
      None,
      ["Use Promise.resolve().then() for microtasks",
       "Use requestAnimationFrame for UI updates",
       "Consider using async/await patterns"],
      ["setTimeout 0 delay race condition", "setTimeout vs Promise microtask"])
  }

  function ConsoleLogAdvice(): Advice {
    Advice("Console.log statements should be removed in production code",
      None,
      ["Use proper logging framework",
       "Remove console.log statements before production",
       "Use environment-based logging"],
      ["console.log production code", "remove console.log before deployment"])
  }

  function VarAdvice(): Advice {
    Advice("var declarations have function scope and can cause hoisting issues",
      Some("var is considered outdated in modern JavaScript"),
      ["Use const for values that won't be reassigned",
       "Use let for values that will be reassigned",
       "Prefer block scope over function scope"],
      ["javascript var vs let const", "var hoisting issues"])
  }

  function ForVarAdvice(): Advice {
    Advice("var in for loops can cause closure issues",
      None,
      ["Use let instead of var in for loops",
       "Use forEach, map, or other array methods",
       "Use for...of loops for iterables"],
      ["var in for loop closure", "javascript for loop var let difference"])
  }

  function ExecAdvice(): Advice {
    Advice("Use of exec() function is dangerous as it executes arbitrary code",
      Some("exec() is considered dangerous and should be avoided"),
      ["Use ast.literal_eval() for safe evaluation",
       "Use json.loads() for JSON data",
       "Implement proper input validation and sanitization"],
      ["python exec function security risks", "exec() dangerous code execution"])
  }

  function PickleLoadAdvice(): Advice {
    Advice("pickle.load() can execute arbitrary code and is unsafe for untrusted data",
      Some("pickle.load() is dangerous for untrusted data"),
      ["Use json.load() for safe data deserialization",
       "Use ast.literal_eval() for simple data structures",
       "Implement custom serialization for complex objects"],
      ["python pickle security risks", "pickle.load dangerous"])
  }

  function ShellTrueAdvice(): Advice {
    Advice("subprocess.run with shell=True can execute arbitrary shell commands",
      Some("shell=True is dangerous with user input"),
      ["Use subprocess.run with shell=False and list arguments",
       "Use specific command execution libraries",
       "Validate and sanitize all command inputs"],
      ["python subprocess shell=True security", "subprocess shell injection"])
  }

  function InputAdvice(): Advice {
    Advice("input() without validation can lead to injection attacks",
      None,
      ["Validate and sanitize all user input",
       "Use argparse for command-line arguments",
       "Implement proper input validation"],
      ["python input() security", "input validation python"])
  }

  function PrintAdvice(): Advice {
    Advice("print() statements should be replaced with proper logging in production",
      None,
      ["Use logging module for proper logging",
       "Remove print statements before production",
       "Use environment-based logging configuration"],
      ["python print vs logging", "remove print statements production"])
  }

  /** `pattern.replace('\\', '')`: the regular expression without its backslashes. */
  function DisplayPattern(p: string): (r: string)
    ensures '\\' !in r
    ensures |r| <= |p|
    decreases |p|
  {
    if p == [] then [] else (if p[0] == '\\' then [] else [p[0]]) + DisplayPattern(p[1..])
  }

  /** A pattern without backslashes is shown as it is. */
  lemma {:induction false} DisplayPatternPlain(p: string)
    requires '\\' !in p
    ensures DisplayPattern(p) == p
    decreases |p|
  {
    if p != [] {
      DisplayPatternPlain(p[1..]);
      assert p == [p[0]] + p[1..];
    }
  }

  /** The shown pattern drops exactly the escaping backslash: `innerHTML\s*=`
      is shown as `innerHTMLs*=`, which no longer reads as the expression. */
  lemma DisplayDropsEscape(a: string, b: string)
    requires '\\' !in a && '\\' !in b
    ensures DisplayPattern(a + "\\" + b) == a + b
  {
    var e := "\\" + b;
    assert a + "\\" + b == a + e;
    DisplayPatternAppend(a, e);
    assert e[0] == '\\' && e[1..] == b;
    assert DisplayPattern(e) == DisplayPattern(b);
    DisplayPatternPlain(a);
    DisplayPatternPlain(b);
  }

  lemma {:induction false} DisplayPatternAppend(a: string, b: string)
    ensures DisplayPattern(a + b) == DisplayPattern(a) + DisplayPattern(b)
    decreases |a|
  {
    if a == [] {
      assert a + b == b;
    } else {
      var h: string := if a[0] == '\\' then [] else [a[0]];
      assert (a + b)[0] == a[0] && (a + b)[1..] == a[1..] + b;
      assert DisplayPattern(a + b) == h + DisplayPattern(a[1..] + b);
      assert DisplayPattern(a) == h + DisplayPattern(a[1..]);
      DisplayPatternAppend(a[1..], b);
      assert h + (DisplayPattern(a[1..]) + DisplayPattern(b)) == (h + DisplayPattern(a[1..])) + DisplayPattern(b);
    }
  }

  /** `pattern_info.get("search_terms", [shown pattern])[0]`. */
  function SearchQuery(r: Rule, a: Advice): string {
    if |a.searchTerms| > 0 then a.searchTerms[0] else DisplayPattern(r.pattern)
  }

  /** The first rule looks for `eval(`; the sixth and seventh are the two
      `var` rules. */
  lemma RiskRulesDetectors()
    ensures RiskRules()[0].detector == Literal("eval(")
    ensures RiskRules()[5].detector == KeywordSpace("var") && RiskRules()[6].detector == ForVar
  {
  }

  // ------------------------------------------------------------ findings

  datatype Finding = Finding(pattern: string, level: DiffMetrics.RiskLevel, description: string,
                             links: seq<string>, alternatives: seq<string>,
                             deprecation: Option<string>)

  /** The advice of the `k`-th rule; a rule past the end of the advice table
      reports empty advice. */
  function AdviceAt(advice: seq<Advice>, k: nat): Advice {
    if k < |advice| then advice[k] else Advice("", None, [], [])
  }

  function FindingOf(r: Rule, a: Advice, api: string -> ApiResponse): (f: Finding)
    ensures f.level == r.level && f.description == a.description
    ensures f.alternatives == a.alternatives && f.deprecation == a.deprecation
    ensures '\\' !in f.pattern && f.pattern == DisplayPattern(r.pattern)
    ensures |a.searchTerms| > 0 ==> f.links == SearchStackOverflow(a.searchTerms[0], 3, api)
    ensures |a.searchTerms| == 0 ==> f.links == SearchStackOverflow(DisplayPattern(r.pattern), 3, api)
  {
    Finding(DisplayPattern(r.pattern), r.level, a.description,
            SearchStackOverflow(SearchQuery(r, a), 3, api), a.alternatives, a.deprecation)
  }

  /** The indices, in table order, of the first `n` of `rules` that fire on `s`. */
  function FiredUpTo(rules: seq<Rule>, s: string, n: nat): (ks: seq<nat>)
    requires n <= |rules|
    ensures |ks| <= n
    ensures forall j | 0 <= j < |ks| :: ks[j] < n
    ensures forall j, j' | 0 <= j < j' < |ks| :: ks[j] < ks[j']
    ensures forall k | 0 <= k < n :: (k in ks <==> Detects(rules[k].detector, s))
  {
    if n == 0 then []
    else FiredUpTo(rules, s, n - 1) + (if Detects(rules[n - 1].detector, s) then [n - 1] else [])
  }

  /** One finding per rule that fires, in table order. */
  function FindingsUpTo(rules: seq<Rule>, advice: seq<Advice>, s: string, api: string -> ApiResponse, n: nat): (fs: seq<Finding>)
    requires n <= |rules|
    ensures |fs| == |FiredUpTo(rules, s, n)|
    ensures forall j | 0 <= j < |fs| ::
              fs[j] == FindingOf(rules[FiredUpTo(rules, s, n)[j]], AdviceAt(advice, FiredUpTo(rules, s, n)[j]), api)
  {
    if n == 0 then []
    else
      var prev := FindingsUpTo(rules, advice, s, api, n - 1);
      FindingsStep(rules, advice, s, api, n, prev);
      prev + (if Detects(rules[n - 1].detector, s) then [FindingOf(rules[n - 1], AdviceAt(advice, n - 1), api)] else [])
  }

  /** The step of `FindingsUpTo`: the finding of rule `n - 1`, if it fires,
      lines up with its index at the end of `FiredUpTo`. */
  lemma FindingsStep(rules: seq<Rule>, advice: seq<Advice>, s: string, api: string -> ApiResponse, n: nat,
                     prev: seq<Finding>)
    requires 0 < n <= |rules|
    requires |prev| == |FiredUpTo(rules, s, n - 1)|
    requires forall j | 0 <= j < |prev| ::
               prev[j] == FindingOf(rules[FiredUpTo(rules, s, n - 1)[j]], AdviceAt(advice, FiredUpTo(rules, s, n - 1)[j]), api)
    ensures var fs := prev + (if Detects(rules[n - 1].detector, s) then [FindingOf(rules[n - 1], AdviceAt(advice, n - 1), api)] else []);
            |fs| == |FiredUpTo(rules, s, n)|
            && forall j | 0 <= j < |fs| ::
                 fs[j] == FindingOf(rules[FiredUpTo(rules, s, n)[j]], AdviceAt(advice, FiredUpTo(rules, s, n)[j]), api)
  {
    var ks := FiredUpTo(rules, s, n - 1);
    var fires := Detects(rules[n - 1].detector, s);
    FiredStep(rules, s, n);
    FindingsExtend(rules, advice, api, ks, prev, n - 1, fires);
  }

  lemma FiredStep(rules: seq<Rule>, s: string, n: nat)
    requires 0 < n <= |rules|
    ensures FiredUpTo(rules, s, n) == FiredUpTo(rules, s, n - 1) + (if Detects(rules[n - 1].detector, s) then [n - 1] else [])
  {
  }

  /** `FindingsAppend`, or nothing when rule `k` does not fire. */
  lemma FindingsExtend(rules: seq<Rule>, advice: seq<Advice>, api: string -> ApiResponse,
                       ks: seq<nat>, prev: seq<Finding>, k: nat, fires: bool)
    requires k < |rules| && |prev| == |ks|
    requires forall j | 0 <= j < |ks| :: ks[j] < |rules|
    requires forall j | 0 <= j < |ks| :: prev[j] == FindingOf(rules[ks[j]], AdviceAt(advice, ks[j]), api)
    ensures var ks' := ks + (if fires then [k] else []);
            var fs := prev + (if fires then [FindingOf(rules[k], AdviceAt(advice, k), api)] else []);
            |fs| == |ks'| && forall j | 0 <= j < |fs| :: fs[j] == FindingOf(rules[ks'[j]], AdviceAt(advice, ks'[j]), api)
  {
    if fires {
      FindingsAppend(rules, advice, api, ks, prev, k);
    } else {
      assert ks + [] == ks && prev + [] == prev;
    }
  }

  /** Appending rule `k` to a list of fired indices appends its finding. */
  lemma FindingsAppend(rules: seq<Rule>, advice: seq<Advice>, api: string -> ApiResponse,
                       ks: seq<nat>, prev: seq<Finding>, k: nat)
    requires k < |rules| && |prev| == |ks|
    requires forall j | 0 <= j < |ks| :: ks[j] < |rules|
    requires forall j | 0 <= j < |ks| :: prev[j] == FindingOf(rules[ks[j]], AdviceAt(advice, ks[j]), api)
    ensures var ks' := ks + [k];
            var fs := prev + [FindingOf(rules[k], AdviceAt(advice, k), api)];
            forall j | 0 <= j < |fs| :: fs[j] == FindingOf(rules[ks'[j]], AdviceAt(advice, ks'[j]), api)
  {
    var ks' := ks + [k];
    var fs := prev + [FindingOf(rules[k], AdviceAt(advice, k), api)];
    forall j | 0 <= j < |fs|
      ensures fs[j] == FindingOf(rules[ks'[j]], AdviceAt(advice, ks'[j]), api)
    {
      if j < |prev| {
        assert fs[j] == prev[j] && ks'[j] == ks[j];
      }
    }
  }

  /** The indices of the rules that fire on `content`, searched case-insensitively. */
  function Fired(rules: seq<Rule>, content: string): (ks: seq<nat>)
    ensures forall j | 0 <= j < |ks| :: ks[j] < |rules|
    ensures forall k | 0 <= k < |rules| :: (k in ks <==> Detects(rules[k].detector, Lower(content)))
  {
    FiredUpTo(rules, Lower(content), |rules|)
  }

  lemma FindingsUpToNext(rules: seq<Rule>, advice: seq<Advice>, s: string, api: string -> ApiResponse, n: nat)
    requires n < |rules|
    ensures Detects(rules[n].detector, s) ==>
              FindingsUpTo(rules, advice, s, api, n + 1)
              == FindingsUpTo(rules, advice, s, api, n) + [FindingOf(rules[n], AdviceAt(advice, n), api)]
    ensures !Detects(rules[n].detector, s) ==>
              FindingsUpTo(rules, advice, s, api, n + 1) == FindingsUpTo(rules, advice, s, api, n)
  {
  }

  /** The findings for `content`: one per rule that fires, in table order. */
  function Findings(rules: seq<Rule>, advice: seq<Advice>, content: string, api: string -> ApiResponse): (fs: seq<Finding>)
    ensures |fs| == |Fired(rules, content)| <= |rules|
    ensures forall j | 0 <= j < |fs| ::
              fs[j] == FindingOf(rules[Fired(rules, content)[j]], AdviceAt(advice, Fired(rules, content)[j]), api)
  {
    FindingsUpTo(rules, advice, Lower(content), api, |rules|)
  }

  /** The scanning loop of `check_stack_overflow_risks`, over a rule table. */
  method Scan(rules: seq<Rule>, advice: seq<Advice>, content: string, api: string -> ApiResponse)
    returns (found: seq<Finding>)
    ensures found == Findings(rules, advice, content, api)
  {
    var lowered := Lower(content);
    found := [];
    var i := 0;
    assert FindingsUpTo(rules, advice, lowered, api, 0) == [];
    while i < |rules|
      invariant 0 <= i <= |rules|
      invariant found == FindingsUpTo(rules, advice, lowered, api, i)
    {
      ghost var next := FindingsUpTo(rules, advice, lowered, api, i + 1);
      FindingsUpToNext(rules, advice, lowered, api, i);
      if Detects(rules[i].detector, lowered) {
        found := found + [FindingOf(rules[i], AdviceAt(advice, i), api)];
      }
      assert found == next;
      i := i + 1;
    }
    assert found == FindingsUpTo(rules, advice, lowered, api, |rules|);
  }

  /** `check_stack_overflow_risks(code_content)`: the scan over the fixed table. */
  method CheckRisks(content: string, api: string -> ApiResponse) returns (found: seq<Finding>)
    ensures found == Findings(RiskRules(), RuleAdvice(), content, api)
  {
    found := Scan(RiskRules(), RuleAdvice(), content, api);
  }

  // ------------------------------------------------------------ properties

  /** Text that fires the loop-variable rule always fires the plain `var` rule
      too, so such code is reported twice. */
  lemma ForVarAlsoFiresVar(s: string)
    requires Detects(ForVar, s)
    ensures Detects(KeywordSpace("var"), s)
  {
    var i, j, k :| 0 <= i <= j <= k < |s| && ForVarAt(s, i, j, k);
    assert KeywordSpaceAt(s, "var", k);
  }

  /** The `eval(` rule fires on any call whose name ends in `eval`, such as
      the safe `ast.literal_eval(`. */
  lemma LiteralEvalFiresEvalRule(a: string, b: string)
    ensures Detects(Literal("eval("), a + "literal_eval(" + b)
  {
    var s := a + "literal_eval(" + b;
    assert s == (a + "literal_") + "eval(" + b;
    ContainsMiddle(a + "literal_", "eval(", b);
  }

  /** The search is case-insensitive: text differing only in letter case
      yields the same findings. */
  lemma ScanIgnoresCase(rules: seq<Rule>, advice: seq<Advice>, c1: string, c2: string, api: string -> ApiResponse)
    requires Lower(c1) == Lower(c2)
    ensures Findings(rules, advice, c1, api) == Findings(rules, advice, c2, api)
  {
  }

  /** Upper-case code is caught like lower-case code. */
  lemma UpperCaseEvalFires()
    ensures Detects(Literal("eval("), Lower("EVAL(x)"))
  {
    var s := Lower("EVAL(x)");
    assert s[..5] == "eval(";
    assert MatchAt(s, "eval(", 0);
  }

  /** Every match of the detector holds a character that is not a letter. */
  predicate NeedsNonLetter(d: Detector) {
    d.Literal? ==> exists k | 0 <= k < |d.text| :: !IsAsciiLetter(d.text[k])
  }

  lemma RiskRulesNeedNonLetters(k: nat)
    requires k < |RiskRules()|
    ensures NeedsNonLetter(RiskRules()[k].detector)
  {
    var d := RiskRules()[k].detector;
    if d.Literal? {
      assert d.text[|d.text| - 1] == '(';
    }
  }

  /** A run of letters, with no bracket, `=`, `.` or whitespace, fires no rule. */
  lemma PlainWordFiresNothing(rules: seq<Rule>, advice: seq<Advice>, content: string, api: string -> ApiResponse)
    requires forall k | 0 <= k < |rules| :: NeedsNonLetter(rules[k].detector)
    requires forall k | 0 <= k < |content| :: IsAsciiLetter(content[k])
    ensures Findings(rules, advice, content, api) == []
  {
    var s := Lower(content);
    forall k | 0 <= k < |rules|
      ensures !Detects(rules[k].detector, s)
    {
      NoFireOnLetters(rules[k].detector, s);
    }
    NothingFired(rules, s, |rules|);
  }

  lemma {:induction false} NothingFired(rules: seq<Rule>, s: string, n: nat)
    requires n <= |rules|
    requires forall k | 0 <= k < n :: !Detects(rules[k].detector, s)
    ensures FiredUpTo(rules, s, n) == []
  {
    if n > 0 {
      NothingFired(rules, s, n - 1);
    }
  }

  lemma NoFireOnLetters(d: Detector, s: string)
    requires NeedsNonLetter(d)
    requires forall m | 0 <= m < |s| :: IsAsciiLetter(s[m])
    ensures !Detects(d, s)
  {
    assert forall m | 0 <= m < |s| :: !IsPySpace(s[m]) && s[m] != '=' && s[m] != ',' && s[m] != '(' && s[m] != '.';
    match d
    case Literal(text) =>
      var k :| 0 <= k < |text| && !IsAsciiLetter(text[k]);
      forall i | 0 <= i <= |s| - |text|
        ensures !MatchAt(s, text, i)
      {
        if i + |text| <= |s| {
          assert s[i..i + |text|][k] == s[i + k];
        }
      }
    case AssignAfter(name) =>
    case ZeroDelayCall =>
    case KeywordSpace(word) =>
    case ForVar =>
    case ShellCall =>
      forall i, j | 0 <= i <= j < |s|
        ensures !ShellCallAt(s, i, j)
      {
        if i + 14 <= |s| {
          assert s[i..i + 14][10] == s[i + 10];
        }
      }
  }

  /** A failed search still yields two links per finding. */
  lemma FailedSearchGivesTwoLinks(rules: seq<Rule>, advice: seq<Advice>, content: string,
                                  api: string -> ApiResponse, j: nat)
    requires forall q :: api(q) == ApiFailed
    requires j < |Findings(rules, advice, content, api)|
    ensures |Findings(rules, advice, content, api)[j].links| == 2
  {
  }

  /** Content that fires the loop-variable rule is cited at least twice:
      once by it and once by the plain `var` rule. */
  lemma ForVarCitedTwice(advice: seq<Advice>, content: string, api: string -> ApiResponse)
    requires Detects(ForVar, Lower(content))
    ensures |Findings(RiskRules(), advice, content, api)| >= 2
  {
    var rules := RiskRules();
    RiskRulesDetectors();
    ForVarAlsoFiresVar(Lower(content));
    var ks := Fired(rules, content);
    assert 5 in ks && 6 in ks;
    var i :| 0 <= i < |ks| && ks[i] == 5;
    var j :| 0 <= j < |ks| && ks[j] == 6;
    assert i != j;
  }
}

=== FILE: search_panel.dfy ===
/** The AI-powered search panel (src/components/AIPoweredSearch.tsx): the
    page selection, the select-all toggle, and the search that records
    each answer at the head of the history. */
module SearchPanel {
  import opened Text

  /** `xs.filter(x => x !== p)` */
  function Without(xs: seq<string>, p: string): (r: seq<string>)
    ensures p !in r
    ensures |r| <= |xs|
    ensures forall x :: x in r <==> x in xs && x != p
  {
    if xs == [] then []
    else (if xs[0] == p then [] else [xs[0]]) + Without(xs[1..], p)
  }

  /** `handlePageSelection`: a selected page is removed, every occurrence
      of it; any other page is appended. */
  function Toggled(selected: seq<string>, page: string): seq<string> {
    if page in selected then Without(selected, page) else selected + [page]
  }

  /** Filtering distributes over concatenation: it keeps the other pages in
      their order. */
  lemma {:induction false} WithoutAppend(a: seq<string>, b: seq<string>, p: string)
    ensures Without(a + b, p) == Without(a, p) + Without(b, p)
  {
    if a == [] {
      assert a + b == b;
    } else {
      assert (a + b)[0] == a[0];
      assert (a + b)[1..] == a[1..] + b;
      WithoutAppend(a[1..], b, p);
    }
  }

  /** Filtering out a page that is not there changes nothing. */
  lemma {:induction false} WithoutAbsent(xs: seq<string>, p: string)
    requires p !in xs
    ensures Without(xs, p) == xs
  {
    if xs != [] {
      assert p !in xs[1..];
      WithoutAbsent(xs[1..], p);
      assert xs == [xs[0]] + xs[1..];
    }
  }

  /** Selecting a page and then deselecting it restores the selection. */
  lemma ToggleTwiceRestores(selected: seq<string>, page: string)
    requires page !in selected
    ensures Toggled(selected, page) == selected + [page]
    ensures Toggled(Toggled(selected, page), page) == selected
  {
    assert page in selected + [page];
    WithoutAppend(selected, [page], page);
    WithoutAbsent(selected, page);
    assert Without([page], page) == [];
  }

  /** A page selected twice over is removed entirely by one toggle and comes
      back once: two toggles do not restore a selection with duplicates. */
  lemma DuplicatesCollapse(page: string)
    ensures Toggled([page, page], page) == []
    ensures Toggled(Toggled([page, page], page), page) == [page]
  {
    assert [page][1..] == [];
    assert Without([page], page) == [];
    assert [page, page][1..] == [page];
    assert Without([page, page], page) == [];
  }

  /** `toggleSelectAllPages`: decided by length alone, so a selection of
      as many pages as are listed is cleared whichever pages it holds. */
  function SelectAllToggled(selected: seq<string>, pages: seq<string>): (r: seq<string>)
    ensures |selected| == |pages| ==> r == []
    ensures |selected| != |pages| ==> r == pages
  {
    if |selected| == |pages| then [] else pages
  }

  // ----------------------------------------------------------- search

  datatype Entry = Entry(query: string, response: string, source: string)

  datatype SearchRequest = SearchRequest(space: string, pages: seq<string>, query: string)

  /** The answer of the search endpoint, or the exception it raised. */
  datatype Reply = Answer(response: string, source: Option<string>) | Failed

  const FillFieldsError := "Please fill in all required fields."
  const SearchError := "Failed to generate AI response. Please try again."

  /** The guard of `handleSearch`. */
  predicate CanSearch(space: string, selected: seq<string>, query: string) {
    space != [] && |selected| != 0 && !Blank(query, Js)
  }

  class Panel {
    var selectedSpace: string
    var pages: seq<string>
    var selectedPages: seq<string>
    var query: string
    var response: string
    var responseSource: string
    var history: seq<Entry>
    var historyIndex: Option<nat>
    var error: string
    var loading: bool
    /** The requests sent so far. */
    var requests: seq<SearchRequest>

    /** What the page handlers leave alone. */
    function Results(): (string, string, seq<Entry>, Option<nat>, string, seq<SearchRequest>)
      reads this
    {
      (response, responseSource, history, historyIndex, error, requests)
    }

    method HandlePageSelection(page: string)
      modifies this
      ensures selectedPages == Toggled(old(selectedPages), page)
      ensures pages == old(pages) && query == old(query) && Results() == old(Results())
      ensures selectedSpace == old(selectedSpace) && loading == old(loading)
    {
      if page in selectedPages {
        selectedPages := Without(selectedPages, page);
      } else {
        selectedPages := selectedPages + [page];
      }
    }

    method ToggleSelectAllPages()
      modifies this
      ensures selectedPages == SelectAllToggled(old(selectedPages), old(pages))
      ensures pages == old(pages) && query == old(query) && Results() == old(Results())
      ensures selectedSpace == old(selectedSpace) && loading == old(loading)
    {
      if |selectedPages| == |pages| {
        selectedPages := [];
      } else {
        selectedPages := pages;
      }
    }

    /** `handleSearch`: without a space, a page or a non-blank query only
        the error is set; otherwise one request is sent and its answer is
        shown and put at the head of the history. */
    method HandleSearch(api: SearchRequest -> Reply)
      modifies this
      ensures selectedSpace == old(selectedSpace) && pages == old(pages)
      ensures selectedPages == old(selectedPages) && query == old(query)
      ensures !CanSearch(old(selectedSpace), old(selectedPages), old(query)) ==>
              error == FillFieldsError && requests == old(requests) && history == old(history)
              && historyIndex == old(historyIndex) && response == old(response)
              && responseSource == old(responseSource) && loading == old(loading)
      ensures CanSearch(old(selectedSpace), old(selectedPages), old(query)) ==>
              var req := SearchRequest(old(selectedSpace), old(selectedPages), old(query));
              requests == old(requests) + [req] && !loading
              && match api(req)
                 case Answer(r, s) =>
                   var src := if s.Some? then s.value else "";
                   response == r && responseSource == src && error == []
                   && history == [Entry(old(query), r, src)] + old(history) && historyIndex == Some(0)
                 case Failed =>
                   error == SearchError && history == old(history) && historyIndex == old(historyIndex)
                   && response == old(response) && responseSource == old(responseSource)
    {
      if selectedSpace == [] || |selectedPages| == 0 || Blank(query, Js) {
        error := FillFieldsError;
        return;
      }
      loading, error := true, "";
      var req := SearchRequest(selectedSpace, selectedPages, query);
      requests := requests + [req];
      var reply := api(req);
      match reply {
        case Answer(r, s) =>
          var src := if s.Some? then s.value else "";
          response, responseSource := r, src;
          history, historyIndex := [Entry(query, r, src)] + history, Some(0);
        case Failed =>
          error := SearchError;
      }
      loading := false;
    }

    /** The effect run when the history index changes: an entry that exists
        is shown again, query and all. */
    method ShowHistory(k: nat)
      modifies this
      ensures historyIndex == Some(k) && history == old(history) && requests == old(requests)
      ensures error == old(error) && loading == old(loading) && pages == old(pages)
      ensures selectedSpace == old(selectedSpace) && selectedPages == old(selectedPages)
      ensures k < |history| ==>
              response == history[k].response && query == history[k].query
              && responseSource == history[k].source
      ensures k >= |history| ==>
              response == old(response) && query == old(query) && responseSource == old(responseSource)
    {
      historyIndex := Some(k);
      if k < |history| {
        response, query, responseSource := history[k].response, history[k].query, history[k].source;
      }
    }
  }

  /** A whitespace-only query is refused: the guard is the emptiness of
      the trimmed query. */
  lemma BlankQueryRefused(space: string, selected: seq<string>, query: string)
    requires Trim(query, Js) == []
    ensures !CanSearch(space, selected, query)
  {
    BlankIsTrimEmpty(query, Js);
  }
}

=== FILE: test_support.dfy ===
/** The test-support tool (src/components/TestSupportTool.tsx): the GitHub
    token and repository-name validators, the checks that guard workflow
    generation, and the test report, its stored form and the content
    saved from it. */
module TestSupport {
  import opened Text

  // ------------------------------------------------------- validators

  /** The length of the longest prefix of `s` whose characters satisfy
      `IsAsciiAlnum` (`[a-zA-Z0-9]*` matched greedily). */
  function AlnumRun(s: string): (n: nat)
    ensures n <= |s|
    ensures forall k | 0 <= k < n :: IsAsciiAlnum(s[k])
    ensures n < |s| ==> !IsAsciiAlnum(s[n])
  {
    if s != [] && IsAsciiAlnum(s[0]) then 1 + AlnumRun(s[1..]) else 0
  }

  /** `/^(ghp_|ghs_)[a-zA-Z0-9]{36}$/`: one of the two prefixes, then
      exactly 36 ASCII letters or digits up to the end. */
  predicate ValidToken(t: string) {
    (StartsWith(t, "ghp_") || StartsWith(t, "ghs_")) && |t| == 40 && AlnumRun(t[4..]) == 36
  }

  /** The characters of a repository name: `[a-zA-Z0-9._-]`. */
  predicate IsRepoChar(c: char) {
    IsAsciiAlnum(c) || c == '.' || c == '_' || c == '-'
  }

  /** `[a-zA-Z0-9._-]*` matched greedily at the start of `s`. */
  function RepoRun(s: string): (n: nat)
    ensures n <= |s|
    ensures forall k | 0 <= k < n :: IsRepoChar(s[k])
    ensures n < |s| ==> !IsRepoChar(s[n])
  {
    if s != [] && IsRepoChar(s[0]) then 1 + RepoRun(s[1..]) else 0
  }

  /** `/^[a-zA-Z0-9._-]+\/[a-zA-Z0-9._-]+$/`: a non-empty run of name
      characters, a slash, and a non-empty run up to the end. A slash is
      not a name character, so the first run must stop at it. */
  predicate ValidRepo(r: string) {
    var n := RepoRun(r);
    0 < n < |r| - 1 && r[n] == '/' && RepoRun(r[n + 1..]) == |r| - n - 1
  }

  /** A repository name with its only slash at `i`, between a non-empty
      owner and a non-empty name of name characters. */
  predicate RepoShape(r: string, i: int) {
    0 < i < |r| - 1 && r[i] == '/' && forall k | 0 <= k < |r| && k != i :: IsRepoChar(r[k])
  }

  /** Every accepted token is 40 characters long and is a prefix followed
      by 36 ASCII letters or digits, and every such string is accepted. */
  lemma ValidTokenIff(t: string)
    ensures ValidToken(t) <==>
            |t| == 40 && (t[..4] == "ghp_" || t[..4] == "ghs_")
            && forall k | 4 <= k < 40 :: IsAsciiAlnum(t[k])
  {
    if |t| == 40 {
      var rest := t[4..];
      assert forall k | 4 <= k < 40 :: t[k] == rest[k - 4];
      if forall k | 4 <= k < 40 :: IsAsciiAlnum(t[k]) {
        AllAlnumRun(rest);
      }
      assert StartsWith(t, "ghp_") <==> t[..4] == "ghp_";
      assert StartsWith(t, "ghs_") <==> t[..4] == "ghs_";
    }
  }

  lemma {:induction false} AllAlnumRun(s: string)
    requires forall k | 0 <= k < |s| :: IsAsciiAlnum(s[k])
    ensures AlnumRun(s) == |s|
  {
    if s != [] {
      AllAlnumRun(s[1..]);
    }
  }

  lemma {:induction false} AllRepoRun(s: string)
    requires forall k | 0 <= k < |s| :: IsRepoChar(s[k])
    ensures RepoRun(s) == |s|
  {
    if s != [] {
      AllRepoRun(s[1..]);
    }
  }

  /** The validator accepts exactly the owner/name shapes. */
  lemma ValidRepoIff(r: string)
    ensures ValidRepo(r) ==> RepoShape(r, RepoRun(r))
    ensures forall i :: RepoShape(r, i) ==> ValidRepo(r)
  {
    var n := RepoRun(r);
    if ValidRepo(r) {
      var tail := r[n + 1..];
      assert forall k | n + 1 <= k < |r| :: r[k] == tail[k - n - 1];
    }
    forall i | RepoShape(r, i)
      ensures ValidRepo(r)
    {
      assert forall k | 0 <= k < i :: IsRepoChar(r[k]);
      assert n == i;
      var tail := r[i + 1..];
      assert forall k | 0 <= k < |tail| :: tail[k] == r[k + i + 1];
      AllRepoRun(tail);
    }
  }

  /** An accepted name has exactly one slash. */
  lemma OneSlash(r: string, i: int, j: int)
    requires RepoShape(r, i) && 0 <= j < |r| && r[j] == '/'
    ensures j == i
  {
  }

  lemma OwnerNameAccepted()
    ensures ValidRepo("a.b/c-d")
  {
    ValidRepoIff("a.b/c-d");
    assert RepoShape("a.b/c-d", 3);
  }

  lemma MalformedNamesRefused()
    ensures !ValidRepo("a/b/c") && !ValidRepo("/ui") && !ValidRepo("ui/")
  {
    OneSlashNotValid("a/b/c", 1, 3);
    ValidRepoIff("/ui");
    ValidRepoIff("ui/");
  }

  lemma OneSlashNotValid(r: string, i: int, j: int)
    requires 0 <= i < j < |r| && r[i] == '/' && r[j] == '/'
    ensures !ValidRepo(r)
  {
    ValidRepoIff(r);
    if ValidRepo(r) {
      OneSlash(r, RepoRun(r), i);
      OneSlash(r, RepoRun(r), j);
    }
  }

  // --------------------------------------------- workflow generation

  const MissingFieldsError := "Please select a space, code page, and enter repository name."
  const RepoFormatError := "Please enter a valid repository name in format: username/repository-name"
  const MissingTokenError := "Please provide a GitHub token for auto-push functionality."
  const TokenFormatError := "Please provide a valid GitHub token. Tokens should start with ghp_ or ghs_ and be 40 characters long."
  const WorkflowError := "Failed to generate GitHub Actions workflow. Please try again."

  /** The checks of `generateGitHubActionsWorkflow`, in order: the first
      failing one's message, or none. */
  function GuardError(space: string, codePage: string, repo: string, autoPush: bool, token: string): (e: Option<string>)
    ensures e.None? <==> space != [] && codePage != [] && repo != [] && ValidRepo(repo)
                         && (autoPush ==> ValidToken(token))
    ensures e.None? && autoPush ==> |token| == 40
  {
    if space == [] || codePage == [] || repo == [] then Some(MissingFieldsError)
    else if !ValidRepo(repo) then Some(RepoFormatError)
    else if autoPush && token == [] then Some(MissingTokenError)
    else if autoPush && !ValidToken(token) then Some(TokenFormatError)
    else None
  }

  /** The request sent once the checks pass; the token is left out when
      empty. */
  datatype WorkflowRequest = WorkflowRequest(space: string, codePage: string, testInputPage: Option<string>,
                                             repo: string, branch: string, parallel: bool,
                                             token: Option<string>, autoPush: bool)

  /** The backend's answer: the generated workflow, or a failure. */
  datatype WorkflowReply = Workflow(content: string) | WorkflowFailed

  class WorkflowPanel {
    var space: string
    var codePage: string
    var testInputPage: string
    var repositoryName: string
    var branchName: string
    var parallel: bool
    var autoPush: bool
    var githubToken: string
    var error: string
    var generating: bool
    /** The result shown, once a workflow has been generated. */
    var shown: Option<string>
    /** The requests sent so far. */
    var requests: seq<WorkflowRequest>

    function Request(): WorkflowRequest
      reads this
    {
      WorkflowRequest(space, codePage, if testInputPage == [] then None else Some(testInputPage),
                      repositoryName, branchName, parallel,
                      if githubToken == [] then None else Some(githubToken), autoPush)
    }

    /** `generateGitHubActionsWorkflow`: a failing check sets its message
        and sends nothing; otherwise one request is sent and its reply is
        shown, or the failure message is set. */
    method Generate(api: WorkflowRequest -> WorkflowReply)
      modifies this
      ensures var e := GuardError(old(space), old(codePage), old(repositoryName), old(autoPush), old(githubToken));
              if e.Some? then
                error == e.value && requests == old(requests) && shown == old(shown) && generating == old(generating)
              else
                requests == old(requests) + [old(Request())] && !generating
                && match api(old(Request()))
                   case Workflow(c) => shown == Some(c) && error == []
                   case WorkflowFailed => shown == old(shown) && error == WorkflowError
      ensures Request() == old(Request())
    {
      if space == [] || codePage == [] || repositoryName == [] {
        error := MissingFieldsError;
        return;
      }
      if !ValidRepo(repositoryName) {
        error := RepoFormatError;
        return;
      }
      if autoPush {
        if githubToken == [] {
          error := MissingTokenError;
          return;
        }
        if !ValidToken(githubToken) {
          error := TokenFormatError;
          return;
        }
      }
      generating, error := true, "";
      var req := Request();
      requests := requests + [req];
      var reply := api(req);
      match reply {
        case Workflow(c) => shown := Some(c);
        case WorkflowFailed => error := WorkflowError;
      }
      generating := false;
    }
  }

  /** Without auto-push the token is not checked at all. */
  lemma TokenIgnoredWithoutAutoPush(space: string, codePage: string, repo: string, t1: string, t2: string)
    ensures GuardError(space, codePage, repo, false, t1) == GuardError(space, codePage, repo, false, t2)
  {
  }

  /** The missing-field check comes first: it wins over a malformed name
      and a missing token. */
  lemma MissingFieldsFirst(codePage: string, repo: string, autoPush: bool, token: string)
    ensures GuardError("", codePage, repo, autoPush, token) == Some(MissingFieldsError)
  {
  }

  /** With auto-push, a malformed name is reported before a bad token. */
  lemma RepoBeforeToken(space: string, codePage: string, repo: string, token: string)
    requires space != [] && codePage != [] && repo != [] && !ValidRepo(repo)
    ensures GuardError(space, codePage, repo, true, token) == Some(RepoFormatError)
  {
  }

  // ------------------------------------------------------ test report

  /** A test report; an empty string stands for a section not generated. */
  datatype TestReport = TestReport(strategy: string, crossPlatform: string, sensitivity: string)

  const Arrow: char := '\U{2192}'

  /** `.replace(/→/g, '->')` */
  function ReplaceArrows(s: string): (r: string)
    ensures Arrow !in r
  {
    ReplaceChar(s, Arrow, "->")
  }

  const NoStrategy := "No test strategy generated."
  const NoCrossPlatform := "No cross-platform analysis generated."
  const NoSensitivity := "No sensitivity analysis generated."

  /** The report stored by `generateAllAnalyses`: each missing analysis
      replaced by its placeholder, the cross-platform one with its arrows
      replaced (the placeholder has none, see PlaceholderHasNoArrow). */
  function ReportOf(strategy: string, crossPlatform: string, sensitivity: string): (r: TestReport)
    ensures r.strategy != [] && r.crossPlatform != [] && r.sensitivity != []
    ensures Arrow !in r.crossPlatform
    ensures strategy != [] ==> r.strategy == strategy
    ensures sensitivity != [] ==> r.sensitivity == sensitivity
    ensures crossPlatform != [] ==> r.crossPlatform == ReplaceArrows(crossPlatform)
    ensures strategy == [] ==> r.strategy == NoStrategy
    ensures crossPlatform == [] ==> r.crossPlatform == NoCrossPlatform
    ensures sensitivity == [] ==> r.sensitivity == NoSensitivity
  {
    ArrowsKeepNonEmpty(crossPlatform);
    PlaceholderHasNoArrow();
    TestReport(if strategy != [] then strategy else NoStrategy,
               if crossPlatform != [] then ReplaceArrows(crossPlatform) else NoCrossPlatform,
               if sensitivity != [] then sensitivity else NoSensitivity)
  }

  /** Replacing the arrows of the cross-platform placeholder leaves it as it is. */
  lemma PlaceholderHasNoArrow()
    ensures Arrow !in NoCrossPlatform
    ensures ReplaceArrows(NoCrossPlatform) == NoCrossPlatform
  {
    NoArrowUnchanged(NoCrossPlatform);
  }

  lemma ArrowsKeepNonEmpty(s: string)
    ensures s != [] ==> ReplaceArrows(s) != []
  {
  }

  /** Each arrow becomes `->` and the text around it is kept; any other
      character is kept as it is. */
  lemma ArrowBecomesAsciiArrow(a: string, b: string, x: char)
    ensures ReplaceArrows(a + [Arrow] + b) == ReplaceArrows(a) + "->" + ReplaceArrows(b)
    ensures x != Arrow ==> ReplaceArrows(a + [x] + b) == ReplaceArrows(a) + [x] + ReplaceArrows(b)
  {
    ReplaceCharAt(a, b, Arrow, "->");
    ReplaceCharAppend(a, [x] + b, Arrow, "->");
    ReplaceCharAppend([x], b, Arrow, "->");
    assert a + [x] + b == a + ([x] + b);
    assert [x][1..] == [];
  }

  /** Replacing arrows twice is replacing them once. */
  lemma {:induction false} ReplaceArrowsIdempotent(s: string)
    ensures ReplaceArrows(ReplaceArrows(s)) == ReplaceArrows(s)
  {
    NoArrowUnchanged(ReplaceArrows(s));
  }

  /** Text without an arrow is stored unchanged. */
  lemma {:induction false} NoArrowUnchanged(s: string)
    requires Arrow !in s
    ensures ReplaceArrows(s) == s
    decreases |s|
  {
    if s != [] {
      assert s[0] != Arrow;
      assert Arrow !in s[1..];
      NoArrowUnchanged(s[1..]);
      assert s == [s[0]] + s[1..];
    }
  }

  const StrategyHeading := "Test Strategy"
  const CrossPlatformHeading := "Cross-Platform Analysis"
  const SensitivityHeading := "Sensitivity Analysis"

  /** One section of the saved content: its heading and text, or nothing
      when the section is absent. */
  function Section(heading: string, text: string): (r: string)
    ensures text == [] <==> r == []
    ensures text != [] ==> StartsWith(r, "# " + heading + "\n" + text)
  {
    if text == [] then "" else "# " + heading + "\n" + text + "\n"
  }

  /** The content the save and preview buttons build. */
  function ContentOf(rep: TestReport): string {
    Section(StrategyHeading, rep.strategy) + Section(CrossPlatformHeading, rep.crossPlatform)
    + Section(SensitivityHeading, rep.sensitivity)
  }

  /** The content built with `content +=`: none when it is empty, which
      the buttons refuse with an alert. */
  method SaveContent(rep: TestReport) returns (content: Option<string>)
    ensures content.None? <==> rep.strategy == [] && rep.crossPlatform == [] && rep.sensitivity == []
    ensures content.Some? ==> content.value == ContentOf(rep)
  {
    var c := "";
    if rep.strategy != [] {
      c := c + Section(StrategyHeading, rep.strategy);
    }
    if rep.crossPlatform != [] {
      c := c + Section(CrossPlatformHeading, rep.crossPlatform);
    }
    if rep.sensitivity != [] {
      c := c + Section(SensitivityHeading, rep.sensitivity);
    }
    if c == [] {
      return None;
    }
    return Some(c);
  }

  /** The sections come in the fixed order strategy, cross-platform,
      sensitivity: an absent section leaves no trace, so the content of a
      report without its cross-platform analysis is the strategy section
      followed directly by the sensitivity section. */
  lemma SectionsInOrder(rep: TestReport)
    ensures StartsWith(ContentOf(rep), Section(StrategyHeading, rep.strategy))
    ensures rep.strategy == [] ==> StartsWith(ContentOf(rep), Section(CrossPlatformHeading, rep.crossPlatform))
    ensures EndsWith(ContentOf(rep), Section(SensitivityHeading, rep.sensitivity))
    ensures rep.crossPlatform == [] ==>
            ContentOf(rep) == Section(StrategyHeading, rep.strategy) + Section(SensitivityHeading, rep.sensitivity)
  {
    var a := Section(StrategyHeading, rep.strategy);
    var b := Section(CrossPlatformHeading, rep.crossPlatform);
    var c := Section(SensitivityHeading, rep.sensitivity);
    assert ContentOf(rep) == a + b + c;
    assert a <= a + b + c;
    assert (a + b + c)[|a + b + c| - |c|..] == c;
    if rep.strategy == [] {
      assert a + b + c == b + c;
    }
    if rep.crossPlatform == [] {
      assert a + b + c == a + c;
    }
  }

  /** A report from `generateAllAnalyses` always has something to save. */
  lemma GeneratedReportSaves(strategy: string, crossPlatform: string, sensitivity: string)
    ensures ContentOf(ReportOf(strategy, crossPlatform, sensitivity)) != []
  {
  }
}

=== FILE: text.dfy ===
/** String primitives shared by the backend (Python) and frontend (TypeScript)
    modules: whitespace classes, ASCII case mapping, substring search, the
    `split`/`join`/`splitlines`/`strip` family and decimal rendering.

    Strings are sequences of Unicode scalar values. Case mapping is ASCII-only,
    and lengths count code points (not UTF-16 units). */
module Text {

  datatype Option<+T> = None | Some(value: T)

  /** Which language's notion of whitespace a trim or `\s` uses. */
  datatype Flavor = Py | Js

  /** Python's `str.isspace()`, which is also what `\s`, `strip()` and
      `split()` use on `str` values. */
  predicate IsPySpace(c: char) {
    c == ' ' || ('\t' <= c <= '\r') || ('\U{1C}' <= c <= '\U{1F}')
    || c == '\U{85}' || c == '\U{A0}' || c == '\U{1680}'
    || ('\U{2000}' <= c <= '\U{200A}') || c == '\U{2028}' || c == '\U{2029}'
    || c == '\U{202F}' || c == '\U{205F}' || c == '\U{3000}'
  }

  /** JavaScript's `\s` and the set `String.prototype.trim` removes. */
  predicate IsJsSpace(c: char) {
    if c < '\U{A0}' then c == ' ' || ('\t' <= c <= '\r')
    else c == '\U{A0}' || c == '\U{1680}' || ('\U{2000}' <= c <= '\U{200A}')
         || c == '\U{2028}' || c == '\U{2029}' || c == '\U{202F}' || c == '\U{205F}'
         || c == '\U{3000}' || c == '\U{FEFF}'
  }

  predicate IsSpace(f: Flavor, c: char) {
    match f
    case Py => IsPySpace(c)
    case Js => IsJsSpace(c)
  }

  predicate IsAsciiDigit(c: char) { '0' <= c <= '9' }
  predicate IsAsciiLetter(c: char) { ('a' <= c <= 'z') || ('A' <= c <= 'Z') }
  predicate IsAsciiAlnum(c: char) { IsAsciiDigit(c) || IsAsciiLetter(c) }
  /** `\w` restricted to ASCII: letters, digits and underscore. */
  predicate IsWordChar(c: char) { IsAsciiAlnum(c) || c == '_' }
  predicate IsAscii(c: char) { c as int <= 0x7F }

  function LowerChar(c: char): char {
    if 'A' <= c <= 'Z' then (c as int + 32) as char else c
  }

  function UpperChar(c: char): char {
    if 'a' <= c <= 'z' then (c as int - 32) as char else c
  }

  function Lower(s: string): (r: string)
    ensures |r| == |s|
    ensures forall i | 0 <= i < |s| :: r[i] == LowerChar(s[i])
  {
    seq(|s|, i requires 0 <= i < |s| => LowerChar(s[i]))
  }

  function Upper(s: string): (r: string)
    ensures |r| == |s|
    ensures forall i | 0 <= i < |s| :: r[i] == UpperChar(s[i])
  {
    seq(|s|, i requires 0 <= i < |s| => UpperChar(s[i]))
  }

  lemma UpperHasNoLowerLetter(s: string, i: int)
    requires 0 <= i < |s|
    ensures !('a' <= Upper(s)[i] <= 'z')
  {
  }

  /** `t` occurs in `s` starting at index `i`. */
  predicate MatchAt(s: string, t: string, i: int) {
    0 <= i && i + |t| <= |s| && s[i..i + |t|] == t
  }

  /** `t in s` (Python) / `s.includes(t)` (JavaScript). */
  predicate Contains(s: string, t: string) {
    exists i | 0 <= i <= |s| - |t| :: MatchAt(s, t, i)
  }

  lemma ContainsMiddle(a: string, t: string, b: string)
    ensures Contains(a + t + b, t)
  {
    assert (a + t + b)[|a|..|a| + |t|] == t;
    assert MatchAt(a + t + b, t, |a|);
  }

  /** A string without the character `c` contains no pattern that has it. */
  lemma NotContainsWithoutChar(s: string, t: string, c: char)
    requires c in t && c !in s
    ensures !Contains(s, t)
  {
    var k :| 0 <= k < |t| && t[k] == c;
    forall i | 0 <= i <= |s| - |t|
      ensures !MatchAt(s, t, i)
    {
      assert s[i..i + |t|][k] == s[i + k] != c;
    }
  }

  predicate ContainsAny(s: string, ts: seq<string>) {
    exists k | 0 <= k < |ts| :: Contains(s, ts[k])
  }

  /** `s.startswith(p)` / `s.startsWith(p)`. */
  predicate StartsWith(s: string, p: string) { p <= s }

  predicate EndsWith(s: string, t: string) {
    |t| <= |s| && s[|s| - |t|..] == t
  }

  /** Python slicing `s[:n]` for `n >= 0`. */
  function Take(s: string, n: nat): (r: string)
    ensures |r| <= n && r <= s
    ensures |s| <= n ==> r == s
    ensures |s| > n ==> |r| == n
  {
    if |s| <= n then s else s[..n]
  }

  // ---------------------------------------------------------------- trimming

  function TrimStart(s: string, f: Flavor): (r: string)
    ensures |r| <= |s| && r == s[|s| - |r|..]
    ensures forall k | 0 <= k < |s| - |r| :: IsSpace(f, s[k])
    ensures r != [] ==> !IsSpace(f, r[0])
    decreases |s|
  {
    if |s| > 0 && IsSpace(f, s[0]) then TrimStart(s[1..], f) else s
  }

  function TrimEnd(s: string, f: Flavor): (r: string)
    ensures |r| <= |s| && r == s[..|r|]
    ensures forall k | |r| <= k < |s| :: IsSpace(f, s[k])
    ensures r != [] ==> !IsSpace(f, r[|r| - 1])
    decreases |s|
  {
    if |s| > 0 && IsSpace(f, s[|s| - 1]) then TrimEnd(s[..|s| - 1], f) else s
  }

  /** Python `s.strip()` (f == Py) and JavaScript `s.trim()` (f == Js). */
  function Trim(s: string, f: Flavor): (r: string)
    ensures |r| <= |s|
    ensures r != [] ==> !IsSpace(f, r[0]) && !IsSpace(f, r[|r| - 1])
    ensures r == [] <==> forall k | 0 <= k < |s| :: IsSpace(f, s[k])
  {
    var a := TrimStart(s, f);
    var r := TrimEnd(a, f);
    assert r != [] ==> r[0] == a[0];
    r
  }

  /** Leading white space before a non-space start is what `TrimStart` removes. */
  lemma {:induction false} TrimStartPastSpaces(w: string, x: string, f: Flavor)
    requires forall k | 0 <= k < |w| :: IsSpace(f, w[k])
    requires x == [] || !IsSpace(f, x[0])
    ensures TrimStart(w + x, f) == x
    decreases |w|
  {
    if w == [] {
      assert w + x == x;
    } else {
      assert (w + x)[1..] == w[1..] + x;
      TrimStartPastSpaces(w[1..], x, f);
    }
  }

  /** Trailing white space after a non-space end is what `TrimEnd` removes. */
  lemma {:induction false} TrimEndPastSpaces(u: string, w: string, f: Flavor)
    requires u != [] && !IsSpace(f, u[|u| - 1])
    requires forall k | 0 <= k < |w| :: IsSpace(f, w[k])
    ensures TrimEnd(u + w, f) == u
    decreases |w|
  {
    if w == [] {
      assert u + w == u;
    } else {
      assert (u + w)[..|u + w| - 1] == u + w[..|w| - 1];
      TrimEndPastSpaces(u, w[..|w| - 1], f);
    }
  }

  /** Whether `s` is all white space of flavour `f`, so that its trimmed
      form is empty (see `BlankIsTrimEmpty`). */
  predicate Blank(s: string, f: Flavor) {
    s == [] || (IsSpace(f, s[0]) && Blank(s[1..], f))
  }

  lemma {:induction false} BlankIsTrimEmpty(s: string, f: Flavor)
    ensures Blank(s, f) <==> Trim(s, f) == []
  {
    if s != [] {
      BlankIsTrimEmpty(s[1..], f);
      assert forall k | 1 <= k < |s| :: s[1..][k - 1] == s[k];
    }
  }

  /** Python `s.lstrip(chars)`: removes a leading run of characters drawn from `chars`. */
  function LStripChars(s: string, chars: string): (r: string)
    ensures |r| <= |s| && r == s[|s| - |r|..]
    ensures r != [] ==> r[0] !in chars
    decreases |s|
  {
    if |s| > 0 && s[0] in chars then LStripChars(s[1..], chars) else s
  }

  // -------------------------------------------------------- split and join

  /** `s.split(sep)` in Python and in JavaScript (a string separator):
      non-overlapping occurrences, searched left to right; always at least
      one part. */
  function SplitOn(s: string, sep: string): (parts: seq<string>)
    requires |sep| > 0
    ensures |parts| >= 1
    decreases |s|
  {
    if |s| == 0 then [""]
    else if sep <= s then [""] + SplitOn(s[|sep|..], sep)
    else
      var rest := SplitOn(s[1..], sep);
      [[s[0]] + rest[0]] + rest[1..]
  }

  /** `sep.join(parts)` / `parts.join(sep)`. */
  function Join(parts: seq<string>, sep: string): string {
    if |parts| == 0 then ""
    else if |parts| == 1 then parts[0]
    else parts[0] + sep + Join(parts[1..], sep)
  }

  /** `f` applied to each element, the results concatenated in order. */
  function FlatMap(f: string -> seq<string>, xs: seq<string>): seq<string> {
    if xs == [] then [] else f(xs[0]) + FlatMap(f, xs[1..])
  }

  /** Mapping works element by element, so it distributes over `+`. */
  lemma {:induction false} FlatMapAppend(f: string -> seq<string>, a: seq<string>, b: seq<string>)
    ensures FlatMap(f, a + b) == FlatMap(f, a) + FlatMap(f, b)
  {
    if a == [] {
      assert a + b == b;
    } else {
      assert (a + b)[0] == a[0];
      assert (a + b)[1..] == a[1..] + b;
      FlatMapAppend(f, a[1..], b);
    }
  }

  /** An `f` giving at most one result per element gives no more results than elements. */
  lemma {:induction false} FlatMapShort(f: string -> seq<string>, xs: seq<string>)
    requires forall x :: |f(x)| <= 1
    ensures |FlatMap(f, xs)| <= |xs|
  {
    if xs != [] {
      FlatMapShort(f, xs[1..]);
    }
  }

  lemma JoinCons(p: string, ps: seq<string>, sep: string)
    requires |ps| >= 1
    ensures Join([p] + ps, sep) == p + sep + Join(ps, sep)
  {
    assert ([p] + ps)[1..] == ps;
  }

  /** Joining two non-empty runs of parts. */
  lemma {:induction false} JoinAppend(a: seq<string>, b: seq<string>, sep: string)
    requires |a| >= 1 && |b| >= 1
    ensures Join(a + b, sep) == Join(a, sep) + sep + Join(b, sep)
  {
    if |a| == 1 {
      JoinCons(a[0], b, sep);
      assert a + b == [a[0]] + b;
    } else {
      assert (a + b)[1..] == a[1..] + b;
      assert a + b == [a[0]] + (a[1..] + b);
      JoinCons(a[0], a[1..] + b, sep);
      JoinAppend(a[1..], b, sep);
      JoinCons(a[0], a[1..], sep);
      assert a == [a[0]] + a[1..];
    }
  }

  lemma JoinHeadExtend(c: char, ps: seq<string>, sep: string)
    requires |ps| >= 1
    ensures Join([[c] + ps[0]] + ps[1..], sep) == [c] + Join(ps, sep)
  {
    if |ps| > 1 {
      JoinCons([c] + ps[0], ps[1..], sep);
      JoinCons(ps[0], ps[1..], sep);
      assert ps == [ps[0]] + ps[1..];
    }
  }

  /** Splitting and joining back with the same separator gives the input. */
  lemma {:induction false} JoinSplitOn(s: string, sep: string)
    requires |sep| > 0
    ensures Join(SplitOn(s, sep), sep) == s
    decreases |s|
  {
    if |s| == 0 {
    } else if sep <= s {
      var tail := s[|sep|..];
      JoinSplitOn(tail, sep);
      assert s == sep + tail by {
        assert s == s[..|sep|] + tail;
      }
      JoinSplitAtSep(sep, tail);
    } else {
      JoinSplitOn(s[1..], sep);
      assert s == [s[0]] + s[1..];
      JoinSplitAtChar(s[0], s[1..], sep);
    }
  }

  /** The step of `JoinSplitOn` where the input starts with the separator. */
  lemma JoinSplitAtSep(sep: string, tail: string)
    requires |sep| > 0
    ensures Join(SplitOn(sep + tail, sep), sep) == sep + Join(SplitOn(tail, sep), sep)
  {
    var s := sep + tail;
    assert sep <= s && s[|sep|..] == tail;
    var rest := SplitOn(tail, sep);
    assert SplitOn(s, sep) == [""] + rest;
    JoinCons("", rest, sep);
  }

  /** The step of `JoinSplitOn` where the input does not start with the separator. */
  lemma JoinSplitAtChar(c: char, tail: string, sep: string)
    requires |sep| > 0 && !(sep <= [c] + tail)
    ensures Join(SplitOn([c] + tail, sep), sep) == [c] + Join(SplitOn(tail, sep), sep)
  {
    var s := [c] + tail;
    assert s[0] == c && s[1..] == tail;
    JoinHeadExtend(c, SplitOn(tail, sep), sep);
  }

  /** Splitting on a one-character separator leaves no separator in any part. */
  lemma {:induction false} SplitOnCharFree(s: string, c: char, k: nat)
    requires k < |SplitOn(s, [c])|
    ensures c !in SplitOn(s, [c])[k]
    decreases |s|
  {
    if |s| == 0 {
    } else if [c] <= s {
      if k > 0 {
        SplitOnCharFree(s[1..], c, k - 1);
      }
    } else {
      assert s[0] != c;
      var rest := SplitOn(s[1..], [c]);
      SplitOnCharFree(s[1..], c, if k == 0 then 0 else k);
      if k == 0 {
        assert SplitOn(s, [c])[0] == [s[0]] + rest[0];
      } else {
        assert SplitOn(s, [c])[k] == rest[k];
      }
    }
  }

  /** A text without the separator is not split. */
  lemma {:induction false} SplitOnCharAbsent(s: string, c: char)
    requires c !in s
    ensures SplitOn(s, [c]) == [s]
    decreases |s|
  {
    if s != [] {
      assert s[0] != c;
      assert !([c] <= s);
      SplitOnCharAbsent(s[1..], c);
      assert s == [s[0]] + s[1..];
    }
  }

  /** A separator-free part followed by the separator is split off whole. */
  lemma {:induction false} SplitOnCharPrefix(p: string, c: char, r: string)
    requires c !in p
    ensures SplitOn(p + [c] + r, [c]) == [p] + SplitOn(r, [c])
    decreases |p|
  {
    var s := p + [c] + r;
    if p == [] {
      assert s == [c] + r && [c] <= s && s[1..] == r;
    } else {
      assert s[0] == p[0] && p[0] != c;
      assert !([c] <= s);
      assert s[1..] == p[1..] + [c] + r;
      SplitOnCharPrefix(p[1..], c, r);
      assert p == [p[0]] + p[1..];
    }
  }

  /** Joining separator-free parts and splitting again gives the parts back. */
  lemma {:induction false} SplitJoinChar(ps: seq<string>, c: char)
    requires |ps| >= 1
    requires forall k | 0 <= k < |ps| :: c !in ps[k]
    ensures SplitOn(Join(ps, [c]), [c]) == ps
    decreases |ps|
  {
    if |ps| == 1 {
      SplitOnCharAbsent(ps[0], c);
    } else {
      SplitJoinChar(ps[1..], c);
      SplitOnCharPrefix(ps[0], c, Join(ps[1..], [c]));
      assert ps == [ps[0]] + ps[1..];
    }
  }

  /** Python's line boundaries for `str.splitlines()`. */
  predicate IsLineBreak(c: char) {
    c == '\n' || c == '\r' || c == '\U{0B}' || c == '\U{0C}' || ('\U{1C}' <= c <= '\U{1E}')
    || c == '\U{85}' || c == '\U{2028}' || c == '\U{2029}'
  }

  function LineLength(s: string): (n: nat)
    ensures n <= |s|
    ensures forall k | 0 <= k < n :: !IsLineBreak(s[k])
    ensures n < |s| ==> IsLineBreak(s[n])
  {
    if s == [] || IsLineBreak(s[0]) then 0 else 1 + LineLength(s[1..])
  }

  /** Python `s.splitlines()`: `\r\n` is one boundary and a final line
      terminator does not produce an empty last line. */
  function SplitLines(s: string): (lines: seq<string>)
    ensures s == [] <==> lines == []
    ensures |lines| <= |s|
    ensures forall k | 0 <= k < |lines| :: forall j | 0 <= j < |lines[k]| :: !IsLineBreak(lines[k][j])
    decreases |s|
  {
    if s == [] then []
    else
      var i := LineLength(s);
      if i == |s| then [s]
      else
        var skip := if s[i] == '\r' && i + 1 < |s| && s[i + 1] == '\n' then 2 else 1;
        [s[..i]] + SplitLines(s[i + skip..])
  }

  // ----------------------------------------------------- character filters

  /** Replaces each occurrence of the character `c` by the string `by`. */
  function ReplaceChar(s: string, c: char, repl: string): (r: string)
    ensures c !in repl ==> c !in r
    decreases |s|
  {
    if s == [] then ""
    else (if s[0] == c then repl else [s[0]]) + ReplaceChar(s[1..], c, repl)
  }

  /** Replacement works piece by piece. */
  lemma {:induction false} ReplaceCharAppend(a: string, b: string, c: char, repl: string)
    ensures ReplaceChar(a + b, c, repl) == ReplaceChar(a, c, repl) + ReplaceChar(b, c, repl)
    decreases |a|
  {
    if a == [] {
      assert a + b == b;
    } else {
      assert (a + b)[0] == a[0] && (a + b)[1..] == a[1..] + b;
      ReplaceCharAppend(a[1..], b, c, repl);
    }
  }

  /** Each occurrence of `c` becomes `repl`, and the text around it is
      replaced on its own. */
  lemma ReplaceCharAt(a: string, b: string, c: char, repl: string)
    ensures ReplaceChar(a + [c] + b, c, repl) == ReplaceChar(a, c, repl) + repl + ReplaceChar(b, c, repl)
  {
    ReplaceCharAppend(a, [c] + b, c, repl);
    assert a + [c] + b == a + ([c] + b);
    assert ([c] + b)[1..] == b;
  }

  /** The characters of `s` whose code point is at most `max`, in order. */
  function KeepUpTo(s: string, max: int): (r: string)
    ensures |r| <= |s|
    ensures forall k | 0 <= k < |r| :: r[k] as int <= max
    ensures (forall k | 0 <= k < |s| :: s[k] as int <= max) ==> r == s
    decreases |s|
  {
    if s == [] then ""
    else (if s[0] as int <= max then [s[0]] else "") + KeepUpTo(s[1..], max)
  }

  // ------------------------------------------------------------- numbers

  function DigitChar(d: nat): char
    requires d < 10
  {
    "0123456789"[d]
  }

  function NatToString(n: nat): (r: string)
    ensures |r| >= 1
    ensures forall k | 0 <= k < |r| :: IsAsciiDigit(r[k])
  {
    if n < 10 then [DigitChar(n)] else NatToString(n / 10) + [DigitChar(n % 10)]
  }

  /** Python `str(i)` / JavaScript `String(i)` for an integer. */
  function IntToString(i: int): (r: string)
    ensures |r| >= 1
  {
    if i < 0 then "-" + NatToString(-i) else NatToString(i)
  }
}

=== FILE: timestamps.dfy ===
/** `extract_timestamps_from_summary` (backend/main.py): a line scanner over a
    video summary that starts collecting after the first line mentioning
    `Timestamps:`, stops at the first blank or `**`-prefixed line, and turns
    each collected line into one timestamp entry. */
module Timestamps {
  import opened Text

  /** `"**Timestamps:**" in line or "Timestamps:" in line`; the first test
      implies the second. */
  predicate IsHeader(line: string) {
    Contains(line, "Timestamps:")
  }

  /** `not line.strip() or line.strip().startswith("**")` */
  predicate IsStop(line: string) {
    Trim(line, Py) == [] || StartsWith(Trim(line, Py), "**")
  }

  // --------------------------------------- the `[mm:ss-mm:ss]` pattern

  /** The end of a match of `\d{1,2}:\d{2}` at `i` (ASCII digits). */
  function ClockEnd(s: string, i: nat): (e: Option<nat>)
    ensures e.Some? ==> i + 4 <= e.value <= i + 5 && e.value <= |s|
  {
    if i < |s| && IsAsciiDigit(s[i]) then
      var j := if i + 1 < |s| && IsAsciiDigit(s[i + 1]) then i + 2 else i + 1;
      if j + 3 <= |s| && s[j] == ':' && IsAsciiDigit(s[j + 1]) && IsAsciiDigit(s[j + 2])
      then Some(j + 3) else None
    else None
  }

  /** The end of a match of `\d{1,2}:\d{2}-\d{1,2}:\d{2}` at `i`. */
  function RangeEnd(s: string, i: nat): (e: Option<nat>)
    ensures e.Some? ==> i + 9 <= e.value <= |s|
  {
    match ClockEnd(s, i)
    case None => None
    case Some(m) =>
      if m < |s| && s[m] == '-' then ClockEnd(s, m + 1) else None
  }

  /** `re.match(r"^\*?\s*\[(\d{1,2}:\d{2}-\d{1,2}:\d{2})\]\s*(.*)", t)`:
      the captured range and the text after it. Backtracking cannot help
      this pattern: a shorter `\s*` or `\d{1,2}` run leaves a space or a
      digit where `[` or `:` is required. */
  function MatchTimestamp(t: string): (m: Option<(string, string)>)
    ensures m.Some? ==> |m.value.0| >= 9 && |m.value.1| < |t|
  {
    var a := if t != [] && t[0] == '*' then t[1..] else t;
    MatchBracket(TrimStart(a, Py))
  }

  /** The part of the pattern from `[` on, matched at the start of `b`. */
  function MatchBracket(b: string): (m: Option<(string, string)>)
    ensures m.Some? ==> |m.value.0| >= 9 && |m.value.1| < |b|
  {
    if b == [] || b[0] != '[' then None
    else CloseBracket(b, RangeEnd(b, 1))
  }

  /** The `]` right after the range that ends at `e`, and the text after it. */
  function CloseBracket(b: string, e: Option<nat>): (m: Option<(string, string)>)
    requires e.Some? ==> 10 <= e.value
    ensures m.Some? ==> |m.value.0| >= 9 && |m.value.1| < |b|
  {
    if e.None? || e.value >= |b| || b[e.value] != ']' then None
    else Some((b[1..e.value], TrimStart(b[e.value + 1..], Py)))
  }

  /** The entry one collected line contributes. */
  function Entry(line: string): (r: string)
    ensures MatchTimestamp(Trim(line, Py)).Some? ==> StartsWith(r, "[")
  {
    var t := Trim(line, Py);
    match MatchTimestamp(t)
    case Some((range, text)) => "[" + range + "] " + text
    case None =>
      if StartsWith(t, "*") || StartsWith(t, "-") then Trim(LStripChars(t, "* -"), Py)
      else t
  }

  // ------------------------------------------------------ the scanner

  /** The scan from a state (`collecting` or not) over the remaining lines:
      a header line switches collecting on and is skipped; while collecting,
      a stop line ends the scan and any other line yields its entry. */
  function Scan(lines: seq<string>, collecting: bool): (entries: seq<string>)
    ensures |entries| <= |lines|
  {
    if lines == [] then []
    else if IsHeader(lines[0]) then Scan(lines[1..], true)
    else if !collecting then Scan(lines[1..], false)
    else if IsStop(lines[0]) then []
    else [Entry(lines[0])] + Scan(lines[1..], true)
  }

  /** The entries of a summary: at most one per line. */
  function TimestampsOf(summary: string): (entries: seq<string>)
    ensures |entries| <= |SplitLines(summary)|
  {
    Scan(SplitLines(summary), false)
  }

  /** The loop of `extract_timestamps_from_summary`. */
  method ExtractTimestamps(summary: string) returns (timestamps: seq<string>)
    ensures timestamps == TimestampsOf(summary)
  {
    var lines := SplitLines(summary);
    timestamps := [];
    var collecting := false;
    var i := 0;
    while i < |lines|
      invariant 0 <= i <= |lines|
      invariant timestamps + Scan(lines[i..], collecting) == Scan(lines, false)
    {
      var line := lines[i];
      ScanStep(lines, i, collecting, timestamps);
      if IsHeader(line) {
        collecting := true;
        i := i + 1;
        continue;
      }
      if collecting {
        if IsStop(line) {
          break;
        }
        timestamps := timestamps + [Entry(line)];
      }
      i := i + 1;
    }
  }

  /** One step of the scan at line `i`, with the entries `ts` collected
      before it. */
  lemma ScanStep(lines: seq<string>, i: nat, collecting: bool, ts: seq<string>)
    requires i < |lines|
    ensures IsHeader(lines[i]) ==> ts + Scan(lines[i..], collecting) == ts + Scan(lines[i + 1..], true)
    ensures !IsHeader(lines[i]) && !collecting ==> ts + Scan(lines[i..], collecting) == ts + Scan(lines[i + 1..], false)
    ensures !IsHeader(lines[i]) && collecting && IsStop(lines[i]) ==> ts + Scan(lines[i..], collecting) == ts
    ensures !IsHeader(lines[i]) && collecting && !IsStop(lines[i]) ==>
      ts + Scan(lines[i..], collecting) == (ts + [Entry(lines[i])]) + Scan(lines[i + 1..], true)
  {
    assert lines[i..][1..] == lines[i + 1..];
  }

  // ------------------------------------------------------- properties

  /** A line `[range]` + spaces + `text`, or the bullet form `* [range]` +
      spaces + `text`, gives the entry `[range] text`: the bullet and the
      spaces are dropped and exactly one space separates range and text. */
  lemma TimestampLineEntry(r: string, w: string, x: string, bullet: bool)
    requires RangeEnd(r, 0) == Some(|r|)
    requires forall k | 0 <= k < |w| :: IsPySpace(w[k])
    requires Trim(x, Py) == x
    ensures Entry((if bullet then "* " else "") + "[" + r + "]" + w + x) == "[" + r + "] " + x
  {
    var u := (if bullet then "* " else "") + "[" + r + "]";
    var line := (if bullet then "* " else "") + "[" + r + "]" + w + x;
    assert line == u + w + x;
    var tail := if x == [] then [] else w + x;
    TrimOfBracketLine(u, w, x);
    assert Trim(line, Py) == u + tail;
    if x != [] {
      TrimStartPastSpaces(w, x, Py);
    }
    assert TrimStart(tail, Py) == x;
    MatchBracketLine(r, tail, bullet);
  }

  /** Trimming a line `u + w + x`, with `u` starting at a non-space and
      ending in `]`, keeps `u` and keeps `w + x` only when `x` is not empty. */
  lemma TrimOfBracketLine(u: string, w: string, x: string)
    requires u != [] && !IsPySpace(u[0]) && u[|u| - 1] == ']'
    requires forall k | 0 <= k < |w| :: IsPySpace(w[k])
    requires Trim(x, Py) == x
    ensures Trim(u + w + x, Py) == u + (if x == [] then [] else w + x)
  {
    var line := u + w + x;
    assert TrimStart(line, Py) == line;
    if x == [] {
      assert line == u + w;
      TrimEndPastSpaces(u, w, Py);
    } else {
      assert line[|line| - 1] == x[|x| - 1];
      assert TrimEnd(line, Py) == line;
      assert line == u + (w + x);
    }
  }

  /** The pattern captures the range of `[range]` + `tail`, with or without
      a leading `* `, and the tail without its leading white space. */
  lemma MatchBracketLine(r: string, tail: string, bullet: bool)
    requires RangeEnd(r, 0) == Some(|r|)
    ensures MatchTimestamp((if bullet then "* " else "") + "[" + r + "]" + tail) == Some((r, TrimStart(tail, Py)))
  {
    var pre := if bullet then "* " else "";
    var b := "[" + r + "]" + tail;
    BracketRegroup(pre, r, tail);
    BracketParts(r, tail);
    MatchBracketed(b, r);
    if bullet {
      MatchBullet(b);
    } else {
      assert pre + b == b;
    }
  }

  lemma BracketRegroup(pre: string, r: string, tail: string)
    ensures pre + "[" + r + "]" + tail == pre + ("[" + r + "]" + tail)
  {
  }

  lemma BracketParts(r: string, tail: string)
    ensures var b := "[" + r + "]" + tail;
            |b| == |r| + 2 + |tail| && b[0] == '[' && b[1 + |r|] == ']'
            && b[1..1 + |r|] == r && b[|r| + 2..] == tail
  {
  }

  /** A leading `* ` before the bracket changes nothing. */
  lemma MatchBullet(b: string)
    requires b != [] && b[0] == '['
    ensures MatchTimestamp("* " + b) == MatchTimestamp(b)
  {
    var t := "* " + b;
    assert t[0] == '*' && t[1..] == [' '] + b;
    TrimStartPastSpaces([' '], b, Py);
    assert MatchTimestamp(t) == MatchBracket(b);
    assert TrimStart(b, Py) == b;
  }

  lemma MatchBracketed(b: string, r: string)
    requires RangeEnd(r, 0) == Some(|r|)
    requires |r| + 2 <= |b| && b[0] == '[' && b[1 + |r|] == ']' && b[1..1 + |r|] == r
    ensures MatchTimestamp(b) == Some((r, TrimStart(b[|r| + 2..], Py)))
  {
    RangeShift(r, b);
    MatchAtBracket(b, 1 + |r|);
    assert b[1 + |r| + 1..] == b[|r| + 2..];
  }

  /** On a text that starts with `[`, the pattern is the range and the `]`
      right after it. */
  lemma MatchAtBracket(b: string, e: nat)
    requires b != [] && b[0] == '[' && RangeEnd(b, 1) == Some(e) && e < |b| && b[e] == ']'
    ensures MatchTimestamp(b) == Some((b[1..e], TrimStart(b[e + 1..], Py)))
  {
    TrimStartPastSpaces([], b, Py);
    assert [] + b == b;
    assert MatchTimestamp(b) == MatchBracket(b);
    BracketAt(b, e);
  }

  lemma BracketAt(b: string, e: nat)
    requires b != [] && b[0] == '[' && RangeEnd(b, 1) == Some(e) && e < |b| && b[e] == ']'
    ensures MatchBracket(b) == Some((b[1..e], TrimStart(b[e + 1..], Py)))
  {
    assert MatchBracket(b) == CloseBracket(b, Some(e));
  }

  /** The range pattern reads only the characters of the range. */
  lemma RangeShift(r: string, b: string)
    requires RangeEnd(r, 0) == Some(|r|)
    requires 1 + |r| <= |b| && b[1..1 + |r|] == r
    ensures RangeEnd(b, 1) == Some(1 + |r|)
  {
    assert forall k | 0 <= k < |r| :: b[1 + k] == r[k];
    var m := ClockEnd(r, 0).value;
    ClockShift(r, b, 0);
    ClockShift(r, b, m + 1);
  }

  lemma ClockShift(r: string, b: string, i: nat)
    requires 1 + |r| <= |b|
    requires forall k | 0 <= k < |r| :: b[1 + k] == r[k]
    requires ClockEnd(r, i).Some?
    ensures ClockEnd(b, 1 + i) == Some(1 + ClockEnd(r, i).value)
  {
  }

  /** Without a header line nothing is collected. */
  lemma {:induction false} NoHeaderNoTimestamps(lines: seq<string>)
    requires forall k | 0 <= k < |lines| :: !IsHeader(lines[k])
    ensures Scan(lines, false) == []
  {
    if lines != [] {
      NoHeaderNoTimestamps(lines[1..]);
    }
  }

  /** Lines before the first header contribute nothing: the result is the
      collecting scan of the lines after it. */
  lemma {:induction false} OnlyAfterFirstHeader(before: seq<string>, header: string, after: seq<string>)
    requires forall k | 0 <= k < |before| :: !IsHeader(before[k])
    requires IsHeader(header)
    ensures Scan(before + [header] + after, false) == Scan(after, true)
  {
    if before == [] {
      assert ([header] + after)[1..] == after;
      assert before + [header] + after == [header] + after;
    } else {
      var rest := before[1..] + [header] + after;
      assert (before + [header] + after)[1..] == rest;
      OnlyAfterFirstHeader(before[1..], header, after);
    }
  }

  /** While collecting, a later header line is skipped rather than emitted,
      and a stop line ends the scan whatever follows. */
  lemma CollectingSkipsHeadersAndStops(line: string, after: seq<string>)
    ensures IsHeader(line) ==> Scan([line] + after, true) == Scan(after, true)
    ensures !IsHeader(line) && IsStop(line) ==> Scan([line] + after, true) == []
    ensures !IsHeader(line) && !IsStop(line) ==> Scan([line] + after, true) == [Entry(line)] + Scan(after, true)
  {
    assert ([line] + after)[1..] == after;
  }

  /** The entries collected before a stop line are exactly those of the
      lines before it. */
  lemma {:induction false} StopEndsCollection(before: seq<string>, stop: string, after: seq<string>)
    requires !IsHeader(stop) && IsStop(stop)
    ensures Scan(before + [stop] + after, true) == Scan(before + [stop], true)
  {
    if before == [] {
      assert before + [stop] + after == [stop] + after;
      assert before + [stop] == [stop] + [];
      CollectingSkipsHeadersAndStops(stop, after);
      CollectingSkipsHeadersAndStops(stop, []);
    } else {
      assert (before + [stop] + after)[1..] == before[1..] + [stop] + after;
      assert (before + [stop])[1..] == before[1..] + [stop];
      StopEndsCollection(before[1..], stop, after);
    }
  }

  /** A dash bullet line without a timestamp becomes its text without the
      bullet. */
  lemma BulletLineEntry(x: string)
    requires x != [] && !IsPySpace(x[0]) && !IsPySpace(x[|x| - 1]) && x[0] !in "* -"
    ensures Entry("- " + x) == x
  {
    var t := "- " + x;
    assert t[0] == '-' && t[|t| - 1] == x[|x| - 1];
    TrimmedAlready(t);
    TrimmedAlready(x);
    NoTimestampWithoutBracket(t);
    DashStripped(x);
    assert StartsWith(t, "-");
  }

  lemma NoTimestampWithoutBracket(t: string)
    requires t != [] && t[0] != '*' && t[0] != '[' && !IsPySpace(t[0])
    ensures MatchTimestamp(t) == None
  {
    assert TrimStart(t, Py) == t;
  }

  lemma DashStripped(x: string)
    requires x != [] && x[0] !in "* -"
    ensures LStripChars("- " + x, "* -") == x
  {
    var chars := "* -";
    var t := "- " + x;
    assert t[0] == '-' == chars[2];
    assert t[1..] == " " + x;
    assert (" " + x)[0] == ' ' == chars[1];
    assert (" " + x)[1..] == x;
    assert t[0] in chars && (" " + x)[0] in chars;
    assert LStripChars(x, chars) == x;
    assert LStripChars(" " + x, chars) == LStripChars(x, chars);
    assert LStripChars(t, chars) == LStripChars(" " + x, chars);
  }

  lemma TrimmedAlready(s: string)
    requires s != [] && !IsPySpace(s[0]) && !IsPySpace(s[|s| - 1])
    ensures Trim(s, Py) == s && TrimStart(s, Py) == s
  {
  }
}
